=== FILE: README.md ===
# Chat service: a Dafny model of the tool-calling orchestrator

This project models the core of the shopping assistant's chat service. That
core has six parts:

- **Orchestrator** (`processMessage`). It seeds a transcript with the system
  prompt, the last ten previous messages and the user's message. It asks the
  model for a completion. While the model asks for tools, and for at most
  five rounds, it runs each tool call, appends one tool message per call and
  asks again. It answers with the last text, the records collected for the
  UI and the names of the tools used.
- **Tool dispatcher** (`executeToolCall`, `collectToolData`). It parses the
  call's argument text and runs the matching adapter. Every failure comes
  back as an `{ error }` payload for the model to read.
- **Tool catalogue**. Six function-tool schemas: three catalog tools, then
  three order tools. The dispatcher recognises the same six names.
- **Adapters** for the product and order services. They make GET calls
  through the Dapr sidecar's service-invocation API and apply the
  not-found-becomes-`null` convention.
- **Model gateway** (`sendChatCompletion`). It makes the provider client
  once, sends one request and maps the first choice.
- **Trace-context middleware**. It resolves the trace id and span id of an
  incoming request and echoes them in the response headers.

Everything outside the process is a parameter:

- the model provider is a function from the request it receives (transcript
  included) to its reply;
- the network is a function from the outgoing request to a response or a
  rejection;
- `response.json()` and `JSON.parse` are a parsing function;
- the clock reading, the base-36 random text and the UUIDs are plain values.

JavaScript's own semantics are written out where the code depends on them:
truthiness, `||` and `??`, property reads that throw on `null`, `String()`,
`JSON.stringify`, `URLSearchParams.set` and `toString`, `slice(-n)`,
`substring`, `split` and `toUpperCase`. Each has a partner that reads its
result back: a parser for the query string, a reader for JSON strings, a
decimal reader for numbers, and `split` for `join`.

Modules, one per file:

- `Base`: options, results, strings, numerals, split and join;
- `JsValue`: JavaScript values;
- `FormEncoding`: URLSearchParams;
- `Invocation`: the sidecar client;
- `ProductClient` and `OrderClient`;
- `ToolSchema`, `ProductTools`, `OrderTools` and `Tools`;
- `ToolDispatch`;
- `ModelGateway`;
- `TraceContext`;
- `ChatService`.

Where the design notes and the code disagree, the model follows the code:

- The design describes a caller auth token that is forwarded downstream.
  The code's `ChatRequest` has no such field, so the model's `ChatRequest`
  has none either.
- The order tools pass the trace id in the adapter's `authToken` slot and
  leave its `traceId` unset. The model does the same. So the order service
  receives an empty `x-trace-id` and `Authorization: Bearer <trace id>`.
  `ToolDispatch.OrderToolsSendTraceAsToken` states this.
- The design has the adapters map "404" to "not found". The code tests
  whether the error text merely contains `404`. A 500 whose body mentions
  404 is therefore also read as "not found", as
  `ProductClient.AnyErrorMentioning404IsNull` states.

## Model

| member | source | states |
|---|---|---|
| Base.LastN | src/services/chat.service.ts:78 | `slice(-n)`: the result holds min(n, length) elements, and they are the input's last ones, in order |
| Base.Substring | src/services/chat.service.ts:267 | `substring(a, b)` never grows the text, and within bounds it is exactly the slice `s[a..b]` |
| Base.ToUpperAsciiIdempotent | src/core/daprClient.ts:33 | after `toUpperCase` no lower-case letter is left, and upper-casing again changes nothing |
| Base.ParseNatToString | src/core/daprClient.ts:41 | the decimal numeral of a status reads back as the same number |
| Base.NatToStringInjective | src/core/daprClient.ts:41 | distinct statuses have distinct numerals |
| Base.SplitJoin | src/middlewares/traceContext.middleware.ts:26 | `split` undoes `join` when no part contains the separator |
| Base.JoinSplit | src/middlewares/traceContext.middleware.ts:26 | joining the fields of a split gives back the text |
| JsValue.Or | src/clients/product.client.ts:56 | `a \|\| b` yields `a` when it is truthy and `b` otherwise |
| JsValue.Coalesce | src/clients/order.client.ts:100 | `a ?? b` yields `b` only for `null` and `undefined` |
| JsValue.Prop | src/services/chat.service.ts:187-191 | a property read gives the last own member with that key, `undefined` when the key is absent, and `length` on arrays and strings |
| JsValue.GetProp | src/services/chat.service.ts:200 | reading a property of `null` or `undefined` throws, and reading any other value does not |
| JsValue.Stringify | src/services/chat.service.ts:131 | `JSON.stringify` is `undefined` exactly for `undefined` |
| JsValue.OwnKeys | src/services/chat.service.ts:131 | `JSON.stringify` visits each own key once: the array-index keys first, in ascending numeric order, then every other key in the order its property was created |
| JsValue.IndexKeyWrittenFirst | src/services/chat.service.ts:131 | an object read as `{"b":1,"0":2}` is written back as `{"0":2,"b":1}`: an index key comes first whatever its position in the text |
| JsValue.IndexKeyExamples | src/services/chat.service.ts:131 | `"0"` is an array-index key, while `"b"` and `"01"` (a leading zero) are not |
| JsValue.ErrorPayload | src/services/chat.service.ts:202 | an `{ error }` payload has the single key `error`, truthy exactly when the message is non-empty |
| JsValue.ErrorPayloadText | src/services/chat.service.ts:259 | the JSON text the model receives for an error payload is `{"error":<quoted message>}` |
| JsValue.UnquoteQuote | src/services/chat.service.ts:131 | every string survives `JSON.stringify` and a JSON string reader unchanged |
| FormEncoding.SetParam | src/clients/product.client.ts:57 | `set` leaves exactly one value for the name, appends a new name at the end, and keeps every other pair |
| FormEncoding.DecodeEncodeComponent | src/clients/product.client.ts:70 | every name and value, non-ASCII included, decodes back from its form encoding |
| FormEncoding.SerializedDelimiterFree | src/clients/product.client.ts:70 | an encoded component contains no `&` and no `=` |
| FormEncoding.ParseSerialize | src/clients/product.client.ts:70 | parsing the serialised query gives back the same pairs in the same order |
| Invocation.InvokeUrl | src/core/daprClient.ts:24-25 | the URL is the sidecar's invoke prefix for the app, then the method path with one leading slash dropped |
| Invocation.LeadingSlashIrrelevant | src/core/daprClient.ts:24 | a method path with and without its leading slash reach the same URL |
| Invocation.MergeHeaders | src/core/daprClient.ts:27-30 | every caller header is sent unchanged and wins over the JSON content type, which is present in every request |
| Invocation.BuildRequest | src/core/daprClient.ts:32-36 | the request carries the upper-cased verb, the merged headers, and a JSON body exactly when the data is truthy |
| Invocation.StatusOfHttpErrorMessage | src/core/daprClient.ts:41 | the status can be read back from the error message alone |
| Invocation.Invoke | src/core/daprClient.ts:16-52 | a rejection is rethrown unchanged, a non-2xx response throws `HTTP <status>: <text>`, and a 2xx response yields its parsed body; the call fails exactly when its reply throws, with that message |
| Invocation.NotFoundMentions404 | src/core/daprClient.ts:38-42 | a 404 response surfaces as an error whose message contains `404` |
| Invocation.NotFoundToNull | src/clients/product.client.ts:109-115 | an error mentioning `404` becomes `null`; any other error is rethrown and any value passes through |
| ProductClient.SearchTerm | src/clients/product.client.ts:56 | `q` is the query when truthy, else the category when truthy, else `*` |
| ProductClient.SearchQuery | src/clients/product.client.ts:53-68 | the query sends `q` always, `category` only for a category-only search, each price whenever defined (zero included) and `limit` when truthy, in that order, each with its `String()` value |
| ProductClient.SearchEndpointParses | src/clients/product.client.ts:70 | the search endpoint is the search path followed by a query that parses back to exactly the parameters set |
| ProductClient.RequireBody | src/clients/product.client.ts:81 | a `null` body makes the adapter throw; anything else passes unchanged |
| ProductClient.GetVerbIsUpper | src/clients/product.client.ts:75 | the GET verb is already upper case, so it is sent as written |
| ProductClient.SearchProducts | src/clients/product.client.ts:46-89 | one GET to the sidecar URL of the search endpoint carrying `x-trace-id`; whatever the invocation throws is rethrown; a decoded `null` body throws on its `products` read; a successful result is never `null` |
| ProductClient.GetProductById | src/clients/product.client.ts:94-117 | one GET to the sidecar URL of `api/products/<String(id)>`; a thrown error mentioning 404 becomes `null`, every other is rethrown, and a decoded body is returned as it is |
| ProductClient.ProductNotFoundIsNull | src/clients/product.client.ts:110-112 | a 404 for a product yields `null` |
| ProductClient.AnyErrorMentioning404IsNull | src/clients/product.client.ts:110 | any failed response whose body mentions `404`, whatever its status, also yields `null` |
| ProductClient.GetCategories | src/clients/product.client.ts:122-141 | one GET to the categories endpoint; a thrown error is rethrown; a `null` body throws on its `categories` read; otherwise the result is its `categories` when truthy, else `[]` |
| OrderClient.AuthorizationValue | src/clients/order.client.ts:86-89 | the header always starts with `Bearer `; an already-prefixed token is kept, a bare one is prefixed |
| OrderClient.AuthorizationIdempotent | src/clients/order.client.ts:88 | normalising a token twice gives the same header as once |
| OrderClient.OrderHeaders | src/clients/order.client.ts:82-89 | `x-trace-id` always (empty when absent), `x-user-id` for the per-order calls, `Authorization` exactly for a non-empty token, nothing else |
| OrderClient.TrackingPathExtendsOrderPath | src/clients/order.client.ts:131 | the tracking endpoint extends the order endpoint and never coincides with it |
| OrderClient.OrdersResult | src/clients/order.client.ts:98-103 | the reshaped list holds the orders (or `[]`), their count (or 0), page 1 and the page size (or 10) |
| OrderClient.GetOrders | src/clients/order.client.ts:73-108 | one GET to the sidecar URL of `api/orders/customer/<user>`; fails exactly when the invocation throws, with its message, else yields the reshaped list |
| OrderClient.OrdersNotFoundFails | src/clients/order.client.ts:104-107 | a 404 on the order list is an error, not an empty list |
| OrderClient.GetOrderById | src/clients/order.client.ts:113-146 | one GET to the sidecar URL of `api/orders/<String(id)>` with `x-user-id`; a thrown error mentioning 404 becomes `null`, every other is rethrown, and a decoded body is returned as it is |
| OrderClient.TrackOrder | src/clients/order.client.ts:151-184 | one GET to the sidecar URL of `api/orders/<String(id)>/tracking` with `x-user-id`; a thrown error mentioning 404 becomes `null`, every other is rethrown, and a decoded body is returned as it is |
| OrderClient.OrderNotFoundIsNull | src/clients/order.client.ts:139-142 | a 404 for an order yields `null` |
| OrderClient.TrackingNotFoundIsNull | src/clients/order.client.ts:177-180 | a 404 for tracking yields `null` |
| ProductTools.ProductTools | src/tools/product.tools.ts:87 | the catalog tools are `searchProducts`, `getProductDetails` and `getCategories`, in that order, with their properties, and every required name is declared |
| ProductTools.SearchProductsSchema | src/tools/product.tools.ts:10-43 | the search tool requires nothing and offers query, category, minPrice, maxPrice and limit |
| ProductTools.GetProductDetailsSchema | src/tools/product.tools.ts:48-65 | the details tool requires and declares exactly `productId` |
| ProductTools.GetCategoriesSchema | src/tools/product.tools.ts:70-82 | the categories tool has no parameters |
| OrderTools.OrderTools | src/tools/order.tools.ts:10-85 | the order tools are `getMyOrders`, `getOrderDetails` and `trackOrder`, in that order; the status filter lists the five order states |
| Tools.ToolKindOf | src/tools/index.ts:21-30 | a name is recognised exactly when it is one of the six tool names, and it maps to the kind of that name |
| Tools.ToolNamesDistinct | src/tools/index.ts:21-30 | the six names are pairwise distinct |
| Tools.AllTools | src/tools/index.ts:16 | the catalogue is the catalog tools followed by the order tools, six in all |
| Tools.CatalogueMatchesDispatch | src/tools/index.ts:16-30 | every kind is offered under exactly one catalogue entry, every entry dispatches to its kind, and catalog tools precede order tools |
| ToolDispatch.Settle | src/services/chat.service.ts:200-205 | a thrown error becomes the failure payload, a falsy single record becomes its not-found payload, and any other value passes through |
| ToolDispatch.Dispatch | src/services/chat.service.ts:182-253 | an order tool without a user answers "not logged in" without a request; a `null` argument object fails before any request, except for `getCategories`, which reads no argument; otherwise exactly one adapter request is made and its outcome is settled with the tool's not-found text (none for the list tools); the result is never `null` |
| ToolDispatch.ExecuteToolCall | src/services/chat.service.ts:170-261 | unparsable arguments answer "Failed to execute <name>: <parse error>" and unknown names "Unknown tool: <name>", both without a request; a recognised name is dispatched with the parsed arguments; the result always serialises to JSON |
| ToolDispatch.AdapterRethrows | src/services/chat.service.ts:183-248 | whatever the invocation throws reaches the tool unchanged, except that for the single-record tools an error mentioning `404` arrives as `null` |
| ToolDispatch.AdapterErrorReported | src/services/chat.service.ts:254-259 | a network rejection, an `HTTP <status>: <text>` error or a decoding failure answers "Failed to execute <name>: <that message>", unless a single-record tool reads it as not found |
| ToolDispatch.MissingRecordReported | src/services/chat.service.ts:199-205 | for product details, order details and tracking, a 404, any error mentioning `404` or a falsy record answers "Product not found", "Order not found" or "Tracking information not available for this order" |
| ToolDispatch.RecordPassesThrough | src/services/chat.service.ts:183-205 | a truthy search result or single record is handed to the model exactly as decoded |
| ToolDispatch.ListsReshaped | src/services/chat.service.ts:207-226 | categories come back as `{ categories }` (`[]` when the body has none, a throw on a `null` body) and the order list as the page with `limit` defaulting to 10 |
| ToolDispatch.SearchToolQuery | src/services/chat.service.ts:185-192 | the request's query string parses back to `q` (query, else category, else `*`) first and `limit` (the argument, else 10) last, so `limit` is always sent; `category` is sent exactly for a category-only search |
| ToolDispatch.RecordToolPaths | src/services/chat.service.ts:199-248 | the detail, order and tracking tools GET the URL built from the argument's `productId` or `orderId`, the order list GETs the logged-in user's list, and the per-order calls carry that user as `x-user-id` |
| ToolDispatch.NoRequestMeansError | src/services/chat.service.ts:250-259 | a call that reached no service answers with a truthy `error` |
| ToolDispatch.OrderToolsSendTraceAsToken | src/services/chat.service.ts:212-248 | the order tools send an empty `x-trace-id`, and send the trace id as the bearer token exactly when it is non-empty |
| ToolDispatch.ProductToolsSendTraceId | src/services/chat.service.ts:183-209 | the catalog tools send the trace id (or empty) as `x-trace-id` |
| ToolDispatch.Collect | src/services/chat.service.ts:273-307 | an error result adds nothing; search and order-list arrays are appended with duplicates kept, and a missing or non-array list field leaves the data unchanged; single records need `_id`, or `orderId`/`id`; earlier records are always kept as a prefix |
| ToolDispatch.ErrorRunsNotCollected | src/services/chat.service.ts:278 | a tool call that reached no service contributes no records |
| ModelGateway.GetClient | src/llm/azure-openai.ts:20-33 | an existing client is reused; otherwise an unconfigured gateway throws, and a configured one makes and keeps a client |
| ModelGateway.ClientCreatedOnce | src/llm/azure-openai.ts:21 | after a successful creation every later call returns that client, even under another configuration |
| ModelGateway.FailedClientRetried | src/llm/azure-openai.ts:22-24 | a failed creation stores nothing, so the next call tries again |
| ModelGateway.MapToolCalls | src/llm/azure-openai.ts:100-104 | tool calls keep their order and ids; a missing name or argument text becomes empty |
| ModelGateway.MapToolCallsEcho | src/llm/azure-openai.ts:100-104 | mapping loses nothing on the tool calls the service echoes back itself |
| ModelGateway.MapReply | src/llm/azure-openai.ts:89-113 | no choice at all is an error; otherwise the result carries the first choice's content, reason and mapped calls, and the usage when present |
| ModelGateway.SendChatCompletion | src/llm/azure-openai.ts:68-122 | one provider request per call, with the deployment, transcript, tools and choice given, and `max_tokens` defaulting to 1024; every provider error is passed to the caller |
| ModelGateway.ConfiguredReachesProvider | src/llm/azure-openai.ts:20-33 | once configured, every call reaches the provider through the first client made |
| TraceContext.PickTraceId | src/middlewares/traceContext.middleware.ts:23-27 | the trace id comes from `x-trace-id`, else `x-correlation-id`, else the traceparent's second field, else the fresh UUID |
| TraceContext.PickSpanId | src/middlewares/traceContext.middleware.ts:30 | the span id comes from `x-span-id`, else the first 16 characters of a fresh UUID |
| TraceContext.ResolveTraceContext | src/middlewares/traceContext.middleware.ts:21-41 | the middleware succeeds exactly when both ids resolve to a string, and then echoes both in the response headers |
| TraceContext.ExplicitTraceIdWins | src/middlewares/traceContext.middleware.ts:24 | a non-empty `x-trace-id` is the trace id, whatever else is sent |
| TraceContext.EmptyHeaderFallsThrough | src/middlewares/traceContext.middleware.ts:23-30 | an empty header is treated as a missing one |
| TraceContext.TraceparentGivesTraceId | src/middlewares/traceContext.middleware.ts:26 | a well-formed `traceparent` yields its trace-id field |
| TraceContext.NoDashFallsBack | src/middlewares/traceContext.middleware.ts:26-27 | a `traceparent` without any `-` falls back to the fresh UUID |
| TraceContext.FreshSpanIdPrefix | src/middlewares/traceContext.middleware.ts:30 | a generated span id is the fresh UUID's 16-character prefix |
| TraceContext.ArrayHeaderFirstValue | src/middlewares/traceContext.middleware.ts:33 | an array-valued header, which the declared header type allows, resolves to its first element, and an empty array fails the header write |
| ChatService.GeneratedConversationId | src/services/chat.service.ts:266-268 | a generated id starts with `conv_<now>_` and has at most seven characters after it |
| ChatService.GeneratedIdFields | src/services/chat.service.ts:267 | the generated id splits into `conv`, the timestamp and the random part, and the timestamp reads back exactly |
| ChatService.ConversationId | src/services/chat.service.ts:60 | a non-empty request id is kept, otherwise one is generated |
| ChatService.History | src/services/chat.service.ts:77-84 | at most the last ten previous messages are replayed, oldest first, each in its role |
| ChatService.Seed | src/services/chat.service.ts:74-87 | the transcript starts with the system prompt, then the history, and ends with the user's message |
| ChatService.Ask | src/services/chat.service.ts:90-95 | a model call sends the whole transcript and the six tools, records at most one request and changes nothing else |
| ChatService.RunTools | src/services/chat.service.ts:121-134 | each call of a round gets one tool message, in call order, carrying its id and the JSON text of its own result; its name is recorded; the collected data is `collectToolData` applied to the results in call order; at most one downstream request is made per call |
| ChatService.RepeatedSearchCollectedTwice | src/services/chat.service.ts:121-126 | two identical successful search calls in one round append their products to the collected data twice |
| ChatService.CollectAllAppend | src/services/chat.service.ts:126 | collecting across rounds is collecting over the earlier calls, then the later ones |
| ChatService.RoundsAppend | src/services/chat.service.ts:110-134 | appending a round to well-formed rounds adds one round and that round's calls |
| ChatService.Iterate | src/services/chat.service.ts:103-142 | one iteration appends the assistant turn and the answers to its calls, records the call names, collects their results, and sends the grown transcript to the model |
| ChatService.Loop | src/services/chat.service.ts:103 | the loop runs at most five rounds and stops early only when no tool is asked for or a model call fails |
| ChatService.LoopKeepsInvariant | src/services/chat.service.ts:103-143 | every iteration keeps the transcript as the seed plus whole rounds whose tool messages carry their calls' results, the tools used as those rounds' call names, the collected data as those calls' results collected in order, and one model request per round plus the first |
| ChatService.Reply | src/services/chat.service.ts:145-153 | the answer is the last text or the fallback, with the collected records, the tools used when there are any, and the last call's total tokens |
| ChatService.DataOf | src/services/chat.service.ts:148 | records are returned exactly when some list was collected |
| ChatService.ProcessMessage | src/services/chat.service.ts:57-165 | an unconfigured gateway answers with the not-configured text and calls nothing; any model failure gives the apology; otherwise the loop's reply; the conversation id is always the resolved one |
| ChatService.ConfiguredRun | src/services/chat.service.ts:72-153 | a configured run makes one to six model calls, each carrying the seed followed by whole rounds whose tool messages carry their calls' results; the tools used are those rounds' call names and the collected data is their results collected in order |
| ChatService.NoRoundsNoCalls | src/services/chat.service.ts:103 | rounds hold no call exactly when there are no rounds |
| ChatService.SuccessfulReply | src/services/chat.service.ts:145-153 | when every model call succeeds, the reply's records are the rounds' results collected in order, and `toolsUsed` is present exactly when more than one model call was made, listing the calls of the rounds |
| ChatService.FirstCallFailureApologises | src/services/chat.service.ts:154-164 | a failing first model call yields the apology under the same conversation id, after that one call |
| ChatService.NoToolCallsStopsAtOnce | src/services/chat.service.ts:103 | a first answer without tool calls ends the run: one model call, no tool, no request, no records |

## Left out

- Logging: the `log.*` and `console.*` calls themselves are left out. Where a log call's arguments read a property that can throw, that read is kept, because it changes the result: `result.products` in the search adapter (src/clients/product.client.ts:81, `ProductClient.RequireBody`) and `choice.finish_reason` in the gateway (src/llm/azure-openai.ts:92, the missing-choice error of `ModelGateway.MapReply`).
- Repeated request headers: Node joins a repeated header other than `set-cookie` into one comma-separated string, so the trace headers normally reach the middleware as one string. The model also covers the array form that the declared header type allows.
- `temperature`: the 0.7 default is floating point, so the model does not carry it. The provider sees every other request field.
- The network, the OpenAI SDK, `fetch`, `response.json()` and `JSON.parse` are functions passed in. Their behaviour is not modelled.
- `Date.now()`, `Math.random().toString(36)` and `uuidv4()` are values passed in.
- Asynchrony: each `await` is modelled as a sequential call. The source runs one tool call at a time, in order.
- Configuration loading, the HTTP routes, the server and the logger are not part of this model.
- ChatService.GeneratedConversationId: constrains the prefix and the length of the random part. It does not require the random part to be base-36, because that text comes from outside.
- The `status` and `offset` order-list parameters are accepted and never sent, as in the source. They have no effect to state.
- ProductClient.SearchProducts: a body that is a non-null primitive is returned as is, as in the source. The contract states no shape for it.
- ModelGateway.SendChatCompletion: `traceId` only selects the log context, so the provider request does not carry it.
- JsValue.Stringify: numbers are integers. The fractional and exponent forms of `JSON.stringify` and `String()` are not modelled.
- JsValue.Prop: covers own members, plus `length` on arrays and strings. Prototype properties are not modelled. Index keys of arrays and strings are not modelled: such a read gives `undefined`.
- TraceContext.ResolveTraceContext: the request fields set and `next()` are summarised by the returned ids. The error for an `undefined` header value is named by the header only.

=== FILE: base.dfy ===
/** Shared vocabulary: optional values, thrown-or-returned results, and the
    handful of JavaScript string operations the service relies on
    (`startsWith`, `includes`, `split`, `slice`, `substring`, `toUpperCase`,
    decimal `String(n)`). */
module Base {

  /** `undefined`-or-value. */
  datatype Option<+T> = None | Some(value: T) {
    function GetOr(default: T): T {
      match this
      case Some(v) => v
      case None => default
    }
  }

  /** The outcome of a JavaScript call that either returns or throws an
      `Error` carrying `message`. */
  datatype Result<+T> = Ok(value: T) | Err(message: string)

  /** `s || ''` for an optional string. */
  function OrEmpty(s: Option<string>): (r: string)
    ensures s.Some? ==> r == s.value
    ensures s.None? ==> r == ""
  {
    if s.Some? then s.value else ""
  }

  /** JavaScript truthiness of an optional string. */
  predicate PresentText(s: Option<string>) {
    s.Some? && s.value != ""
  }

  // ---------------------------------------------------------------------
  // Prefixes and substrings

  predicate StartsWith(s: string, prefix: string) {
    |prefix| <= |s| && s[..|prefix|] == prefix
  }

  /** `s.includes(t)`, written recursively. */
  predicate Contains(s: string, t: string)
    decreases |s|
  {
    StartsWith(s, t) || (|s| > 0 && Contains(s[1..], t))
  }

  lemma {:induction false} ContainsAt(s: string, t: string, i: nat)
    requires i + |t| <= |s| && s[i..i + |t|] == t
    ensures Contains(s, t)
    decreases i
  {
    if i == 0 {
      assert s[..|t|] == t;
    } else {
      assert s[1..][i - 1..i - 1 + |t|] == s[i..i + |t|];
      ContainsAt(s[1..], t, i - 1);
    }
  }

  /** Whatever surrounds it, a string contains each of its infixes. */
  lemma ContainsInfix(a: string, t: string, b: string)
    ensures Contains(a + t + b, t)
  {
    var s := a + t + b;
    assert s[|a|..|a| + |t|] == t;
    ContainsAt(s, t, |a|);
  }

  /** Text in front of a string does not hide what it contains. */
  lemma ContainsAfterPrefix(a: string, s: string, t: string)
    requires Contains(s, t)
    ensures Contains(a + s, t)
  {
    ContainsMeansOccurrence(s, t);
    var i: nat :| OccursAt(s, t, i);
    assert (a + s)[|a| + i..|a| + i + |t|] == s[i..i + |t|];
    ContainsAt(a + s, t, |a| + i);
  }

  predicate OccursAt(s: string, t: string, i: nat) {
    i + |t| <= |s| && s[i..i + |t|] == t
  }

  /** `s.includes(t)` finds an occurrence exactly when there is one. */
  lemma {:induction false} ContainsMeansOccurrence(s: string, t: string)
    requires Contains(s, t)
    ensures exists i: nat :: OccursAt(s, t, i)
    decreases |s|
  {
    if StartsWith(s, t) {
      assert OccursAt(s, t, 0);
    } else {
      ContainsMeansOccurrence(s[1..], t);
      var i: nat :| OccursAt(s[1..], t, i);
      assert s[1..][i..i + |t|] == s[i + 1..i + 1 + |t|];
      assert OccursAt(s, t, i + 1);
    }
  }

  // ---------------------------------------------------------------------
  // Decimal numerals (`String(n)` for integers)

  predicate IsDigit(c: char) {
    '0' <= c <= '9'
  }

  predicate AllDigits(s: string) {
    forall i :: 0 <= i < |s| ==> IsDigit(s[i])
  }

  function DigitChar(d: nat): (c: char)
    requires d < 10
    ensures IsDigit(c)
  {
    "0123456789"[d]
  }

  function DigitValue(c: char): (d: nat)
    requires IsDigit(c)
    ensures d < 10
  {
    (c as int) - ('0' as int)
  }

  lemma DigitRoundTrip(d: nat)
    requires d < 10
    ensures DigitValue(DigitChar(d)) == d
  {
  }

  /** Decimal numeral of a natural number, most significant digit first. */
  function NatToString(n: nat): (s: string)
    ensures |s| > 0 && AllDigits(s)
    ensures |s| > 1 ==> s[0] != '0'
    decreases n
  {
    if n < 10 then [DigitChar(n)] else NatToString(n / 10) + [DigitChar(n % 10)]
  }

  /** `String(i)` for an integer value. */
  function IntToString(i: int): (s: string)
    ensures |s| > 0
    ensures i >= 0 ==> s == NatToString(i)
    ensures i < 0 ==> s == "-" + NatToString(-i)
  {
    if i < 0 then "-" + NatToString(-i) else NatToString(i)
  }

  /** Reads a decimal numeral back. */
  function ParseNat(s: string): nat
    requires AllDigits(s)
    decreases |s|
  {
    if |s| == 0 then 0 else 10 * ParseNat(s[..|s| - 1]) + DigitValue(s[|s| - 1])
  }

  lemma {:induction false} ParseNatToString(n: nat)
    ensures ParseNat(NatToString(n)) == n
    decreases n
  {
    var s := NatToString(n);
    if n >= 10 {
      var p := NatToString(n / 10);
      assert s[..|s| - 1] == p;
      ParseNatToString(n / 10);
      DigitRoundTrip(n % 10);
    } else {
      assert s[..0] == "";
      DigitRoundTrip(n);
    }
  }

  /** Distinct numbers have distinct numerals. */
  lemma NatToStringInjective(m: nat, n: nat)
    requires NatToString(m) == NatToString(n)
    ensures m == n
  {
    ParseNatToString(m);
    ParseNatToString(n);
  }

  // ---------------------------------------------------------------------
  // `split` and `join` on a single separator character

  /** `s.split(sep)`: always at least one field, empty fields kept. */
  function Split(s: string, sep: char): (parts: seq<string>)
    ensures |parts| >= 1
    decreases |s|
  {
    if |s| == 0 then [""]
    else
      var rest := Split(s[1..], sep);
      if s[0] == sep then [""] + rest
      else [[s[0]] + rest[0]] + rest[1..]
  }

  /** `parts.join(sep)`. */
  function Join(parts: seq<string>, sep: char): string
    decreases |parts|
  {
    if |parts| == 0 then ""
    else if |parts| == 1 then parts[0]
    else parts[0] + [sep] + Join(parts[1..], sep)
  }

  predicate Free(s: string, c: char) {
    forall i :: 0 <= i < |s| ==> s[i] != c
  }

  lemma FreeConcat(a: string, b: string, c: char)
    requires Free(a, c) && Free(b, c)
    ensures Free(a + b, c)
  {
  }

  /** Splitting never produces a field containing the separator. */
  lemma {:induction false} SplitFieldsFree(s: string, sep: char)
    ensures forall k :: 0 <= k < |Split(s, sep)| ==> Free(Split(s, sep)[k], sep)
    decreases |s|
  {
    if |s| > 0 {
      SplitFieldsFree(s[1..], sep);
    }
  }

  /** Joining the fields of a split gives back the original text. */
  lemma {:induction false} JoinSplit(s: string, sep: char)
    ensures Join(Split(s, sep), sep) == s
    decreases |s|
  {
    if |s| > 0 {
      var rest := Split(s[1..], sep);
      JoinSplit(s[1..], sep);
      if s[0] == sep {
        assert Split(s, sep) == [""] + rest;
        assert ([""] + rest)[1..] == rest;
        assert s == [s[0]] + s[1..];
      } else {
        var parts := Split(s, sep);
        assert parts[0] == [s[0]] + rest[0];
        assert parts[1..] == rest[1..];
        if |rest| == 1 {
          assert s == [s[0]] + s[1..];
        } else {
          assert Join(rest, sep) == rest[0] + [sep] + Join(rest[1..], sep);
          assert s == [s[0]] + s[1..];
        }
      }
    }
  }

  lemma {:induction false} SplitFree(s: string, sep: char)
    requires Free(s, sep)
    ensures Split(s, sep) == [s]
    decreases |s|
  {
    if |s| > 0 {
      SplitFree(s[1..], sep);
      assert [s[0]] + s[1..] == s;
    }
  }

  lemma {:induction false} SplitAppend(a: string, sep: char, b: string)
    requires Free(a, sep)
    ensures Split(a + [sep] + b, sep) == [a] + Split(b, sep)
    decreases |a|
  {
    var s := a + [sep] + b;
    if |a| == 0 {
      assert s[1..] == b;
    } else {
      assert s[1..] == a[1..] + [sep] + b;
      SplitAppend(a[1..], sep, b);
      assert [a[0]] + a[1..] == a;
    }
  }

  /** Fields free of the separator survive a join followed by a split. */
  lemma {:induction false} SplitJoin(parts: seq<string>, sep: char)
    requires |parts| >= 1
    requires forall k :: 0 <= k < |parts| ==> Free(parts[k], sep)
    ensures Split(Join(parts, sep), sep) == parts
    decreases |parts|
  {
    if |parts| == 1 {
      SplitFree(parts[0], sep);
    } else {
      SplitJoin(parts[1..], sep);
      SplitAppend(parts[0], sep, Join(parts[1..], sep));
      assert [parts[0]] + parts[1..] == parts;
    }
  }

  // ---------------------------------------------------------------------
  // `slice(-n)`, `substring(a, b)`, `toUpperCase()`

  /** `xs.slice(-n)`: the last `n` elements, or all of them when fewer. */
  function LastN<T>(xs: seq<T>, n: nat): (r: seq<T>)
    ensures |r| == if |xs| < n then |xs| else n
    ensures forall i :: 0 <= i < |r| ==> r[i] == xs[|xs| - |r| + i]
  {
    if |xs| <= n then xs else xs[|xs| - n..]
  }

  function Clamp(i: int, len: nat): (r: nat)
    ensures r <= len
  {
    if i < 0 then 0 else if i > len then len else i
  }

  /** `s.substring(a, b)`: both ends clamped, swapped when out of order. */
  function Substring(s: string, a: int, b: int): (r: string)
    ensures |r| <= |s|
    ensures 0 <= a <= b <= |s| ==> r == s[a..b]
  {
    var x := Clamp(a, |s|);
    var y := Clamp(b, |s|);
    if x <= y then s[x..y] else s[y..x]
  }

  predicate IsLowerAscii(c: char) {
    'a' <= c <= 'z'
  }

  function UpperChar(c: char): char {
    if IsLowerAscii(c) then ((c as int) - 32) as char else c
  }

  /** `toUpperCase()` on the ASCII letters, which is all an HTTP verb holds. */
  function ToUpperAscii(s: string): (r: string)
    ensures |r| == |s|
    ensures forall i :: 0 <= i < |s| ==> r[i] == UpperChar(s[i])
  {
    seq(|s|, i requires 0 <= i < |s| => UpperChar(s[i]))
  }

  /** Upper-casing leaves no lower-case letter and changes nothing twice. */
  lemma ToUpperAsciiIdempotent(s: string)
    ensures forall i :: 0 <= i < |s| ==> !IsLowerAscii(ToUpperAscii(s)[i])
    ensures ToUpperAscii(ToUpperAscii(s)) == ToUpperAscii(s)
  {
  }
}

=== FILE: chat_service.dfy ===
/** The conversation orchestrator (`processMessage`): seed a transcript,
    ask the model, and while the model asks for tools (at most five rounds)
    run them, append their results to the transcript and ask again.  The
    model, the downstream services and the fresh values behind a generated
    conversation id are all parameters. */
module ChatService {
  import opened Base
  import opened JsValue
  import opened Invocation
  import opened ModelGateway
  import opened Tools
  import opened ToolDispatch

  const SystemPrompt :=
    "You are a helpful shopping assistant for an e-commerce platform. You can help customers with:\n" +
    "\n" +
    "1. **Product Search**: Find products by name, category, price range, or description\n" +
    "2. **Product Information**: Get details about specific products\n" +
    "3. **Order History**: View past orders and their status\n" +
    "4. **Order Tracking**: Track shipments and delivery status\n" +
    "\n" +
    "Be friendly, concise, and helpful. \n" +
    "\n" +
    "IMPORTANT: When showing products or orders, do NOT list them in your text response. The UI will automatically display interactive product/order cards with images, prices, and ratings. Just provide a brief summary like \"Here are some phones I found for you:\" or \"I found 5 products matching your search.\" Let the cards do the work of showing details.\n" +
    "\n" +
    "If the user is not logged in (no userId provided), you can still help with product searches but will need to let them know they need to log in to view their orders.\n" +
    "\n" +
    "Always use the available tools to get real data - don't make up product names, prices, or order information."

  const NotConfiguredReply := "I'm sorry, the chat service is not fully configured yet. Please try again later or contact support."
  const FallbackReply := "I'm sorry, I couldn't generate a response. Please try again."
  const ErrorReply := "I'm sorry, I encountered an error processing your request. Please try again."

  /** Tool rounds per message. */
  const MaxIterations: nat := 5
  /** Previous messages replayed into the transcript. */
  const HistoryWindow: nat := 10

  datatype Role = UserRole | AssistantRole

  datatype PriorMessage = PriorMessage(role: Role, content: string)

  /** `ChatRequest`.  There is no token field: the caller's credentials
      never reach the orchestrator. */
  datatype ChatRequest = ChatRequest(message: string, userId: Option<string>, conversationId: Option<string>,
                                     previousMessages: Option<seq<PriorMessage>>, traceId: Option<string>)

  datatype Metadata = Metadata(toolsUsed: Option<seq<string>>, tokensUsed: Option<nat>)

  datatype ChatResponse = ChatResponse(message: string, conversationId: string,
                                       data: Option<CollectedData>, metadata: Option<Metadata>)

  /** Everything outside the orchestrator: the gateway configuration and
      the model, the downstream services, and the clock reading and base-36
      random text a generated conversation id is made of. */
  datatype World = World(gateway: GatewayConfig, provider: ProviderRequest -> ProviderReply,
                         services: Services, now: nat, random36: string)

  /** The state of one `processMessage` call: the transcript, the tools run
      so far, the collected records, every model request sent, every
      downstream request made, and the gateway's client slot. */
  datatype Session = Session(messages: seq<Message>, toolsUsed: seq<string>, data: CollectedData,
                             sent: seq<ProviderRequest>, requests: seq<Request>, slot: ClientSlot)

  // ---------------------------------------------------------------------
  // Conversation id

  /** `conv_<now>_<seven base-36 characters>` */
  function GeneratedConversationId(now: nat, random36: string): (id: string)
    ensures StartsWith(id, "conv_" + NatToString(now) + "_")
    ensures |id| <= |"conv_" + NatToString(now) + "_"| + 7
  {
    "conv_" + NatToString(now) + "_" + Substring(random36, 2, 9)
  }

  /** The timestamp can be read back out of a generated id. */
  lemma GeneratedIdFields(now: nat, random36: string)
    requires Free(random36, '_')
    ensures Split(GeneratedConversationId(now, random36), '_') == ["conv", NatToString(now), Substring(random36, 2, 9)]
    ensures ParseNat(Split(GeneratedConversationId(now, random36), '_')[1]) == now
  {
    var digits := NatToString(now);
    var suffix := Substring(random36, 2, 9);
    var parts := ["conv", digits, suffix];
    assert Free(suffix, '_') by {
      assert suffix == random36[Clamp(2, |random36|)..Clamp(9, |random36|)];
    }
    assert Join(parts[2..], '_') == suffix;
    assert Join(parts[1..], '_') == digits + "_" + suffix by {
      assert parts[1..][1..] == parts[2..];
    }
    assert Join(parts, '_') == GeneratedConversationId(now, random36) by {
      assert parts[1..] == [digits, suffix];
    }
    SplitJoin(parts, '_');
    ParseNatToString(now);
  }

  /** The request's id when it is a non-empty string, else a generated one. */
  function ConversationId(w: World, req: ChatRequest): (id: string)
    ensures PresentText(req.conversationId) ==> id == req.conversationId.value
    ensures !PresentText(req.conversationId) ==> id == GeneratedConversationId(w.now, w.random36)
  {
    if PresentText(req.conversationId) then req.conversationId.value else GeneratedConversationId(w.now, w.random36)
  }

  // ---------------------------------------------------------------------
  // The seed transcript

  function PriorToMessage(p: PriorMessage): Message {
    match p.role
    case UserRole => UserMessage(p.content)
    case AssistantRole => AssistantMessage(Some(p.content), None)
  }

  /** The last ten previous messages, oldest first. */
  function History(prev: Option<seq<PriorMessage>>): (ms: seq<Message>)
    ensures prev.None? ==> ms == []
    ensures prev.Some? ==> |ms| == |LastN(prev.value, HistoryWindow)|
    ensures prev.Some? ==> forall i :: 0 <= i < |ms| ==> ms[i] == PriorToMessage(LastN(prev.value, HistoryWindow)[i])
  {
    if prev.None? then []
    else
      var recent := LastN(prev.value, HistoryWindow);
      seq(|recent|, i requires 0 <= i < |recent| => PriorToMessage(recent[i]))
  }

  /** `[system prompt] ++ history ++ [user message]` */
  function Seed(req: ChatRequest): (ms: seq<Message>)
    ensures |ms| >= 2 && |ms| <= HistoryWindow + 2
    ensures ms[0] == SystemMessage(SystemPrompt) && ms[|ms| - 1] == UserMessage(req.message)
    ensures ms[1..|ms| - 1] == History(req.previousMessages)
  {
    [SystemMessage(SystemPrompt)] + History(req.previousMessages) + [UserMessage(req.message)]
  }

  // ---------------------------------------------------------------------
  // Tool answers

  /** The result the orchestrator gets back for one tool call. */
  function ToolResult(w: World, req: ChatRequest, call: ToolCall): (v: Value)
    ensures !Nullish(v) && Stringify(v).Some?
  {
    ExecuteToolCall(w.services, call.name, call.arguments, req.userId, req.traceId).result
  }

  /** `JSON.stringify` of the tool's result, which is never `undefined`. */
  function ToolPayload(w: World, req: ChatRequest, call: ToolCall): string {
    Stringify(ToolResult(w, req, call)).value
  }

  /** The tool message answering `call`. */
  function Answer(w: World, req: ChatRequest, call: ToolCall): (m: Message)
    ensures m.ToolMessage? && m.toolCallId == call.id
  {
    ToolMessage(call.id, ToolPayload(w, req, call))
  }

  /** The answers the orchestrator gives: each call answered with its own
      result. */
  function Replier(w: World, req: ChatRequest): ToolCall -> Message {
    (c: ToolCall) => Answer(w, req, c)
  }

  /** The orchestrator's collection step: one call's result collected into
      the records so far. */
  function Collector(w: World, req: ChatRequest): (ToolCall, CollectedData) -> CollectedData {
    (c: ToolCall, d: CollectedData) => Collect(c.name, ToolResult(w, req, c), d)
  }

  /** The answers to `calls`, in call order. */
  function Answers(answer: ToolCall -> Message, calls: seq<ToolCall>): (ms: seq<Message>)
    ensures |ms| == |calls|
    ensures forall i :: 0 <= i < |calls| ==> ms[i] == answer(calls[i])
  {
    seq(|calls|, i requires 0 <= i < |calls| => answer(calls[i]))
  }

  /** `step` applied to each call in order, starting from `d`: with
      `Collector`, `collectToolData` over the calls' results. */
  function CollectAll(step: (ToolCall, CollectedData) -> CollectedData, calls: seq<ToolCall>, d: CollectedData): CollectedData
    decreases |calls|
  {
    if |calls| == 0 then d
    else
      var n := |calls| - 1;
      step(calls[n], CollectAll(step, calls[..n], d))
  }

  /** Collecting over two runs of calls is collecting over the first, then
      over the second. */
  lemma {:induction false} CollectAllAppend(step: (ToolCall, CollectedData) -> CollectedData, a: seq<ToolCall>,
                                            b: seq<ToolCall>, d: CollectedData)
    ensures CollectAll(step, a + b, d) == CollectAll(step, b, CollectAll(step, a, d))
    decreases |b|
  {
    if |b| == 0 {
      assert a + b == a;
    } else {
      var n := |b| - 1;
      assert (a + b)[..|a| + n] == a + b[..n];
      assert (a + b)[|a| + n] == b[n];
      CollectAllAppend(step, a, b[..n], d);
    }
  }

  /** Names of the calls, in order. */
  function CallNames(calls: seq<ToolCall>): (ns: seq<string>)
    ensures |ns| == |calls|
    ensures forall i :: 0 <= i < |calls| ==> ns[i] == calls[i].name
  {
    seq(|calls|, i requires 0 <= i < |calls| => calls[i].name)
  }

  lemma CallNamesAppend(a: seq<ToolCall>, b: seq<ToolCall>)
    ensures CallNames(a + b) == CallNames(a) + CallNames(b)
  {
    assert forall i :: 0 <= i < |a| + |b| ==> CallNames(a + b)[i] == (CallNames(a) + CallNames(b))[i];
  }

  // ---------------------------------------------------------------------
  // Shape of the transcript after the seed

  /** An assistant turn that asked for tools. */
  predicate AsksForTools(m: Message) {
    m.AssistantMessage? && m.toolCalls.Some? && |m.toolCalls.value| > 0
  }

  /** A sequence of tool rounds: each an assistant turn with its tool
      calls, followed by exactly one answer per call, in call order. */
  predicate Rounds(answer: ToolCall -> Message, ms: seq<Message>)
    decreases |ms|
  {
    |ms| == 0 ||
    (AsksForTools(ms[0]) && 1 + |ms[0].toolCalls.value| <= |ms|
     && ms[1..1 + |ms[0].toolCalls.value|] == Answers(answer, ms[0].toolCalls.value)
     && Rounds(answer, ms[1 + |ms[0].toolCalls.value|..]))
  }

  function RoundCount(answer: ToolCall -> Message, ms: seq<Message>): nat
    requires Rounds(answer, ms)
    decreases |ms|
  {
    if |ms| == 0 then 0 else 1 + RoundCount(answer, ms[1 + |ms[0].toolCalls.value|..])
  }

  /** Every call asked for in the rounds, in order. */
  function RoundCalls(answer: ToolCall -> Message, ms: seq<Message>): seq<ToolCall>
    requires Rounds(answer, ms)
    decreases |ms|
  {
    if |ms| == 0 then [] else ms[0].toolCalls.value + RoundCalls(answer, ms[1 + |ms[0].toolCalls.value|..])
  }

  /** One round: the assistant turn and its answers. */
  predicate IsRound(answer: ToolCall -> Message, b: seq<Message>) {
    |b| >= 1 && AsksForTools(b[0]) && b[1..] == Answers(answer, b[0].toolCalls.value)
  }

  /** A round in front of rounds is rounds, with one more count and its
      calls in front. */
  lemma RoundsCons(answer: ToolCall -> Message, a: Message, replies: seq<Message>, rest: seq<Message>)
    requires AsksForTools(a) && replies == Answers(answer, a.toolCalls.value) && Rounds(answer, rest)
    ensures Rounds(answer, [a] + replies + rest)
    ensures RoundCount(answer, [a] + replies + rest) == 1 + RoundCount(answer, rest)
    ensures RoundCalls(answer, [a] + replies + rest) == a.toolCalls.value + RoundCalls(answer, rest)
  {
    var ms := [a] + replies + rest;
    var n := |a.toolCalls.value|;
    assert ms[0] == a;
    assert ms[1..1 + n] == replies;
    assert ms[1 + n..] == rest;
  }

  /** The step of `RoundsAppend`: a round in front carries over. */
  lemma RoundsAppendStep(answer: ToolCall -> Message, a0: Message, replies: seq<Message>, rest: seq<Message>, b: seq<Message>)
    requires AsksForTools(a0) && replies == Answers(answer, a0.toolCalls.value) && Rounds(answer, rest)
    requires Rounds(answer, rest + b) && RoundCount(answer, rest + b) == RoundCount(answer, rest) + 1
    ensures Rounds(answer, [a0] + replies + (rest + b))
    ensures RoundCount(answer, [a0] + replies + (rest + b)) == RoundCount(answer, [a0] + replies + rest) + 1
  {
    RoundsCons(answer, a0, replies, rest);
    RoundsCons(answer, a0, replies, rest + b);
  }

  lemma RoundCallsAppendStep(answer: ToolCall -> Message, a0: Message, replies: seq<Message>, rest: seq<Message>,
                             b: seq<Message>, last: seq<ToolCall>)
    requires AsksForTools(a0) && replies == Answers(answer, a0.toolCalls.value)
    requires Rounds(answer, rest) && Rounds(answer, rest + b)
    requires RoundCalls(answer, rest + b) == RoundCalls(answer, rest) + last
    ensures Rounds(answer, [a0] + replies + (rest + b)) && Rounds(answer, [a0] + replies + rest)
    ensures RoundCalls(answer, [a0] + replies + (rest + b)) == RoundCalls(answer, [a0] + replies + rest) + last
  {
    RoundsCons(answer, a0, replies, rest);
    RoundsCons(answer, a0, replies, rest + b);
    NamesRegroup(RoundCalls(answer, [a0] + replies + rest), RoundCalls(answer, [a0] + replies + (rest + b)),
                 a0.toolCalls.value, RoundCalls(answer, rest), RoundCalls(answer, rest + b), last);
  }

  lemma NamesRegroup<T>(x: seq<T>, y: seq<T>, first: seq<T>, r: seq<T>, rb: seq<T>, last: seq<T>)
    requires x == first + r && y == first + rb && rb == r + last
    ensures y == x + last
  {
    Associative(first, r, last);
  }

  lemma Associative<T>(x: seq<T>, y: seq<T>, z: seq<T>)
    ensures x + (y + z) == (x + y) + z
  {
  }

  lemma {:induction false} RoundsAppend(answer: ToolCall -> Message, a: seq<Message>, b: seq<Message>)
    requires Rounds(answer, a) && IsRound(answer, b)
    ensures Rounds(answer, a + b)
    ensures RoundCount(answer, a + b) == RoundCount(answer, a) + 1
    ensures RoundCalls(answer, a + b) == RoundCalls(answer, a) + b[0].toolCalls.value
    decreases |a|
  {
    if |a| == 0 {
      assert a + b == b;
      SingleRound(answer, b);
    } else {
      var n := |a[0].toolCalls.value|;
      var rest := a[1 + n..];
      RoundsAppend(answer, rest, b);
      Regroup(a, b, 1 + n);
      RoundsAppendStep(answer, a[0], a[1..1 + n], rest, b);
      RoundCallsAppendStep(answer, a[0], a[1..1 + n], rest, b, b[0].toolCalls.value);
    }
  }

  /** `a` split after its head and after position `k`, with `b` appended. */
  lemma Regroup<T>(a: seq<T>, b: seq<T>, k: nat)
    requires 1 <= k <= |a|
    ensures a == [a[0]] + a[1..k] + a[k..]
    ensures a + b == [a[0]] + a[1..k] + (a[k..] + b)
  {
    assert a == [a[0]] + a[1..k] + a[k..];
  }

  lemma SingleRound(answer: ToolCall -> Message, b: seq<Message>)
    requires IsRound(answer, b)
    ensures Rounds(answer, b) && RoundCount(answer, b) == 1 && RoundCalls(answer, b) == b[0].toolCalls.value
  {
    var n := |b[0].toolCalls.value|;
    assert b[1 + n..] == [];
    assert b[1..1 + n] == b[1..];
    assert Rounds(answer, b[1 + n..]);
    assert RoundCalls(answer, b) == b[0].toolCalls.value + [];
  }

  /** A transcript that starts with the seed and continues with rounds. */
  predicate WellFormed(answer: ToolCall -> Message, seed: seq<Message>, ms: seq<Message>) {
    |seed| <= |ms| && ms[..|seed|] == seed && Rounds(answer, ms[|seed|..])
  }

  // ---------------------------------------------------------------------
  // One model call, one tool call

  function ModelOptions(messages: seq<Message>, traceId: Option<string>): ChatOptions {
    ChatOptions(messages, AllTools(), Some("auto"), None, traceId)
  }

  datatype Asked = Asked(session: Session, result: Result<Completion>)

  /** `sendChatCompletion({ messages, tools: allTools, toolChoice: 'auto' })`
      on the current transcript. */
  function Ask(w: World, traceId: Option<string>, s: Session): (a: Asked)
    ensures a.session.messages == s.messages && a.session.toolsUsed == s.toolsUsed
    ensures a.session.data == s.data && a.session.requests == s.requests
    ensures |s.sent| <= |a.session.sent| <= |s.sent| + 1 && a.session.sent[..|s.sent|] == s.sent
    ensures forall j :: |s.sent| <= j < |a.session.sent| ==>
      a.session.sent[j].messages == s.messages && a.session.sent[j].tools == AllTools()
    ensures (s.slot.Ready? || IsConfigured(w.gateway)) ==> |a.session.sent| == |s.sent| + 1 && a.session.slot.Ready?
    ensures s.slot.Ready? ==> a.session.slot == s.slot
  {
    var c := SendChatCompletion(w.gateway, s.slot, w.provider, ModelOptions(s.messages, traceId));
    var sent := if c.sent.Some? then s.sent + [c.sent.value] else s.sent;
    Asked(s.(sent := sent, slot := c.slot), c.result)
  }

  /** One tool call: its result is answered in a tool message, its name
      recorded, its data collected. */
  function RunTool(w: World, req: ChatRequest, call: ToolCall, u: Session): (t: Session)
    ensures t.messages == u.messages + [Answer(w, req, call)]
    ensures t.toolsUsed == u.toolsUsed + [call.name]
    ensures t.data == Collect(call.name, ToolResult(w, req, call), u.data)
    ensures t.messages == u.messages + [Replier(w, req)(call)] && t.data == Collector(w, req)(call, u.data)
    ensures t.sent == u.sent && t.slot == u.slot
    ensures |u.requests| <= |t.requests| <= |u.requests| + 1 && t.requests[..|u.requests|] == u.requests
  {
    var run := ExecuteToolCall(w.services, call.name, call.arguments, req.userId, req.traceId);
    var t := u.(messages := u.messages + [ToolMessage(call.id, ToolPayload(w, req, call))],
                toolsUsed := u.toolsUsed + [call.name],
                data := Collect(call.name, run.result, u.data),
                requests := u.requests + run.requests);
    assert t.requests[..|u.requests|] == u.requests;
    t
  }

  /** The tool calls of one round, in order: each answered with its own
      result, named, and collected, one after the other. */
  function RunTools(w: World, req: ChatRequest, calls: seq<ToolCall>, s: Session): (t: Session)
    ensures t.messages == s.messages + Answers(Replier(w, req), calls)
    ensures t.toolsUsed == s.toolsUsed + CallNames(calls)
    ensures t.data == CollectAll(Collector(w, req), calls, s.data)
    ensures t.sent == s.sent && t.slot == s.slot
    ensures |s.requests| <= |t.requests| <= |s.requests| + |calls| && t.requests[..|s.requests|] == s.requests
    decreases |calls|
  {
    if |calls| == 0 then
      assert s.messages + Answers(Replier(w, req), calls) == s.messages;
      assert s.toolsUsed + CallNames(calls) == s.toolsUsed;
      s
    else
      var n := |calls| - 1;
      var u := RunTools(w, req, calls[..n], s);
      var t := RunTool(w, req, calls[n], u);
      ToolStep(Replier(w, req), s, calls, u, t);
      t
  }

  /** Adding the answer to the last call to the answers of the ones before
      it answers them all. */
  lemma ToolStep(answer: ToolCall -> Message, s: Session, calls: seq<ToolCall>, u: Session, t: Session)
    requires |calls| > 0
    requires u.messages == s.messages + Answers(answer, calls[..|calls| - 1])
    requires u.toolsUsed == s.toolsUsed + CallNames(calls[..|calls| - 1])
    requires |s.requests| <= |u.requests| <= |s.requests| + |calls| - 1 && u.requests[..|s.requests|] == s.requests
    requires t.messages == u.messages + [answer(calls[|calls| - 1])]
    requires t.toolsUsed == u.toolsUsed + [calls[|calls| - 1].name]
    requires |u.requests| <= |t.requests| <= |u.requests| + 1 && t.requests[..|u.requests|] == u.requests
    ensures t.messages == s.messages + Answers(answer, calls)
    ensures t.toolsUsed == s.toolsUsed + CallNames(calls)
    ensures |s.requests| <= |t.requests| <= |s.requests| + |calls| && t.requests[..|s.requests|] == s.requests
  {
    var n := |calls| - 1;
    assert Answers(answer, calls) == Answers(answer, calls[..n]) + [answer(calls[n])];
    assert CallNames(calls) == CallNames(calls[..n]) + [calls[n].name];
    assert t.requests[..|s.requests|] == u.requests[..|s.requests|];
  }

  /** Two identical successful searches in one round put their products
      into the collected data twice: `collectToolData` does not
      deduplicate. */
  lemma RepeatedSearchCollectedTwice(w: World, req: ChatRequest, c: ToolCall, s: Session)
    requires ToolKindOf(c.name) == Some(SearchProducts)
    requires !Truthy(Prop(ToolResult(w, req, c), "error")) && Prop(ToolResult(w, req, c), "products").Arr?
    ensures var items := Prop(ToolResult(w, req, c), "products").items;
            RunTools(w, req, [c, c], s).data.products == Some(s.data.products.GetOr([]) + items + items)
  {
    var r := ToolResult(w, req, c);
    var items := Prop(r, "products").items;
    assert [c, c][..1] == [c] && [c][..0] == [];
    var once := Collect(c.name, r, s.data);
    assert CollectAll(Collector(w, req), [c], s.data) == once;
    assert once.products == Some(s.data.products.GetOr([]) + items);
  }

  // ---------------------------------------------------------------------
  // The tool loop

  predicate HasToolCalls(c: Completion) {
    c.toolCalls.Some? && |c.toolCalls.value| > 0
  }

  datatype LoopEnd = LoopEnd(session: Session, result: Result<Completion>, iterations: nat)

  /** `while (toolCalls non-empty && iterations < 5)`: one assistant turn
      with all the calls, one tool message per call, then the next model
      call.  A failed model call ends the loop with its error. */
  function Loop(w: World, req: ChatRequest, s: Session, result: Completion, iterations: nat): (e: LoopEnd)
    requires iterations <= MaxIterations
    ensures iterations <= e.iterations <= MaxIterations
    ensures e.result.Ok? ==> !HasToolCalls(e.result.value) || e.iterations == MaxIterations
    ensures !HasToolCalls(result) ==> e == LoopEnd(s, Ok(result), iterations)
    decreases MaxIterations - iterations
  {
    if !HasToolCalls(result) || iterations == MaxIterations then LoopEnd(s, Ok(result), iterations)
    else
      var next := Iterate(w, req, s, result);
      if next.result.Err? then LoopEnd(next.session, next.result, iterations + 1)
      else Loop(w, req, next.session, next.result.value, iterations + 1)
  }

  /** The assistant turn that asked for `calls`. */
  function ToolTurn(result: Completion): (m: Message)
    requires HasToolCalls(result)
    ensures AsksForTools(m) && m.toolCalls.value == result.toolCalls.value
  {
    AssistantMessage(result.content, Some(result.toolCalls.value))
  }

  /** One iteration: the assistant turn with the calls, one answer per call,
      then the next model call on the grown transcript. */
  function Iterate(w: World, req: ChatRequest, s: Session, result: Completion): (a: Asked)
    requires HasToolCalls(result)
    ensures a.session.messages == s.messages + [ToolTurn(result)] + Answers(Replier(w, req), result.toolCalls.value)
    ensures a.session.toolsUsed == s.toolsUsed + CallNames(result.toolCalls.value)
    ensures a.session.data == CollectAll(Collector(w, req), result.toolCalls.value, s.data)
    ensures s.slot.Ready? ==>
      |a.session.sent| == |s.sent| + 1 && a.session.sent[..|s.sent|] == s.sent
      && a.session.sent[|s.sent|].messages == a.session.messages && a.session.slot.Ready?
  {
    var s1 := s.(messages := s.messages + [ToolTurn(result)]);
    var s2 := RunTools(w, req, result.toolCalls.value, s1);
    Ask(w, req.traceId, s2)
  }

  /** What the loop keeps true: the transcript is the seed followed by one
      round per iteration, every tool message carrying its call's result;
      the tools used are the calls of those rounds in order, and the
      collected data is those calls' results collected in that order; every
      model request carried such a transcript; and exactly one model call
      was made per iteration, plus the first. */
  predicate Invariant(w: World, req: ChatRequest, seed: seq<Message>, s: Session, iterations: nat) {
    TranscriptInvariant(Replier(w, req), Collector(w, req), seed, s.messages, s.toolsUsed, s.data, iterations)
    && SentInvariant(Replier(w, req), seed, s.sent, iterations) && s.slot.Ready?
  }

  /** The transcript half of the invariant. */
  predicate TranscriptInvariant(answer: ToolCall -> Message, step: (ToolCall, CollectedData) -> CollectedData,
                                seed: seq<Message>, ms: seq<Message>, toolsUsed: seq<string>, data: CollectedData,
                                iterations: nat) {
    WellFormed(answer, seed, ms)
    && RoundCount(answer, ms[|seed|..]) == iterations
    && toolsUsed == CallNames(RoundCalls(answer, ms[|seed|..]))
    && data == CollectAll(step, RoundCalls(answer, ms[|seed|..]), NoData)
  }

  /** The request-log half of the invariant. */
  predicate SentInvariant(answer: ToolCall -> Message, seed: seq<Message>, sent: seq<ProviderRequest>, iterations: nat) {
    (forall j :: 0 <= j < |sent| ==> WellFormed(answer, seed, sent[j].messages))
    && |sent| == iterations + 1
    && sent[0].messages == seed
  }

  /** Appending one round to a well-formed transcript keeps it well formed
      and extends its calls by the round's calls. */
  lemma ExtendTranscript(answer: ToolCall -> Message, seed: seq<Message>, ms: seq<Message>, b: seq<Message>, t: seq<Message>)
    requires WellFormed(answer, seed, ms) && IsRound(answer, b) && t == ms + b
    ensures WellFormed(answer, seed, t)
    ensures RoundCount(answer, t[|seed|..]) == RoundCount(answer, ms[|seed|..]) + 1
    ensures RoundCalls(answer, t[|seed|..]) == RoundCalls(answer, ms[|seed|..]) + b[0].toolCalls.value
  {
    var rest := ms[|seed|..];
    RoundsAppend(answer, rest, b);
    assert t[|seed|..] == rest + b;
    assert t[..|seed|] == seed;
  }

  /** The assistant turn of an iteration and the answers appended after it
      form one round. */
  lemma RoundFromAnswers(answer: ToolCall -> Message, ms: seq<Message>, a: Message, t: seq<Message>)
    requires AsksForTools(a)
    requires t == ms + [a] + Answers(answer, a.toolCalls.value)
    ensures |ms| < |t| && t == ms + t[|ms|..] && IsRound(answer, t[|ms|..]) && t[|ms|] == a
  {
    var tail := Answers(answer, a.toolCalls.value);
    assert t[|ms|..] == [a] + tail;
    assert t[|ms|..][1..] == tail;
  }

  /** One iteration of the loop keeps the invariant, with one more round
      and one more model call. */
  lemma IterationKeepsInvariant(w: World, req: ChatRequest, seed: seq<Message>, s: Session, a: Message,
                                next: Session, iterations: nat)
    requires Invariant(w, req, seed, s, iterations)
    requires AsksForTools(a)
    requires next.messages == s.messages + [a] + Answers(Replier(w, req), a.toolCalls.value)
    requires next.toolsUsed == s.toolsUsed + CallNames(a.toolCalls.value)
    requires next.data == CollectAll(Collector(w, req), a.toolCalls.value, s.data)
    requires |next.sent| == |s.sent| + 1 && next.sent[..|s.sent|] == s.sent
    requires next.sent[|s.sent|].messages == next.messages && next.slot.Ready?
    ensures Invariant(w, req, seed, next, iterations + 1)
  {
    TranscriptStep(Replier(w, req), Collector(w, req), seed, s.messages, s.toolsUsed, s.data, a,
                   next.messages, next.toolsUsed, next.data, iterations);
    SentStep(Replier(w, req), seed, s.sent, next.sent, iterations);
  }

  lemma TranscriptStep(answer: ToolCall -> Message, step: (ToolCall, CollectedData) -> CollectedData,
                       seed: seq<Message>, ms: seq<Message>, used: seq<string>, data: CollectedData, a: Message,
                       ms': seq<Message>, used': seq<string>, data': CollectedData, iterations: nat)
    requires TranscriptInvariant(answer, step, seed, ms, used, data, iterations)
    requires AsksForTools(a)
    requires ms' == ms + [a] + Answers(answer, a.toolCalls.value)
    requires used' == used + CallNames(a.toolCalls.value)
    requires data' == CollectAll(step, a.toolCalls.value, data)
    ensures TranscriptInvariant(answer, step, seed, ms', used', data', iterations + 1)
  {
    RoundFromAnswers(answer, ms, a, ms');
    var b := ms'[|ms|..];
    assert b[0] == a;
    ExtendTranscript(answer, seed, ms, b, ms');
    var before := RoundCalls(answer, ms[|seed|..]);
    CallNamesAppend(before, a.toolCalls.value);
    CollectAllAppend(step, before, a.toolCalls.value, NoData);
  }

  lemma SentStep(answer: ToolCall -> Message, seed: seq<Message>, sent: seq<ProviderRequest>,
                 sent': seq<ProviderRequest>, iterations: nat)
    requires SentInvariant(answer, seed, sent, iterations)
    requires |sent'| == |sent| + 1 && sent'[..|sent|] == sent && WellFormed(answer, seed, sent'[|sent|].messages)
    ensures SentInvariant(answer, seed, sent', iterations + 1)
  {
    SentStaysWellFormed(answer, seed, sent, sent');
  }

  /** Appending a request with a well-formed transcript to a log of such
      requests keeps the log's first entry and its well-formedness. */
  lemma SentStaysWellFormed(answer: ToolCall -> Message, seed: seq<Message>, sent: seq<ProviderRequest>,
                            sent': seq<ProviderRequest>)
    requires |sent| >= 1 && sent[0].messages == seed
    requires forall j :: 0 <= j < |sent| ==> WellFormed(answer, seed, sent[j].messages)
    requires |sent'| == |sent| + 1 && sent'[..|sent|] == sent && WellFormed(answer, seed, sent'[|sent|].messages)
    ensures sent'[0].messages == seed
    ensures forall j :: 0 <= j < |sent'| ==> WellFormed(answer, seed, sent'[j].messages)
  {
    assert sent' == sent + [sent'[|sent|]];
  }

  lemma {:induction false} LoopKeepsInvariant(w: World, req: ChatRequest, s: Session, result: Completion, iterations: nat)
    requires iterations <= MaxIterations
    requires Invariant(w, req, Seed(req), s, iterations)
    ensures var e := Loop(w, req, s, result, iterations);
            Invariant(w, req, Seed(req), e.session, e.iterations)
    decreases MaxIterations - iterations
  {
    if HasToolCalls(result) && iterations < MaxIterations {
      var next := Iterate(w, req, s, result);
      IterationKeepsInvariant(w, req, Seed(req), s, ToolTurn(result), next.session, iterations);
      if next.result.Ok? {
        LoopKeepsInvariant(w, req, next.session, next.result.value, iterations + 1);
      }
    }
  }

  // ---------------------------------------------------------------------
  // `processMessage`

  /** What one `processMessage` produced and did. */
  datatype Outcome = Outcome(response: ChatResponse, session: Session)

  /** `Object.keys(collectedData).length > 0 ? collectedData : undefined` */
  function DataOf(d: CollectedData): (r: Option<CollectedData>)
    ensures r.None? <==> d.products.None? && d.orders.None?
    ensures r.Some? ==> r.value == d
  {
    if d.products.Some? || d.orders.Some? then Some(d) else None
  }

  /** The successful reply: the last completion's text (the fallback when
      it has none), the collected records, the tools used and the tokens. */
  function Reply(convId: string, s: Session, last: Completion): (r: ChatResponse)
    ensures PresentText(last.content) ==> r.message == last.content.value
    ensures !PresentText(last.content) ==> r.message == FallbackReply
    ensures r.conversationId == convId && r.data == DataOf(s.data) && r.metadata.Some?
    ensures r.metadata.value.toolsUsed.None? <==> |s.toolsUsed| == 0
    ensures r.metadata.value.toolsUsed.Some? ==> r.metadata.value.toolsUsed.value == s.toolsUsed
    ensures r.metadata.value.tokensUsed == (if last.usage.Some? then Some(last.usage.value.totalTokens) else None)
  {
    ChatResponse(if PresentText(last.content) then last.content.value else FallbackReply, convId, DataOf(s.data),
                 Some(Metadata(if |s.toolsUsed| > 0 then Some(s.toolsUsed) else None,
                               if last.usage.Some? then Some(last.usage.value.totalTokens) else None)))
  }

  function Apology(convId: string): ChatResponse {
    ChatResponse(ErrorReply, convId, None, None)
  }

  /** The first model call, on the seed transcript. */
  function FirstAsk(w: World, req: ChatRequest, slot: ClientSlot): (a: Asked)
    ensures IsConfigured(w.gateway) ==> Invariant(w, req, Seed(req), a.session, 0)
    ensures a.session.requests == [] && a.session.toolsUsed == [] && a.session.data == NoData
  {
    var seed := Seed(req);
    var a := Ask(w, req.traceId, Session(seed, [], NoData, [], [], slot));
    assert a.session.messages[|seed|..] == [];
    assert a.session.messages[..|seed|] == seed;
    a
  }

  /** `processMessage`.  `slot` is the gateway's client slot before the
      call; the outcome carries it after. */
  function ProcessMessage(w: World, req: ChatRequest, slot: ClientSlot): (o: Outcome)
    ensures o.response.conversationId == ConversationId(w, req)
    ensures !IsConfigured(w.gateway) ==>
      o == Outcome(ChatResponse(NotConfiguredReply, ConversationId(w, req), None, None),
                   Session([], [], NoData, [], [], slot))
    ensures IsConfigured(w.gateway) && FirstAsk(w, req, slot).result.Err? ==>
      o == Outcome(Apology(ConversationId(w, req)), FirstAsk(w, req, slot).session)
    ensures IsConfigured(w.gateway) && FirstAsk(w, req, slot).result.Ok? ==>
      var e := Loop(w, req, FirstAsk(w, req, slot).session, FirstAsk(w, req, slot).result.value, 0);
      o.session == e.session
      && (e.result.Err? ==> o.response == Apology(ConversationId(w, req)))
      && (e.result.Ok? ==> o.response == Reply(ConversationId(w, req), e.session, e.result.value))
  {
    var convId := ConversationId(w, req);
    if !IsConfigured(w.gateway) then
      Outcome(ChatResponse(NotConfiguredReply, convId, None, None), Session([], [], NoData, [], [], slot))
    else
      var first := FirstAsk(w, req, slot);
      if first.result.Err? then Outcome(Apology(convId), first.session)
      else
        var e := Loop(w, req, first.session, first.result.value, 0);
        if e.result.Err? then Outcome(Apology(convId), e.session)
        else Outcome(Reply(convId, e.session, e.result.value), e.session)
  }

  /** Every call of the model asked for at least one tool, so the rounds
      hold no call exactly when there are none. */
  lemma {:induction false} NoRoundsNoCalls(answer: ToolCall -> Message, ms: seq<Message>)
    requires Rounds(answer, ms)
    ensures |RoundCalls(answer, ms)| == 0 <==> RoundCount(answer, ms) == 0
    decreases |ms|
  {
  }

  /** With the gateway configured: the first model call carries the seed
      transcript; every model call carries the seed followed by whole tool
      rounds, each tool message carrying its call's stringified result;
      there is one model call per round plus the first, so at most six; the
      tools used are the calls of those rounds, in order, duplicates and
      failures included; and the collected data is those calls' results
      collected in that order. */
  lemma ConfiguredRun(w: World, req: ChatRequest, slot: ClientSlot)
    requires IsConfigured(w.gateway)
    ensures var o := ProcessMessage(w, req, slot);
            var seed := Seed(req);
            1 <= |o.session.sent| <= 1 + MaxIterations
            && o.session.sent[0].messages == seed
            && (forall j :: 0 <= j < |o.session.sent| ==> WellFormed(Replier(w, req), seed, o.session.sent[j].messages))
            && WellFormed(Replier(w, req), seed, o.session.messages)
            && |o.session.sent| == 1 + RoundCount(Replier(w, req), o.session.messages[|seed|..])
            && o.session.toolsUsed == CallNames(RoundCalls(Replier(w, req), o.session.messages[|seed|..]))
            && o.session.data == CollectAll(Collector(w, req), RoundCalls(Replier(w, req), o.session.messages[|seed|..]), NoData)
            && o.session.slot.Ready?
  {
    var first := FirstAsk(w, req, slot);
    if first.result.Ok? {
      LoopKeepsInvariant(w, req, first.session, first.result.value, 0);
      var e := Loop(w, req, first.session, first.result.value, 0);
      InvariantBounds(w, req, Seed(req), e.session, e.iterations);
    } else {
      InvariantBounds(w, req, Seed(req), first.session, 0);
    }
  }

  lemma InvariantBounds(w: World, req: ChatRequest, seed: seq<Message>, s: Session, iterations: nat)
    requires Invariant(w, req, seed, s, iterations) && iterations <= MaxIterations
    ensures 1 <= |s.sent| <= 1 + MaxIterations
    ensures |s.sent| == 1 + RoundCount(Replier(w, req), s.messages[|seed|..])
  {
  }

  /** The answer of a successful run: the last completion's text or the
      fallback, the records collected from the rounds' results, and
      `toolsUsed` present exactly when the model asked for tools at least
      once. */
  lemma SuccessfulReply(w: World, req: ChatRequest, slot: ClientSlot)
    requires IsConfigured(w.gateway) && FirstAsk(w, req, slot).result.Ok?
    requires Loop(w, req, FirstAsk(w, req, slot).session, FirstAsk(w, req, slot).result.value, 0).result.Ok?
    ensures var o := ProcessMessage(w, req, slot);
            WellFormed(Replier(w, req), Seed(req), o.session.messages)
            && var calls := RoundCalls(Replier(w, req), o.session.messages[|Seed(req)|..]);
            o.response.data == DataOf(CollectAll(Collector(w, req), calls, NoData))
            && o.response.metadata.Some?
            && (o.response.metadata.value.toolsUsed.None? <==> |o.session.sent| == 1)
            && (o.response.metadata.value.toolsUsed.Some? ==> o.response.metadata.value.toolsUsed.value == CallNames(calls))
  {
    var first := FirstAsk(w, req, slot);
    var e := Loop(w, req, first.session, first.result.value, 0);
    var o := ProcessMessage(w, req, slot);
    assert o == Outcome(Reply(ConversationId(w, req), e.session, e.result.value), e.session);
    ConfiguredRun(w, req, slot);
    var rounds := o.session.messages[|Seed(req)|..];
    NoRoundsNoCalls(Replier(w, req), rounds);
    ReplyReports(ConversationId(w, req), o.session, e.result.value, RoundCalls(Replier(w, req), rounds),
                 CollectAll(Collector(w, req), RoundCalls(Replier(w, req), rounds), NoData));
  }

  lemma ReplyReports(convId: string, s: Session, last: Completion, calls: seq<ToolCall>, data: CollectedData)
    requires s.toolsUsed == CallNames(calls) && s.data == data
    ensures var r := Reply(convId, s, last);
            r.data == DataOf(data) && r.metadata.Some?
            && (r.metadata.value.toolsUsed.None? <==> |calls| == 0)
            && (r.metadata.value.toolsUsed.Some? ==> r.metadata.value.toolsUsed.value == CallNames(calls))
  {
  }

  /** A failing first model call turns the whole answer into the apology,
      under the same conversation id. */
  lemma FirstCallFailureApologises(w: World, req: ChatRequest, slot: ClientSlot)
    requires IsConfigured(w.gateway)
    requires FirstAsk(w, req, slot).result.Err?
    ensures ProcessMessage(w, req, slot).response == ChatResponse(ErrorReply, ConversationId(w, req), None, None)
    ensures |ProcessMessage(w, req, slot).session.sent| == 1
  {
  }

  /** When the first completion asks for no tool, nothing else happens: one
      model call, no tool, no downstream request, no data. */
  lemma NoToolCallsStopsAtOnce(w: World, req: ChatRequest, slot: ClientSlot)
    requires IsConfigured(w.gateway)
    requires FirstAsk(w, req, slot).result.Ok? && !HasToolCalls(FirstAsk(w, req, slot).result.value)
    ensures var o := ProcessMessage(w, req, slot);
            |o.session.sent| == 1 && o.session.requests == [] && o.session.toolsUsed == []
            && o.response.data.None? && o.response.metadata.Some? && o.response.metadata.value.toolsUsed.None?
  {
  }
}

=== FILE: form_encoding.dfy ===
/** `URLSearchParams` as the catalog adapter uses it: `set` on an ordered
    list of name/value pairs, and `toString`, the
    application/x-www-form-urlencoded serializer of the WHATWG URL Standard
    (UTF-8 encode, then keep `*-._`, digits and ASCII letters, write a
    space as `+`, percent-encode every other byte in upper-case hex).
    The parser is the partner the round-trip lemma is stated against. */
module FormEncoding {
  import opened Base

  type byte = x: int | 0 <= x < 256

  type Pair = (string, string)

  // ---------------------------------------------------------------------
  // UTF-8

  function Utf8Char(c: char): (bs: seq<byte>)
    ensures 1 <= |bs| <= 4
    ensures (c as int) < 0x80 <==> |bs| == 1
    ensures |bs| == 1 ==> bs[0] == c as int
  {
    var cp := c as int;
    if cp < 0x80 then [cp]
    else if cp < 0x800 then [0xC0 + cp / 64, 0x80 + cp % 64]
    else if cp < 0x10000 then [0xE0 + cp / 4096, 0x80 + (cp / 64) % 64, 0x80 + cp % 64]
    else [0xF0 + cp / 262144, 0x80 + (cp / 4096) % 64, 0x80 + (cp / 64) % 64, 0x80 + cp % 64]
  }

  function Utf8(s: string): seq<byte> {
    if |s| == 0 then [] else Utf8Char(s[0]) + Utf8(s[1..])
  }

  predicate IsContinuation(b: byte) {
    0x80 <= b < 0xC0
  }

  /** Scalar value of an `n`-byte sequence from its payload bits. */
  function Combine(bs: seq<byte>, n: nat): int
    requires 1 <= n <= 4 && n <= |bs|
  {
    var b: seq<int> := bs;
    if n == 1 then b[0]
    else if n == 2 then (b[0] - 0xC0) * 64 + (b[1] - 0x80)
    else if n == 3 then ((b[0] - 0xE0) * 64 + (b[1] - 0x80)) * 64 + (b[2] - 0x80)
    else (((b[0] - 0xF0) * 64 + (b[1] - 0x80)) * 64 + (b[2] - 0x80)) * 64 + (b[3] - 0x80)
  }

  /** One character from the front of `bs`, with the number of bytes it
      used; `None` on malformed input. */
  function DecodeOne(bs: seq<byte>): (r: Option<(char, nat)>)
    ensures r.Some? ==> 1 <= r.value.1 <= |bs|
  {
    if |bs| == 0 then None
    else
      var b0 := bs[0];
      var n := if b0 < 0x80 then 1 else if 0xC0 <= b0 < 0xE0 then 2
               else if 0xE0 <= b0 < 0xF0 then 3 else if 0xF0 <= b0 < 0xF8 then 4 else 0;
      if n == 0 || |bs| < n then None
      else if exists k :: 1 <= k < n && !IsContinuation(bs[k]) then None
      else
        var cp := Combine(bs, n);
        if 0 <= cp < 0xD800 || 0xE000 <= cp < 0x110000 then Some((cp as char, n)) else None
  }

  function DecodeUtf8(bs: seq<byte>): Option<string>
    decreases |bs|
  {
    if |bs| == 0 then Some("")
    else
      var one := DecodeOne(bs);
      if one.None? then None
      else
        var rest := DecodeUtf8(bs[one.value.1..]);
        if rest.None? then None else Some([one.value.0] + rest.value)
  }

  lemma DecodeOneChar(c: char, rest: seq<byte>)
    ensures DecodeOne(Utf8Char(c) + rest) == Some((c, |Utf8Char(c)|))
  {
    var cp := c as int;
    if cp < 0x80 {
    } else if cp < 0x800 {
      DecodeTwoBytes(c, rest);
    } else if cp < 0x10000 {
      DecodeThreeBytes(c, rest);
    } else {
      DecodeFourBytes(c, rest);
    }
  }

  lemma DecodeTwoBytes(c: char, rest: seq<byte>)
    requires 0x80 <= c as int < 0x800
    ensures DecodeOne(Utf8Char(c) + rest) == Some((c, 2))
  {
    var cp := c as int;
    var bs := Utf8Char(c) + rest;
    assert bs[0] == 0xC0 + cp / 64 && bs[1] == 0x80 + cp % 64;
    assert IsContinuation(bs[1]);
    assert Combine(bs, 2) == cp;
  }

  lemma DecodeThreeBytes(c: char, rest: seq<byte>)
    requires 0x800 <= c as int < 0x10000
    ensures DecodeOne(Utf8Char(c) + rest) == Some((c, 3))
  {
    var cp := c as int;
    var bs := Utf8Char(c) + rest;
    assert bs[0] == 0xE0 + cp / 4096 && bs[1] == 0x80 + (cp / 64) % 64 && bs[2] == 0x80 + cp % 64;
    assert IsContinuation(bs[1]) && IsContinuation(bs[2]);
    Regroup3(cp);
    assert Combine(bs, 3) == cp;
  }

  lemma DecodeFourBytes(c: char, rest: seq<byte>)
    requires 0x10000 <= c as int
    ensures DecodeOne(Utf8Char(c) + rest) == Some((c, 4))
  {
    var cp := c as int;
    var bs := Utf8Char(c) + rest;
    assert bs[0] == 0xF0 + cp / 262144 && bs[1] == 0x80 + (cp / 4096) % 64;
    assert bs[2] == 0x80 + (cp / 64) % 64 && bs[3] == 0x80 + cp % 64;
    assert IsContinuation(bs[1]) && IsContinuation(bs[2]) && IsContinuation(bs[3]);
    Regroup4(cp);
    assert Combine(bs, 4) == cp;
  }

  lemma Regroup3(cp: nat)
    ensures ((cp / 4096) * 64 + (cp / 64) % 64) * 64 + cp % 64 == cp
  {
    assert (cp / 64) / 64 == cp / 4096;
  }

  lemma Regroup4(cp: nat)
    ensures (((cp / 262144) * 64 + (cp / 4096) % 64) * 64 + (cp / 64) % 64) * 64 + cp % 64 == cp
  {
    assert (cp / 64) / 64 == cp / 4096;
    assert (cp / 4096) / 64 == cp / 262144;
  }

  lemma {:induction false} DecodeUtf8Utf8(s: string)
    ensures DecodeUtf8(Utf8(s)) == Some(s)
    decreases |s|
  {
    if |s| > 0 {
      var e := Utf8Char(s[0]);
      DecodeOneChar(s[0], Utf8(s[1..]));
      assert (e + Utf8(s[1..]))[|e|..] == Utf8(s[1..]);
      DecodeUtf8Utf8(s[1..]);
      assert [s[0]] + s[1..] == s;
    }
  }

  // ---------------------------------------------------------------------
  // The byte serializer

  predicate KeptAsIs(b: byte) {
    b == 0x2A || b == 0x2D || b == 0x2E || 0x30 <= b <= 0x39
    || 0x41 <= b <= 0x5A || b == 0x5F || 0x61 <= b <= 0x7A
  }

  /** The upper-case hex digit of `d`. */
  function HexUpper(d: nat): (c: char)
    requires d < 16
    ensures ('0' <= c <= '9') || ('A' <= c <= 'F')
  {
    if d < 10 then ('0' as int + d) as char else ('A' as int + d - 10) as char
  }

  function SerializeByte(b: byte): (t: string)
    ensures t == "+" || |t| == 1 || |t| == 3
  {
    if b == 0x20 then "+"
    else if KeptAsIs(b) then [b as char]
    else ['%', HexUpper(b / 16), HexUpper(b % 16)]
  }

  function SerializeBytes(bs: seq<byte>): string {
    if |bs| == 0 then "" else SerializeByte(bs[0]) + SerializeBytes(bs[1..])
  }

  /** One name or value as `URLSearchParams.toString` writes it. */
  function EncodeComponent(s: string): string {
    SerializeBytes(Utf8(s))
  }

  /** `URLSearchParams.toString()` */
  function Serialize(ps: seq<Pair>): string {
    Join(PairTexts(ps), '&')
  }

  function PairTexts(ps: seq<Pair>): (r: seq<string>)
    ensures |r| == |ps|
    ensures forall i :: 0 <= i < |ps| ==> r[i] == EncodeComponent(ps[i].0) + "=" + EncodeComponent(ps[i].1)
  {
    if |ps| == 0 then [] else [EncodeComponent(ps[0].0) + "=" + EncodeComponent(ps[0].1)] + PairTexts(ps[1..])
  }

  /** `params.set(name, value)`: replaces the first pair with that name and
      drops the later ones, or appends when there is none. */
  function SetParam(ps: seq<Pair>, name: string, value: string): (r: seq<Pair>)
    ensures (forall i :: 0 <= i < |ps| ==> ps[i].0 != name) ==> r == ps + [(name, value)]
    ensures (name, value) in r
    ensures forall i :: 0 <= i < |r| && r[i].0 == name ==> r[i].1 == value
    ensures forall p: Pair :: p.0 != name ==> (p in r <==> p in ps)
  {
    if forall i :: 0 <= i < |ps| ==> ps[i].0 != name then ps + [(name, value)]
    else ReplaceNamed(ps, name, value, false)
  }

  function ReplaceNamed(ps: seq<Pair>, name: string, value: string, done: bool): (r: seq<Pair>)
    requires !done ==> exists i :: 0 <= i < |ps| && ps[i].0 == name
    ensures done ==> forall i :: 0 <= i < |r| ==> r[i].0 != name
    ensures !done ==> (name, value) in r
    ensures forall i :: 0 <= i < |r| && r[i].0 == name ==> r[i].1 == value
    ensures forall p: Pair :: p.0 != name ==> (p in r <==> p in ps)
  {
    if |ps| == 0 then []
    else if ps[0].0 == name then
      (if done then [] else [(name, value)]) + ReplaceNamed(ps[1..], name, value, true)
    else [ps[0]] + ReplaceNamed(ps[1..], name, value, done)
  }

  // ---------------------------------------------------------------------
  // The parser, and the round trip

  function PercentDecode(s: string): Option<seq<byte>>
    decreases |s|
  {
    if |s| == 0 then Some([])
    else if s[0] == '+' then Cons(0x20, PercentDecode(s[1..]))
    else if s[0] == '%' && |s| >= 3 && IsHex(s[1]) && IsHex(s[2]) then
      Cons(HexVal(s[1]) * 16 + HexVal(s[2]), PercentDecode(s[3..]))
    else
      var rest := PercentDecode(s[1..]);
      if rest.None? then None else Some(Utf8Char(s[0]) + rest.value)
  }

  function Cons(b: byte, r: Option<seq<byte>>): Option<seq<byte>> {
    if r.Some? then Some([b] + r.value) else None
  }

  predicate IsHex(c: char) {
    ('0' <= c <= '9') || ('A' <= c <= 'F') || ('a' <= c <= 'f')
  }

  function HexVal(c: char): (d: nat)
    requires IsHex(c)
    ensures d < 16
  {
    if '0' <= c <= '9' then (c as int) - ('0' as int)
    else if 'A' <= c <= 'F' then (c as int) - ('A' as int) + 10
    else (c as int) - ('a' as int) + 10
  }

  function DecodeComponent(s: string): Option<string> {
    var bs := PercentDecode(s);
    if bs.None? then None else DecodeUtf8(bs.value)
  }

  /** Splits a `name=value` field at its first `=`. */
  function SplitAtEquals(s: string): (r: Pair)
    decreases |s|
  {
    if |s| == 0 then ("", "")
    else if s[0] == '=' then ("", s[1..])
    else
      var t := SplitAtEquals(s[1..]);
      ([s[0]] + t.0, t.1)
  }

  /** The application/x-www-form-urlencoded parser: fields separated by `&`,
      empty fields skipped. */
  function Parse(q: string): Option<seq<Pair>> {
    ParseFields(Split(q, '&'))
  }

  function ParseFields(fields: seq<string>): Option<seq<Pair>>
    decreases |fields|
  {
    if |fields| == 0 then Some([])
    else
      var rest := ParseFields(fields[1..]);
      if rest.None? then None
      else if fields[0] == "" then rest
      else
        var nv := SplitAtEquals(fields[0]);
        var n := DecodeComponent(nv.0);
        var v := DecodeComponent(nv.1);
        if n.None? || v.None? then None else Some([(n.value, v.value)] + rest.value)
  }

  lemma HexUpperValue(d: nat)
    requires d < 16
    ensures IsHex(HexUpper(d)) && HexVal(HexUpper(d)) == d
  {
  }

  /** A percent-encoded byte reads back as that byte. */
  lemma PercentDecodeEscaped(b: byte, rest: string)
    requires b != 0x20 && !KeptAsIs(b)
    ensures PercentDecode(SerializeByte(b) + rest) == Cons(b, PercentDecode(rest))
  {
    HexUpperValue(b / 16);
    HexUpperValue(b % 16);
    var s := ['%', HexUpper(b / 16), HexUpper(b % 16)] + rest;
    assert SerializeByte(b) + rest == s;
    assert s[0] == '%' && s[1] == HexUpper(b / 16) && s[2] == HexUpper(b % 16);
    assert HexVal(s[1]) * 16 + HexVal(s[2]) == b;
    assert s[3..] == rest;
  }

  /** A byte written as itself reads back as that byte. */
  lemma PercentDecodeKept(b: byte, rest: string)
    requires KeptAsIs(b)
    ensures PercentDecode(SerializeByte(b) + rest) == Cons(b, PercentDecode(rest))
  {
    var s := [b as char] + rest;
    assert SerializeByte(b) + rest == s;
    assert s[0] != '+' && s[0] != '%';
    assert s[1..] == rest;
    assert Utf8Char(b as char) == [b];
  }

  lemma PercentDecodeByte(b: byte, rest: string)
    ensures PercentDecode(SerializeByte(b) + rest) == Cons(b, PercentDecode(rest))
  {
    if b == 0x20 {
      var s := SerializeByte(b) + rest;
      assert s[1..] == rest;
    } else if KeptAsIs(b) {
      PercentDecodeKept(b, rest);
    } else {
      PercentDecodeEscaped(b, rest);
    }
  }

  lemma {:induction false} PercentDecodeSerialize(bs: seq<byte>)
    ensures PercentDecode(SerializeBytes(bs)) == Some(bs)
    decreases |bs|
  {
    if |bs| > 0 {
      PercentDecodeSerialize(bs[1..]);
      PercentDecodeByte(bs[0], SerializeBytes(bs[1..]));
      assert [bs[0]] + bs[1..] == bs;
    }
  }

  /** Every name and value is read back exactly as it was set. */
  lemma DecodeEncodeComponent(s: string)
    ensures DecodeComponent(EncodeComponent(s)) == Some(s)
  {
    PercentDecodeSerialize(Utf8(s));
    DecodeUtf8Utf8(s);
  }

  /** The serializer never writes the two delimiters of the format. */
  lemma SerializeByteFree(b: byte)
    ensures Free(SerializeByte(b), '&') && Free(SerializeByte(b), '=')
  {
    if b != 0x20 && !KeptAsIs(b) {
      var t := SerializeByte(b);
      assert t == ['%', HexUpper(b / 16), HexUpper(b % 16)];
    }
  }

  lemma {:induction false} SerializedDelimiterFree(bs: seq<byte>)
    ensures Free(SerializeBytes(bs), '&') && Free(SerializeBytes(bs), '=')
    decreases |bs|
  {
    if |bs| > 0 {
      SerializedDelimiterFree(bs[1..]);
      SerializeByteFree(bs[0]);
      FreeConcat(SerializeByte(bs[0]), SerializeBytes(bs[1..]), '&');
      FreeConcat(SerializeByte(bs[0]), SerializeBytes(bs[1..]), '=');
    }
  }

  lemma {:induction false} SplitAtFirstEquals(a: string, b: string)
    requires Free(a, '=')
    ensures SplitAtEquals(a + "=" + b) == (a, b)
    decreases |a|
  {
    var s := a + "=" + b;
    if |a| == 0 {
      assert s[1..] == b;
    } else {
      assert s[1..] == a[1..] + "=" + b;
      SplitAtFirstEquals(a[1..], b);
      assert [a[0]] + a[1..] == a;
    }
  }

  lemma {:induction false} ParsePairTexts(ps: seq<Pair>)
    ensures ParseFields(PairTexts(ps)) == Some(ps)
    decreases |ps|
  {
    if |ps| > 0 {
      var texts := PairTexts(ps);
      assert texts[1..] == PairTexts(ps[1..]);
      ParsePairTexts(ps[1..]);
      var n := EncodeComponent(ps[0].0);
      var v := EncodeComponent(ps[0].1);
      SerializedDelimiterFree(Utf8(ps[0].0));
      SplitAtFirstEquals(n, v);
      DecodeEncodeComponent(ps[0].0);
      DecodeEncodeComponent(ps[0].1);
      assert texts[0] == n + "=" + v;
      assert texts[0] != "";
      assert [ps[0]] + ps[1..] == ps;
    }
  }

  /** Parsing a serialized parameter list gives back the pairs, names,
      values and order. */
  lemma ParseSerialize(ps: seq<Pair>)
    ensures Parse(Serialize(ps)) == Some(ps)
  {
    var texts := PairTexts(ps);
    if |ps| == 0 {
      assert Split("", '&') == [""];
      assert ParseFields([""]) == ParseFields([]);
    } else {
      forall k | 0 <= k < |texts|
        ensures Free(texts[k], '&')
      {
        SerializedDelimiterFree(Utf8(ps[k].0));
        SerializedDelimiterFree(Utf8(ps[k].1));
      }
      SplitJoin(texts, '&');
    }
    ParsePairTexts(ps);
  }
}

=== FILE: invocation.dfy ===
/** Service-to-service invocation through the Dapr sidecar's HTTP API:
    `POST|GET http://{host}:{port}/v1.0/invoke/{appId}/method/{path}`.
    The network is the `transport` oracle and `response.json()` is the
    `parseJson` oracle. */
module Invocation {
  import opened Base
  import opened JsValue

  datatype DaprConfig = DaprConfig(host: string, httpPort: nat)

  /** Request headers by name. */
  type Headers = map<string, string>

  datatype Request = Request(url: string, verb: string, headers: Headers, body: Option<string>)

  /** What `fetch` yields: a rejection, or a response with its status and
      body text. */
  datatype HttpOutcome = NetworkFailure(message: string) | Response(status: nat, text: string)

  /** The world outside the process, as far as the downstream calls see it. */
  datatype Env = Env(transport: Request -> HttpOutcome, parseJson: string -> Result<Value>)

  /** One invocation: the request that went out and what the caller gets
      back (a JSON value, or the error thrown). */
  datatype Exchange = Exchange(request: Request, outcome: Result<Value>)

  const ContentType := "Content-Type"
  const JsonMediaType := "application/json"

  /** `response.ok` */
  predicate IsOk(status: nat) {
    200 <= status <= 299
  }

  /** One leading `/` is dropped; nothing else changes. */
  function CleanMethodName(m: string): (r: string)
    ensures StartsWith(m, "/") ==> m == "/" + r
    ensures !StartsWith(m, "/") ==> r == m
  {
    if StartsWith(m, "/") then m[1..] else m
  }

  function InvokePrefix(cfg: DaprConfig, appId: string): string {
    "http://" + cfg.host + ":" + NatToString(cfg.httpPort) + "/v1.0/invoke/" + appId + "/method/"
  }

  /** The sidecar URL: the fixed invoke prefix for `appId`, then the method
      path without its leading slash. */
  function InvokeUrl(cfg: DaprConfig, appId: string, methodName: string): (url: string)
    ensures StartsWith(url, InvokePrefix(cfg, appId))
    ensures StartsWith(methodName, "/") ==> url == InvokePrefix(cfg, appId) + methodName[1..]
    ensures !StartsWith(methodName, "/") ==> url == InvokePrefix(cfg, appId) + methodName
  {
    InvokePrefix(cfg, appId) + CleanMethodName(methodName)
  }

  /** Callers may write the method path with or without its leading slash. */
  lemma LeadingSlashIrrelevant(cfg: DaprConfig, appId: string, m: string)
    requires !StartsWith(m, "/")
    ensures InvokeUrl(cfg, appId, "/" + m) == InvokeUrl(cfg, appId, m)
  {
    assert ("/" + m)[1..] == m;
  }

  /** `{ 'Content-Type': 'application/json', ...headers }`: the caller's
      headers are all sent, and win over the default. */
  function MergeHeaders(extra: Option<Headers>): (h: Headers)
    ensures ContentType in h
    ensures extra.None? ==> h == map[ContentType := JsonMediaType]
    ensures extra.Some? ==> h.Keys == extra.value.Keys + {ContentType}
    ensures extra.Some? ==> forall k :: k in extra.value ==> h[k] == extra.value[k]
    ensures (extra.None? || ContentType !in extra.value) ==> h[ContentType] == JsonMediaType
  {
    var base := map[ContentType := JsonMediaType];
    if extra.Some? then base + extra.value else base
  }

  /** The request `invokeService` hands to `fetch`. */
  function BuildRequest(cfg: DaprConfig, appId: string, methodName: string, verb: string,
                        data: Value, headers: Option<Headers>): (r: Request)
    ensures r.url == InvokeUrl(cfg, appId, methodName)
    ensures r.verb == ToUpperAscii(verb)
    ensures r.headers == MergeHeaders(headers)
    ensures r.body.Some? <==> Truthy(data)
    ensures r.body.Some? ==> Some(r.body.value) == Stringify(data)
  {
    Request(InvokeUrl(cfg, appId, methodName), ToUpperAscii(verb), MergeHeaders(headers),
            if Truthy(data) then Stringify(data) else None)
  }

  /** `HTTP <status>: <text>` */
  function HttpErrorMessage(status: nat, text: string): string {
    "HTTP " + NatToString(status) + ": " + text
  }

  /** Reads the status back out of an error message, the partner of
      `HttpErrorMessage`. */
  function StatusOfMessage(m: string): Option<nat> {
    if !StartsWith(m, "HTTP ") then None
    else
      var digits := DigitPrefix(m[5..]);
      if |digits| == 0 || !StartsWith(m[5 + |digits|..], ": ") then None
      else Some(ParseNat(digits))
  }

  function DigitPrefix(s: string): (d: string)
    ensures AllDigits(d) && |d| <= |s| && d == s[..|d|]
    ensures |d| < |s| ==> !IsDigit(s[|d|])
  {
    if |s| == 0 || !IsDigit(s[0]) then "" else [s[0]] + DigitPrefix(s[1..])
  }

  lemma {:induction false} DigitPrefixOf(d: string, rest: string)
    requires AllDigits(d)
    requires |rest| == 0 || !IsDigit(rest[0])
    ensures DigitPrefix(d + rest) == d
    decreases |d|
  {
    if |d| > 0 {
      assert (d + rest)[1..] == d[1..] + rest;
      DigitPrefixOf(d[1..], rest);
      assert [d[0]] + d[1..] == d;
    } else {
      assert d + rest == rest;
    }
  }

  /** The error message of a failed response carries its status, so it can
      be recovered from the message alone. */
  lemma StatusOfHttpErrorMessage(status: nat, text: string)
    ensures StatusOfMessage(HttpErrorMessage(status, text)) == Some(status)
  {
    var m := HttpErrorMessage(status, text);
    var digits := NatToString(status);
    assert m[..5] == "HTTP ";
    assert m[5..] == digits + (": " + text);
    DigitPrefixOf(digits, ": " + text);
    assert m[5 + |digits|..] == ": " + text;
    ParseNatToString(status);
  }

  /** In particular the message contains the decimal status. */
  lemma HttpErrorMessageMentionsStatus(status: nat, text: string)
    ensures Contains(HttpErrorMessage(status, text), NatToString(status))
  {
    ContainsInfix("HTTP ", NatToString(status), ": " + text);
    assert "HTTP " + NatToString(status) + (": " + text) == HttpErrorMessage(status, text);
  }

  /** What `invokeService` throws for a reply, if anything: the network
      rejection, the `HTTP <status>: <text>` error of a non-2xx status, or
      the decoding failure of a 2xx body. */
  function Thrown(env: Env, reply: HttpOutcome): Option<string> {
    match reply
    case NetworkFailure(m) => Some(m)
    case Response(status, text) =>
      if !IsOk(status) then Some(HttpErrorMessage(status, text))
      else if env.parseJson(text).Err? then Some(env.parseJson(text).message)
      else None
  }

  /** `invokeService`: a network rejection and a JSON decoding failure are
      rethrown unchanged, a non-2xx response throws `HTTP <status>: <text>`,
      and a 2xx response yields its decoded body. */
  function Invoke(env: Env, cfg: DaprConfig, appId: string, methodName: string, verb: string,
                  data: Value, headers: Option<Headers>): (x: Exchange)
    ensures x.request == BuildRequest(cfg, appId, methodName, verb, data, headers)
    ensures env.transport(x.request).NetworkFailure? ==>
              x.outcome == Err(env.transport(x.request).message)
    ensures env.transport(x.request).Response? && !IsOk(env.transport(x.request).status) ==>
              x.outcome.Err? && StatusOfMessage(x.outcome.message) == Some(env.transport(x.request).status)
    ensures env.transport(x.request).Response? && !IsOk(env.transport(x.request).status) ==>
              x.outcome == Err(HttpErrorMessage(env.transport(x.request).status, env.transport(x.request).text))
    ensures env.transport(x.request).Response? && IsOk(env.transport(x.request).status) ==>
              x.outcome == env.parseJson(env.transport(x.request).text)
    ensures x.outcome.Err? <==> Thrown(env, env.transport(x.request)).Some?
    ensures x.outcome.Err? ==> x.outcome.message == Thrown(env, env.transport(x.request)).value
    ensures Thrown(env, env.transport(x.request)).None? ==>
              x.outcome == Ok(env.parseJson(env.transport(x.request).text).value)
  {
    var req := BuildRequest(cfg, appId, methodName, verb, data, headers);
    var reply := env.transport(req);
    var outcome :=
      match reply
      case NetworkFailure(m) => Err(m)
      case Response(status, text) =>
        if !IsOk(status) then
          StatusOfHttpErrorMessage(status, text);
          Err(HttpErrorMessage(status, text))
        else env.parseJson(text);
    Exchange(req, outcome)
  }

  /** A 404 from the sidecar surfaces as an error whose message contains
      `404`, which is what the adapters test for. */
  lemma NotFoundMentions404(env: Env, cfg: DaprConfig, appId: string, methodName: string, verb: string,
                            data: Value, headers: Option<Headers>)
    requires env.transport(BuildRequest(cfg, appId, methodName, verb, data, headers)).Response?
    requires env.transport(BuildRequest(cfg, appId, methodName, verb, data, headers)).status == 404
    ensures Invoke(env, cfg, appId, methodName, verb, data, headers).outcome.Err?
    ensures Contains(Invoke(env, cfg, appId, methodName, verb, data, headers).outcome.message, "404")
  {
    var req := BuildRequest(cfg, appId, methodName, verb, data, headers);
    var x := Invoke(env, cfg, appId, methodName, verb, data, headers);
    assert x.request == req;
    assert x.outcome == Err(HttpErrorMessage(404, env.transport(req).text));
    NotFoundText();
    HttpErrorMessageMentionsStatus(404, env.transport(req).text);
  }

  lemma NotFoundText()
    ensures NatToString(404) == "404"
  {
    assert NatToString(40) == "40";
  }

  /** The adapters' not-found convention: an error whose message mentions
      `404` becomes `null`; any other error is rethrown and any value passed
      through. */
  function NotFoundToNull(r: Result<Value>): (n: Result<Value>)
    ensures r.Err? && Contains(r.message, "404") ==> n == Ok(Null)
    ensures !(r.Err? && Contains(r.message, "404")) ==> n == r
  {
    if r.Err? && Contains(r.message, "404") then Ok(Null) else r
  }
}

=== FILE: js_value.dfy ===
/** JavaScript values as they flow through the service: JSON payloads from
    downstream services and the model, plus `undefined`.  Numbers are
    integers here. */
module JsValue {
  import opened Base

  datatype Value =
    | Undefined
    | Null
    | Bool(b: bool)
    | Num(n: int)
    | Str(s: string)
    | Arr(items: seq<Value>)
    | Obj(members: seq<Member>)

  /** One own property of an object, in the order the properties were
      created.  A parsed object may repeat a key; the property then keeps
      its first position and the last occurrence's value. */
  datatype Member = Member(key: string, value: Value)

  /** JavaScript truthiness. */
  predicate Truthy(v: Value) {
    match v
    case Undefined => false
    case Null => false
    case Bool(b) => b
    case Num(n) => n != 0
    case Str(s) => s != ""
    case Arr(_) => true
    case Obj(_) => true
  }

  /** `null` or `undefined`: the values whose property reads throw. */
  predicate Nullish(v: Value) {
    v.Undefined? || v.Null?
  }

  /** `a || b` */
  function Or(a: Value, b: Value): (r: Value)
    ensures Truthy(a) ==> r == a
    ensures !Truthy(a) ==> r == b
  {
    if Truthy(a) then a else b
  }

  /** `a ?? b` */
  function Coalesce(a: Value, b: Value): (r: Value)
    ensures Nullish(a) ==> r == b
    ensures !Nullish(a) ==> r == a
  {
    if Nullish(a) then b else a
  }

  /** Number of UTF-16 code units, which is what `.length` counts. */
  function Utf16Length(s: string): (n: nat)
    ensures |s| <= n <= 2 * |s|
  {
    if |s| == 0 then 0
    else (if (s[0] as int) >= 0x10000 then 2 else 1) + Utf16Length(s[1..])
  }

  /** Index of the last member named `key`, which is where the value lives. */
  function LastIndex(ms: seq<Member>, key: string): (r: Option<nat>)
    ensures r.Some? ==> r.value < |ms| && ms[r.value].key == key
    ensures r.Some? ==> forall j :: r.value < j < |ms| ==> ms[j].key != key
    ensures r.None? <==> forall j :: 0 <= j < |ms| ==> ms[j].key != key
  {
    if |ms| == 0 then None
    else if ms[|ms| - 1].key == key then Some(|ms| - 1)
    else LastIndex(ms[..|ms| - 1], key)
  }

  /** `v[key]` on a value that is neither `null` nor `undefined`: own members
      of objects, and `length` of arrays and strings. */
  function Prop(v: Value, key: string): (r: Value)
    requires !Nullish(v)
    ensures v.Obj? && (forall j :: 0 <= j < |v.members| ==> v.members[j].key != key) ==> r == Undefined
    ensures v.Obj? && r != Undefined ==>
      exists j :: 0 <= j < |v.members| && v.members[j] == Member(key, r)
        && forall k :: j < k < |v.members| ==> v.members[k].key != key
    ensures v.Obj? ==> forall j ::
      (0 <= j < |v.members| && v.members[j].key == key && forall k :: j < k < |v.members| ==> v.members[k].key != key)
      ==> r == v.members[j].value
    ensures v.Arr? ==> r == (if key == "length" then Num(|v.items|) else Undefined)
    ensures v.Str? ==> r == (if key == "length" then Num(Utf16Length(v.s)) else Undefined)
    ensures v.Bool? || v.Num? ==> r == Undefined
  {
    match v
    case Obj(ms) =>
      var i := LastIndex(ms, key);
      if i.Some? then ms[i.value].value else Undefined
    case Arr(items) => if key == "length" then Num(|items|) else Undefined
    case Str(s) => if key == "length" then Num(Utf16Length(s)) else Undefined
    case _ => Undefined
  }

  /** The message V8 gives the `TypeError` of a property read on
      `null`/`undefined`. */
  function ReadErrorMessage(v: Value, key: string): string
    requires Nullish(v)
  {
    "Cannot read properties of " + (if v.Null? then "null" else "undefined")
      + " (reading '" + key + "')"
  }

  /** `v.key` as an expression that may throw. */
  function GetProp(v: Value, key: string): (r: Result<Value>)
    ensures r.Err? <==> Nullish(v)
    ensures r.Ok? ==> r.value == Prop(v, key)
  {
    if Nullish(v) then Err(ReadErrorMessage(v, key)) else Ok(Prop(v, key))
  }

  /** An object whose keys are the given ones, in order. */
  predicate HasKeys(v: Value, keys: seq<string>) {
    v.Obj? && |v.members| == |keys| && forall i :: 0 <= i < |keys| ==> v.members[i].key == keys[i]
  }

  // ---------------------------------------------------------------------
  // `String(v)` and template-literal interpolation

  function ToJsString(v: Value): string
    decreases v, 1
  {
    match v
    case Undefined => "undefined"
    case Null => "null"
    case Bool(b) => if b then "true" else "false"
    case Num(n) => IntToString(n)
    case Str(s) => s
    case Arr(items) => Join(JoinPieces(items, 0), ',')
    case Obj(_) => "[object Object]"
  }

  /** `Array.prototype.join` renders `null` and `undefined` as empty. */
  function JoinPieces(items: seq<Value>, i: nat): (r: seq<string>)
    requires i <= |items|
    ensures |r| == |items| - i
    decreases Arr(items), 0, |items| - i
  {
    if i == |items| then []
    else [if Nullish(items[i]) then "" else ToJsString(items[i])] + JoinPieces(items, i + 1)
  }

  // ---------------------------------------------------------------------
  // `JSON.stringify`

  function HexDigitLower(d: nat): (c: char)
    requires d < 16
  {
    "0123456789abcdef"[d]
  }

  predicate IsHexDigit(c: char) {
    ('0' <= c <= '9') || ('a' <= c <= 'f') || ('A' <= c <= 'F')
  }

  function HexValue(c: char): (d: nat)
    requires IsHexDigit(c)
    ensures d < 16
  {
    if '0' <= c <= '9' then (c as int) - ('0' as int)
    else if 'a' <= c <= 'f' then (c as int) - ('a' as int) + 10
    else (c as int) - ('A' as int) + 10
  }

  /** How `JSON.stringify` writes one character inside a string literal. */
  function EscapeChar(c: char): (e: string)
    ensures |e| > 0
    ensures e[0] == '\\' || (e == [c] && c != '"' && (c as int) >= 0x20)
  {
    if c == '"' then "\\\""
    else if c == '\\' then "\\\\"
    else if (c as int) == 0x08 then "\\b"
    else if (c as int) == 0x0C then "\\f"
    else if c == '\n' then "\\n"
    else if c == '\r' then "\\r"
    else if c == '\t' then "\\t"
    else if (c as int) < 0x20 then
      "\\u00" + [HexDigitLower((c as int) / 16), HexDigitLower((c as int) % 16)]
    else [c]
  }

  function Escape(s: string): string {
    if |s| == 0 then "" else EscapeChar(s[0]) + Escape(s[1..])
  }

  /** Characters `JSON.stringify` writes as themselves. */
  predicate Plain(s: string) {
    forall i :: 0 <= i < |s| ==> s[i] != '"' && s[i] != '\\' && (s[i] as int) >= 0x20
  }

  lemma {:induction false} EscapePlain(s: string)
    requires Plain(s)
    ensures Escape(s) == s
    decreases |s|
  {
    if |s| > 0 {
      EscapePlain(s[1..]);
      assert [s[0]] + s[1..] == s;
    }
  }

  function Quote(s: string): (q: string)
    ensures |q| >= 2 && q[0] == '"' && q[|q| - 1] == '"'
  {
    "\"" + Escape(s) + "\""
  }

  /** `JSON.stringify(v)`; `None` stands for the `undefined` it returns for
      `undefined`. */
  function Stringify(v: Value): (r: Option<string>)
    ensures r.None? <==> v.Undefined?
    decreases v, 2
  {
    match v
    case Undefined => None
    case Null => Some("null")
    case Bool(b) => Some(if b then "true" else "false")
    case Num(n) => Some(IntToString(n))
    case Str(s) => Some(Quote(s))
    case Arr(items) => Some("[" + Join(ItemTexts(items, 0), ',') + "]")
    case Obj(ms) => Some("{" + Join(ObjectTexts(ms), ',') + "}")
  }

  /** Array elements; `undefined` is written as `null`. */
  function ItemTexts(items: seq<Value>, i: nat): (r: seq<string>)
    requires i <= |items|
    ensures |r| == |items| - i
    decreases Arr(items), 0, |items| - i
  {
    if i == |items| then []
    else
      var t := Stringify(items[i]);
      [if t.Some? then t.value else "null"] + ItemTexts(items, i + 1)
  }

  /** The members of an object as `JSON.stringify` writes them, in
      `OwnKeys` order. */
  function ObjectTexts(ms: seq<Member>): seq<string>
    decreases Obj(ms), 1
  {
    MemberTexts(ms, OwnKeys(ms), 0)
  }

  /** Object members in `OwnKeys` order, each with the value its key
      reads; members whose value is `undefined` are dropped. */
  function MemberTexts(ms: seq<Member>, keys: seq<string>, i: nat): seq<string>
    requires i <= |keys|
    decreases Obj(ms), 0, |keys| - i
  {
    if i == |keys| then []
    else
      var last := LastIndex(ms, keys[i]);
      if last.None? then MemberTexts(ms, keys, i + 1)
      else
        var t := Stringify(ms[last.value].value);
        if t.None? then MemberTexts(ms, keys, i + 1)
        else [Quote(keys[i]) + ":" + t.value] + MemberTexts(ms, keys, i + 1)
  }

  // ---------------------------------------------------------------------
  // Property order (`OrdinaryOwnPropertyKeys`)

  /** A key that names an array index: a decimal numeral without leading
      zeros whose value is below 2^32 - 1, so "0" and "10" but not "01",
      "-1" or "4294967295". */
  predicate IsIndexKey(k: string) {
    |k| > 0 && AllDigits(k) && (k[0] != '0' || |k| == 1) && ParseNat(k) < 0xFFFF_FFFF
  }

  /** No key twice. */
  predicate Distinct(ks: seq<string>) {
    forall i, j :: 0 <= i < j < |ks| ==> ks[i] != ks[j]
  }

  function Keys(ms: seq<Member>): (ks: seq<string>)
    ensures |ks| == |ms| && forall j :: 0 <= j < |ms| ==> ks[j] == ms[j].key
  {
    seq(|ms|, j requires 0 <= j < |ms| => ms[j].key)
  }

  /** Where `k` first occurs, which is when its property was created. */
  function FirstIndex(ks: seq<string>, k: string): (i: nat)
    requires k in ks
    ensures i < |ks| && ks[i] == k && forall j :: 0 <= j < i ==> ks[j] != k
    decreases |ks|
  {
    var init := ks[..|ks| - 1];
    if k in init then FirstIndex(init, k) else |ks| - 1
  }

  /** Distinct index keys in ascending numeric order. */
  predicate Ascending(ks: seq<string>) {
    (forall i :: 0 <= i < |ks| ==> IsIndexKey(ks[i]))
    && Distinct(ks)
    && forall i, j :: 0 <= i < j < |ks| ==> ParseNat(ks[i]) <= ParseNat(ks[j])
  }

  /** Places a new index key into an ascending run. */
  function InsertIndex(ks: seq<string>, k: string): (r: seq<string>)
    requires Ascending(ks) && IsIndexKey(k) && k !in ks
    ensures Ascending(r)
    ensures forall x :: x in r <==> x in ks || x == k
    decreases |ks|
  {
    if |ks| == 0 || ParseNat(k) <= ParseNat(ks[0]) then
      AscendingCons(k, ks);
      [k] + ks
    else
      var rest := InsertIndex(ks[1..], k);
      forall x | x in rest ensures ParseNat(ks[0]) <= ParseNat(x) && x != ks[0] {
        if x != k {
          var j :| 0 <= j < |ks[1..]| && ks[1..][j] == x;
          assert ks[j + 1] == x;
        }
      }
      AscendingCons(ks[0], rest);
      [ks[0]] + rest
  }

  /** An index key no greater than any of an ascending run, and not in it,
      can go in front. */
  lemma AscendingCons(k: string, ks: seq<string>)
    requires Ascending(ks) && IsIndexKey(k)
    requires forall x :: x in ks ==> ParseNat(k) <= ParseNat(x) && x != k
    ensures Ascending([k] + ks)
  {
    var r := [k] + ks;
    forall i, j | 0 <= i < j < |r| ensures r[i] != r[j] && ParseNat(r[i]) <= ParseNat(r[j]) {
      assert r[j] == ks[j - 1] && r[j] in ks;
      if i > 0 {
        assert r[i] == ks[i - 1];
      }
    }
  }

  /** The distinct index keys among `ks`, ascending. */
  function IndexKeys(ks: seq<string>): (r: seq<string>)
    ensures Ascending(r)
    ensures forall k :: k in r <==> k in ks && IsIndexKey(k)
    decreases |ks|
  {
    if |ks| == 0 then []
    else
      var r := IndexKeys(ks[..|ks| - 1]);
      var k := ks[|ks| - 1];
      assert ks == ks[..|ks| - 1] + [k];
      if !IsIndexKey(k) || k in r then r else InsertIndex(r, k)
  }

  /** The distinct other keys among `ks`, in order of first occurrence. */
  function OtherKeys(ks: seq<string>): (r: seq<string>)
    ensures forall k :: k in r <==> k in ks && !IsIndexKey(k)
    ensures forall i :: 0 <= i < |r| ==> !IsIndexKey(r[i])
    ensures forall i, j :: 0 <= i < j < |r| ==> FirstIndex(ks, r[i]) < FirstIndex(ks, r[j])
    decreases |ks|
  {
    if |ks| == 0 then []
    else
      var init := ks[..|ks| - 1];
      var r := OtherKeys(init);
      var k := ks[|ks| - 1];
      assert ks == init + [k];
      if IsIndexKey(k) || k in r then r else r + [k]
  }

  /** The order in which `JSON.stringify` visits an object's own keys: the
      array-index keys in ascending numeric order, then every other key in
      the order its property was created; each key once. */
  function OwnKeys(ms: seq<Member>): (r: seq<string>)
    ensures forall k :: k in r <==> k in Keys(ms)
    ensures forall i, j :: 0 <= i < j < |r| ==> r[i] != r[j]
    ensures forall i, j :: 0 <= i < j < |r| && !IsIndexKey(r[i]) ==> !IsIndexKey(r[j])
    ensures forall i, j :: 0 <= i < j < |r| && IsIndexKey(r[i]) && IsIndexKey(r[j]) ==>
      ParseNat(r[i]) <= ParseNat(r[j])
    ensures forall i, j :: 0 <= i < j < |r| && !IsIndexKey(r[i]) && !IsIndexKey(r[j]) ==>
      FirstIndex(Keys(ms), r[i]) < FirstIndex(Keys(ms), r[j])
  {
    var ks := Keys(ms);
    var a := IndexKeys(ks);
    var b := OtherKeys(ks);
    OwnKeysOrder(ks, a, b);
    a + b
  }

  lemma AscendingDistinct(ks: seq<string>)
    requires Ascending(ks)
    ensures Distinct(ks)
  {
  }

  lemma OtherKeysDistinct(ks: seq<string>)
    ensures Distinct(OtherKeys(ks))
  {
  }

  lemma ConcatDistinct(a: seq<string>, b: seq<string>)
    requires Distinct(a) && Distinct(b) && forall x :: x in a ==> x !in b
    ensures Distinct(a + b)
  {
    var r := a + b;
    forall i, j | 0 <= i < j < |r| ensures r[i] != r[j] {
      if j < |a| {
        assert r[i] == a[i] && r[j] == a[j];
      } else if i < |a| {
        assert r[i] == a[i] && a[i] in a && r[j] == b[j - |a|];
      } else {
        assert r[i] == b[i - |a|] && r[j] == b[j - |a|];
      }
    }
  }

  lemma OwnKeysOrder(ks: seq<string>, a: seq<string>, b: seq<string>)
    requires a == IndexKeys(ks) && b == OtherKeys(ks)
    ensures var r := a + b;
      (forall i, j :: 0 <= i < j < |r| ==> r[i] != r[j])
      && (forall i, j :: 0 <= i < j < |r| && !IsIndexKey(r[i]) ==> !IsIndexKey(r[j]))
      && (forall i, j :: 0 <= i < j < |r| && !IsIndexKey(r[i]) && !IsIndexKey(r[j]) ==>
            FirstIndex(ks, r[i]) < FirstIndex(ks, r[j]))
  {
    AscendingDistinct(a);
    OtherKeysDistinct(ks);
    ConcatDistinct(a, b);
    IndexKeysLead(a, b);
    OtherKeysFollowCreation(ks, a, b);
  }

  lemma IndexKeysLead(a: seq<string>, b: seq<string>)
    requires forall k :: 0 <= k < |a| ==> IsIndexKey(a[k])
    requires forall k :: 0 <= k < |b| ==> !IsIndexKey(b[k])
    ensures var r := a + b;
      forall i, j :: 0 <= i < j < |r| && !IsIndexKey(r[i]) ==> !IsIndexKey(r[j])
  {
    var r := a + b;
    assert forall k :: 0 <= k < |a| ==> r[k] == a[k];
    forall i, j | 0 <= i < j < |r| && !IsIndexKey(r[i]) ensures !IsIndexKey(r[j]) {
      assert r[j] == b[j - |a|];
    }
  }

  lemma OtherKeysFollowCreation(ks: seq<string>, a: seq<string>, b: seq<string>)
    requires forall k :: 0 <= k < |a| ==> IsIndexKey(a[k])
    requires forall k :: 0 <= k < |b| ==> b[k] in ks
    requires forall i, j :: 0 <= i < j < |b| ==> FirstIndex(ks, b[i]) < FirstIndex(ks, b[j])
    ensures var r := a + b;
      forall i, j :: 0 <= i < j < |r| && !IsIndexKey(r[i]) && !IsIndexKey(r[j]) ==>
        r[i] in ks && r[j] in ks && FirstIndex(ks, r[i]) < FirstIndex(ks, r[j])
  {
    var r := a + b;
    assert forall k :: 0 <= k < |a| ==> r[k] == a[k];
    forall i, j | 0 <= i < j < |r| && !IsIndexKey(r[i]) && !IsIndexKey(r[j])
      ensures r[i] in ks && r[j] in ks && FirstIndex(ks, r[i]) < FirstIndex(ks, r[j])
    {
      assert r[i] == b[i - |a|] && r[j] == b[j - |a|];
    }
  }

  /** The `{ error: message }` payloads of the tool dispatcher. */
  function ErrorPayload(message: string): (v: Value)
    ensures HasKeys(v, ["error"]) && Truthy(Prop(v, "error")) == (message != "")
  {
    Obj([Member("error", Str(message))])
  }

  lemma SingleMemberText(key: string, v: Value)
    requires !v.Undefined?
    ensures ObjectTexts([Member(key, v)]) == [Quote(key) + ":" + Stringify(v).value]
  {
    var ms := [Member(key, v)];
    OneKey(ms);
    assert LastIndex(ms, key) == Some(0);
    assert MemberTexts(ms, [key], 1) == [];
    assert ObjectTexts(ms) == MemberTexts(ms, [key], 0);
  }

  lemma OneKey(ms: seq<Member>)
    requires |ms| == 1
    ensures OwnKeys(ms) == [ms[0].key]
  {
    var key := ms[0].key;
    assert Keys(ms) == [key];
    assert [key][..0] == [];
    if IsIndexKey(key) {
      assert IndexKeys([key]) == [key] && OtherKeys([key]) == [];
    } else {
      assert IndexKeys([key]) == [] && OtherKeys([key]) == [key];
    }
  }

  /** An index key is written first whatever its position in the text:
      `JSON.stringify(JSON.parse('{"b":1,"0":2}'))` is `{"0":2,"b":1}`,
      with "b" as `a` and "0" as `z`. */
  lemma IndexKeyWrittenFirst(a: string, x: Value, z: string, y: Value)
    requires !IsIndexKey(a) && IsIndexKey(z) && x != Undefined && y != Undefined
    ensures Stringify(Obj([Member(a, x), Member(z, y)]))
      == Some("{" + (Quote(z) + ":" + Stringify(y).value + "," + (Quote(a) + ":" + Stringify(x).value)) + "}")
  {
    var ms := [Member(a, x), Member(z, y)];
    var tz := Quote(z) + ":" + Stringify(y).value;
    var ta := Quote(a) + ":" + Stringify(x).value;
    TwoKeysTexts(a, x, z, y);
    assert Join([tz, ta], ',') == tz + "," + ta;
    assert Stringify(Obj(ms)) == Some("{" + Join([tz, ta], ',') + "}");
  }

  lemma TwoKeysTexts(a: string, x: Value, z: string, y: Value)
    requires !IsIndexKey(a) && IsIndexKey(z) && x != Undefined && y != Undefined
    ensures ObjectTexts([Member(a, x), Member(z, y)])
      == [Quote(z) + ":" + Stringify(y).value, Quote(a) + ":" + Stringify(x).value]
  {
    var ms := [Member(a, x), Member(z, y)];
    var keys := [z, a];
    TwoKeys(a, x, z, y);
    assert LastIndex(ms, z) == Some(1);
    assert LastIndex(ms, a) == Some(0);
    assert MemberTexts(ms, keys, 2) == [];
    assert MemberTexts(ms, keys, 1) == [Quote(a) + ":" + Stringify(x).value];
    assert ObjectTexts(ms) == MemberTexts(ms, keys, 0);
  }

  lemma TwoKeys(a: string, x: Value, z: string, y: Value)
    requires !IsIndexKey(a) && IsIndexKey(z)
    ensures OwnKeys([Member(a, x), Member(z, y)]) == [z, a]
  {
    var ms := [Member(a, x), Member(z, y)];
    TwoKeysParts(a, z);
    OwnKeysSplit(ms);
    assert Keys(ms) == [a, z];
  }

  lemma TwoKeysParts(a: string, z: string)
    requires !IsIndexKey(a) && IsIndexKey(z)
    ensures IndexKeys([a, z]) + OtherKeys([a, z]) == [z, a]
  {
    TwoIndexKeys(a, z);
    TwoOtherKeys(a, z);
  }

  lemma OwnKeysSplit(ms: seq<Member>)
    ensures OwnKeys(ms) == IndexKeys(Keys(ms)) + OtherKeys(Keys(ms))
  {
  }

  lemma TwoIndexKeys(a: string, z: string)
    requires !IsIndexKey(a) && IsIndexKey(z)
    ensures IndexKeys([a, z]) == [z]
  {
    assert [a, z][..1] == [a] && [a][..0] == [];
    assert IndexKeys([a]) == [];
  }

  lemma TwoOtherKeys(a: string, z: string)
    requires !IsIndexKey(a) && IsIndexKey(z)
    ensures OtherKeys([a, z]) == [a]
  {
    assert [a, z][..1] == [a] && [a][..0] == [];
    assert OtherKeys([a]) == [a];
  }

  /** "0" names an index; "b" and "01" do not. */
  lemma IndexKeyExamples()
    ensures IsIndexKey("0") && !IsIndexKey("b") && !IsIndexKey("01")
  {
    assert "0"[..0] == "" && ParseNat("0") == 0;
  }

  /** `JSON.stringify({ error: message })` */
  lemma ErrorPayloadText(message: string)
    ensures Stringify(ErrorPayload(message)) == Some("{" + (Quote("error") + ":" + Quote(message)) + "}")
  {
    SingleMemberObject("error", Str(message));
  }

  lemma SingleMemberObject(key: string, v: Value)
    requires !v.Undefined?
    ensures Stringify(Obj([Member(key, v)])) == Some("{" + (Quote(key) + ":" + Stringify(v).value) + "}")
  {
    var t := Quote(key) + ":" + Stringify(v).value;
    SingleMemberText(key, v);
    assert Join([t], ',') == t;
  }

  // ---------------------------------------------------------------------
  // Reading a JSON string literal back: the partner of `Quote`

  function Unescape(e: string): (r: Option<string>)
    decreases |e|
  {
    if |e| == 0 then Some("")
    else if e[0] == '\\' then
      if |e| < 2 then None
      else
        var d := e[1];
        var simple :=
          if d == '"' then Some('"')
          else if d == '\\' then Some('\\')
          else if d == '/' then Some('/')
          else if d == 'b' then Some(0x08 as char)
          else if d == 'f' then Some(0x0C as char)
          else if d == 'n' then Some('\n')
          else if d == 'r' then Some('\r')
          else if d == 't' then Some('\t')
          else None;
        if simple.Some? then Prepend(simple.value, Unescape(e[2..]))
        else if d == 'u' && |e| >= 6 && IsHexDigit(e[2]) && IsHexDigit(e[3]) && IsHexDigit(e[4]) && IsHexDigit(e[5]) then
          var code := HexValue(e[2]) * 4096 + HexValue(e[3]) * 256 + HexValue(e[4]) * 16 + HexValue(e[5]);
          if 0xD800 <= code < 0xE000 then None
          else Prepend(code as char, Unescape(e[6..]))
        else None
    else if e[0] == '"' || (e[0] as int) < 0x20 then None
    else Prepend(e[0], Unescape(e[1..]))
  }

  function Prepend(c: char, r: Option<string>): Option<string> {
    if r.Some? then Some([c] + r.value) else None
  }

  function Unquote(q: string): Option<string> {
    if |q| >= 2 && q[0] == '"' && q[|q| - 1] == '"' then Unescape(q[1..|q| - 1]) else None
  }

  lemma HexDigitLowerValue(d: nat)
    requires d < 16
    ensures IsHexDigit(HexDigitLower(d)) && HexValue(HexDigitLower(d)) == d
  {
  }

  /** A control character comes back from its `\u00XX` form. */
  lemma UnescapeControl(c: char, rest: string)
    requires (c as int) < 0x20 && c != '\n' && c != '\r' && c != '\t' && (c as int) != 0x08 && (c as int) != 0x0C
    ensures Unescape(EscapeChar(c) + rest) == Prepend(c, Unescape(rest))
  {
    var hi := (c as int) / 16;
    var lo := (c as int) % 16;
    HexDigitLowerValue(hi);
    HexDigitLowerValue(lo);
    var e := "\\u00" + [HexDigitLower(hi), HexDigitLower(lo)] + rest;
    assert EscapeChar(c) + rest == e;
    assert e[0] == '\\' && e[1] == 'u' && e[2] == '0' && e[3] == '0';
    assert e[4] == HexDigitLower(hi) && e[5] == HexDigitLower(lo);
    assert HexValue(e[2]) * 4096 + HexValue(e[3]) * 256 + HexValue(e[4]) * 16 + HexValue(e[5]) == c as int;
    assert e[6..] == rest;
  }

  /** A character with a two-character escape comes back from it. */
  lemma UnescapeShort(c: char, rest: string)
    requires c == '"' || c == '\\' || c == '\n' || c == '\r' || c == '\t' || (c as int) == 0x08 || (c as int) == 0x0C
    ensures Unescape(EscapeChar(c) + rest) == Prepend(c, Unescape(rest))
  {
    var e := EscapeChar(c) + rest;
    assert |EscapeChar(c)| == 2;
    assert e[2..] == rest;
  }

  lemma UnescapeChar(c: char, rest: string)
    ensures Unescape(EscapeChar(c) + rest) == Prepend(c, Unescape(rest))
  {
    if (c as int) < 0x20 && c != '\n' && c != '\r' && c != '\t' && (c as int) != 0x08 && (c as int) != 0x0C {
      UnescapeControl(c, rest);
    } else if c == '"' || c == '\\' || c == '\n' || c == '\r' || c == '\t' || (c as int) == 0x08 || (c as int) == 0x0C {
      UnescapeShort(c, rest);
    } else {
      var e := EscapeChar(c) + rest;
      assert e[1..] == rest;
    }
  }

  lemma {:induction false} UnescapeEscape(s: string)
    ensures Unescape(Escape(s)) == Some(s)
    decreases |s|
  {
    if |s| > 0 {
      UnescapeEscape(s[1..]);
      UnescapeChar(s[0], Escape(s[1..]));
      assert [s[0]] + s[1..] == s;
    }
  }

  /** Every string survives `JSON.stringify` and a JSON string reader. */
  lemma UnquoteQuote(s: string)
    ensures Unquote(Quote(s)) == Some(s)
  {
    var q := Quote(s);
    assert q[1..|q| - 1] == Escape(s);
    UnescapeEscape(s);
  }
}

=== FILE: model_gateway.dfy ===
/** The chat-completion gateway: a lazily created provider client, one
    completion request per call, and the mapping of the provider's first
    choice into the service's own result shape.  The provider is the
    `provider` oracle; it sees the whole request, transcript included. */
module ModelGateway {
  import opened Base
  import opened ToolSchema

  datatype GatewayConfig = GatewayConfig(endpoint: string, apiKey: string, deploymentName: string, apiVersion: string)

  /** `isConfigured`: both the endpoint and the key are non-empty. */
  predicate IsConfigured(cfg: GatewayConfig) {
    cfg.endpoint != "" && cfg.apiKey != ""
  }

  /** What the provider client is built from. */
  datatype Client = Client(endpoint: string, apiKey: string, apiVersion: string)

  /** The module-level `client` singleton. */
  datatype ClientSlot = Empty | Ready(client: Client)

  const NotConfiguredMessage := "Azure OpenAI is not configured. Set AZURE_OPENAI_ENDPOINT and AZURE_OPENAI_API_KEY"

  /** `getClient`: the existing client when there is one; otherwise a new
      client from the configuration, or the configuration error. */
  function GetClient(cfg: GatewayConfig, slot: ClientSlot): (r: (Result<Client>, ClientSlot))
    ensures slot.Ready? ==> r == (Ok(slot.client), slot)
    ensures slot.Empty? && !IsConfigured(cfg) ==> r == (Err(NotConfiguredMessage), Empty)
    ensures slot.Empty? && IsConfigured(cfg) ==>
      r.0 == Ok(Client(cfg.endpoint, cfg.apiKey, cfg.apiVersion)) && r.1 == Ready(r.0.value)
  {
    match slot
    case Ready(c) => (Ok(c), slot)
    case Empty =>
      if !IsConfigured(cfg) then (Err(NotConfiguredMessage), Empty)
      else
        var c := Client(cfg.endpoint, cfg.apiKey, cfg.apiVersion);
        (Ok(c), Ready(c))
  }

  /** The client is created at most once: after a successful `getClient`
      every later call hands back that same client and keeps the slot, even
      under a different configuration. */
  lemma ClientCreatedOnce(cfg: GatewayConfig, slot: ClientSlot, later: GatewayConfig)
    requires GetClient(cfg, slot).0.Ok?
    ensures GetClient(later, GetClient(cfg, slot).1) == GetClient(cfg, slot)
  {
  }

  /** A failed `getClient` leaves nothing behind, so the next call tries
      again. */
  lemma FailedClientRetried(cfg: GatewayConfig, slot: ClientSlot)
    requires GetClient(cfg, slot).0.Err?
    ensures slot == Empty && GetClient(cfg, slot).1 == Empty
    ensures !IsConfigured(cfg)
  {
  }

  // ---------------------------------------------------------------------
  // The service's side of a completion

  /** The neutral tool call `{ id, name, arguments }`. */
  datatype ToolCall = ToolCall(id: string, name: string, arguments: string)

  /** One transcript entry.  `toolCalls` is absent on plain assistant turns
      and present on the turns that asked for tools. */
  datatype Message =
    | SystemMessage(instructions: string)
    | UserMessage(text: string)
    | AssistantMessage(content: Option<string>, toolCalls: Option<seq<ToolCall>>)
    | ToolMessage(toolCallId: string, payload: string)

  datatype Usage = Usage(promptTokens: nat, completionTokens: nat, totalTokens: nat)

  /** `ChatCompletionResult`: `toolCalls` and `usage` may be `undefined`. */
  datatype Completion = Completion(content: Option<string>, toolCalls: Option<seq<ToolCall>>,
                                   finishReason: string, usage: Option<Usage>)

  /** `ChatCompletionOptions` without the temperature. */
  datatype ChatOptions = ChatOptions(messages: seq<Message>, tools: seq<ToolDef>, toolChoice: Option<string>,
                                     maxTokens: Option<nat>, traceId: Option<string>)

  // ---------------------------------------------------------------------
  // The provider's side

  /** The `function` part of a provider tool call; either field may be missing. */
  datatype ProviderFunction = ProviderFunction(name: Option<string>, arguments: Option<string>)

  datatype ProviderToolCall = ProviderToolCall(id: string, fn: Option<ProviderFunction>)

  datatype ProviderMessage = ProviderMessage(content: Option<string>, toolCalls: Option<seq<ProviderToolCall>>)

  datatype Choice = Choice(finishReason: string, message: ProviderMessage)

  datatype ProviderUsage = ProviderUsage(promptTokens: nat, completionTokens: nat, totalTokens: nat)

  /** What `chat.completions.create` resolves to, or the error it rejects
      with. */
  datatype ProviderReply =
    | ProviderFailure(message: string)
    | ProviderResponse(choices: seq<Choice>, usage: Option<ProviderUsage>)

  /** The request body handed to the provider. */
  datatype ProviderRequest = ProviderRequest(client: Client, model: string, messages: seq<Message>,
                                             tools: seq<ToolDef>, toolChoice: Option<string>, maxTokens: nat)

  const DefaultMaxTokens: nat := 1024

  /** A call of `sendChatCompletion`: the request that reached the provider
      (none when the client could not be made), the result or the error, and
      the client slot afterwards. */
  datatype GatewayCall = GatewayCall(sent: Option<ProviderRequest>, result: Result<Completion>, slot: ClientSlot)

  const MissingChoiceMessage := "Cannot read properties of undefined (reading 'finish_reason')"

  function MapToolCall(tc: ProviderToolCall): (t: ToolCall)
    ensures t.id == tc.id
    ensures tc.fn.None? ==> t.name == "" && t.arguments == ""
    ensures tc.fn.Some? ==> t.name == OrEmpty(tc.fn.value.name) && t.arguments == OrEmpty(tc.fn.value.arguments)
  {
    match tc.fn
    case None => ToolCall(tc.id, "", "")
    case Some(f) => ToolCall(tc.id, OrEmpty(f.name), OrEmpty(f.arguments))
  }

  /** `tool_calls?.map(...)`: same order, same ids, missing names and
      arguments become empty strings. */
  function MapToolCalls(tcs: seq<ProviderToolCall>): (ts: seq<ToolCall>)
    ensures |ts| == |tcs|
    ensures forall i :: 0 <= i < |tcs| ==> ts[i] == MapToolCall(tcs[i])
  {
    seq(|tcs|, i requires 0 <= i < |tcs| => MapToolCall(tcs[i]))
  }

  /** How the orchestrator echoes a tool call back in its assistant turn. */
  function ToProviderCall(t: ToolCall): ProviderToolCall {
    ProviderToolCall(t.id, Some(ProviderFunction(Some(t.name), Some(t.arguments))))
  }

  /** Mapping is lossless on tool calls the service itself produced. */
  lemma MapToolCallsEcho(ts: seq<ToolCall>)
    ensures MapToolCalls(seq(|ts|, i requires 0 <= i < |ts| => ToProviderCall(ts[i]))) == ts
  {
    var ps := seq(|ts|, i requires 0 <= i < |ts| => ToProviderCall(ts[i]));
    var back := MapToolCalls(ps);
    forall i | 0 <= i < |ts|
      ensures back[i] == ts[i]
    {
      assert back[i] == MapToolCall(ps[i]);
    }
  }

  function MapUsage(u: ProviderUsage): (r: Usage)
    ensures r.promptTokens == u.promptTokens
    ensures r.completionTokens == u.completionTokens
    ensures r.totalTokens == u.totalTokens
  {
    Usage(u.promptTokens, u.completionTokens, u.totalTokens)
  }

  /** The service's result from the provider's reply: the first choice's
      content and finish reason, its tool calls mapped when there are any,
      and the usage mapped when there is one. */
  function MapReply(choices: seq<Choice>, usage: Option<ProviderUsage>): (r: Result<Completion>)
    ensures |choices| == 0 <==> r.Err?
    ensures r.Err? ==> r.message == MissingChoiceMessage
    ensures r.Ok? ==> r.value.content == choices[0].message.content
    ensures r.Ok? ==> r.value.finishReason == choices[0].finishReason
    ensures r.Ok? ==> (r.value.toolCalls.None? <==> choices[0].message.toolCalls.None?)
    ensures r.Ok? && r.value.toolCalls.Some? ==> r.value.toolCalls.value == MapToolCalls(choices[0].message.toolCalls.value)
    ensures r.Ok? ==> (r.value.usage.None? <==> usage.None?)
    ensures r.Ok? && usage.Some? ==> r.value.usage == Some(MapUsage(usage.value))
  {
    if |choices| == 0 then Err(MissingChoiceMessage)
    else
      var m := choices[0].message;
      Ok(Completion(m.content,
                    if m.toolCalls.Some? then Some(MapToolCalls(m.toolCalls.value)) else None,
                    choices[0].finishReason,
                    if usage.Some? then Some(MapUsage(usage.value)) else None))
  }

  /** `sendChatCompletion`: one provider request, no retry; every failure is
      passed on as the caller's error. */
  function SendChatCompletion(cfg: GatewayConfig, slot: ClientSlot, provider: ProviderRequest -> ProviderReply,
                              options: ChatOptions): (c: GatewayCall)
    ensures c.slot == GetClient(cfg, slot).1
    ensures c.sent.None? <==> GetClient(cfg, slot).0.Err?
    ensures c.sent.None? ==> c.result == Err(NotConfiguredMessage)
    ensures c.sent.Some? ==> c.sent.value.client == GetClient(cfg, slot).0.value
    ensures c.sent.Some? ==> c.sent.value.model == cfg.deploymentName
    ensures c.sent.Some? ==> c.sent.value.messages == options.messages && c.sent.value.tools == options.tools
    ensures c.sent.Some? ==> c.sent.value.toolChoice == options.toolChoice
    ensures c.sent.Some? ==> c.sent.value.maxTokens == options.maxTokens.GetOr(DefaultMaxTokens)
    ensures c.sent.Some? && provider(c.sent.value).ProviderFailure? ==>
      c.result == Err(provider(c.sent.value).message)
    ensures c.sent.Some? && provider(c.sent.value).ProviderResponse? ==>
      c.result == MapReply(provider(c.sent.value).choices, provider(c.sent.value).usage)
  {
    var (client, slot') := GetClient(cfg, slot);
    match client
    case Err(m) => GatewayCall(None, Err(m), slot')
    case Ok(cl) =>
      var req := ProviderRequest(cl, cfg.deploymentName, options.messages, options.tools, options.toolChoice,
                                 options.maxTokens.GetOr(DefaultMaxTokens));
      var result :=
        match provider(req)
        case ProviderFailure(m) => Err(m)
        case ProviderResponse(choices, usage) => MapReply(choices, usage);
      GatewayCall(Some(req), result, slot')
  }

  /** Once configured, the gateway reaches the provider on every call, and
      the client it uses is the first one made. */
  lemma ConfiguredReachesProvider(cfg: GatewayConfig, slot: ClientSlot, provider: ProviderRequest -> ProviderReply,
                                  options: ChatOptions)
    requires IsConfigured(cfg) || slot.Ready?
    ensures SendChatCompletion(cfg, slot, provider, options).sent.Some?
    ensures SendChatCompletion(cfg, slot, provider, options).slot.Ready?
    ensures slot.Ready? ==> SendChatCompletion(cfg, slot, provider, options).sent.value.client == slot.client
  {
  }
}

=== FILE: order_client.dfy ===
/** The order adapter: three GET calls on the order service through the
    sidecar.  Each carries `x-trace-id`, the two per-order calls add
    `x-user-id`, and an `Authorization` header is added when a token is
    given. */
module OrderClient {
  import opened Base
  import opened JsValue
  import opened Invocation

  /** `GetOrdersParams`; `status` and `offset` are accepted but never sent. */
  datatype OrdersParams = OrdersParams(userId: string, status: Value, limit: Value, offset: Value)

  const GetVerb := "GET"
  const BearerPrefix := "Bearer "

  /** The `Authorization` value for a token: already-prefixed tokens are sent
      unchanged, bare ones get the `Bearer ` scheme. */
  function AuthorizationValue(token: string): (a: string)
    ensures StartsWith(a, BearerPrefix)
    ensures StartsWith(token, BearerPrefix) ==> a == token
    ensures !StartsWith(token, BearerPrefix) ==> a[|BearerPrefix|..] == token
  {
    if StartsWith(token, BearerPrefix) then token else BearerPrefix + token
  }

  /** Normalising twice is normalising once. */
  lemma AuthorizationIdempotent(token: string)
    ensures AuthorizationValue(AuthorizationValue(token)) == AuthorizationValue(token)
  {
  }

  /** The header map of an order call: `x-trace-id` (empty when absent), the
      extra entries, and `Authorization` only for a non-empty token. */
  function OrderHeaders(traceId: Option<string>, userHeader: Option<string>, authToken: Option<string>): (h: Headers)
    ensures "x-trace-id" in h && h["x-trace-id"] == OrEmpty(traceId)
    ensures ("x-user-id" in h) <==> userHeader.Some?
    ensures userHeader.Some? ==> h["x-user-id"] == userHeader.value
    ensures ("Authorization" in h) <==> PresentText(authToken)
    ensures PresentText(authToken) ==> h["Authorization"] == AuthorizationValue(authToken.value)
    ensures h.Keys <= {"x-trace-id", "x-user-id", "Authorization"}
  {
    var base := map["x-trace-id" := OrEmpty(traceId)];
    var withUser := if userHeader.Some? then base["x-user-id" := userHeader.value] else base;
    if PresentText(authToken) then withUser["Authorization" := AuthorizationValue(authToken.value)] else withUser
  }

  function OrdersPath(userId: string): string {
    "api/orders/customer/" + userId
  }

  function OrderPath(orderId: Value): string {
    "api/orders/" + ToJsString(orderId)
  }

  function TrackingPath(orderId: Value): string {
    OrderPath(orderId) + "/tracking"
  }

  /** The tracking endpoint is the order's own endpoint with `/tracking`
      appended, so the two never coincide. */
  lemma TrackingPathExtendsOrderPath(orderId: Value)
    ensures StartsWith(TrackingPath(orderId), OrderPath(orderId))
    ensures TrackingPath(orderId) != OrderPath(orderId)
  {
    assert TrackingPath(orderId)[..|OrderPath(orderId)|] == OrderPath(orderId);
    assert |TrackingPath(orderId)| == |OrderPath(orderId)| + 9;
  }

  /** `OrdersResult` made from the array the service returned. */
  function OrdersResult(orders: Value, limit: Value): (r: Value)
    ensures HasKeys(r, ["orders", "total", "page", "pageSize"])
    ensures orders.Arr? ==> r.members[0].value == orders && r.members[1].value == Num(|orders.items|)
    ensures Nullish(orders) ==> r.members[0].value == Arr([]) && r.members[1].value == Num(0)
    ensures r.members[2].value == Num(1)
    ensures Truthy(limit) ==> r.members[3].value == limit
    ensures !Truthy(limit) ==> r.members[3].value == Num(10)
  {
    var total := Coalesce(if Nullish(orders) then Undefined else Prop(orders, "length"), Num(0));
    Obj([Member("orders", Or(orders, Arr([]))), Member("total", total),
         Member("page", Num(1)), Member("pageSize", Or(limit, Num(10)))])
  }

  /** `getOrders`: the reshaped result on success; every error, a 404
      included, is rethrown. */
  function GetOrders(env: Env, cfg: DaprConfig, appId: string, params: OrdersParams,
                     authToken: Option<string>, traceId: Option<string>): (x: Exchange)
    ensures x.request == BuildRequest(cfg, appId, OrdersPath(params.userId), GetVerb, Undefined,
                                      Some(OrderHeaders(traceId, None, authToken)))
    ensures var y := Invoke(env, cfg, appId, OrdersPath(params.userId), GetVerb, Undefined,
                            Some(OrderHeaders(traceId, None, authToken)));
            (x.outcome.Err? <==> y.outcome.Err?)
            && (y.outcome.Err? ==> x.outcome == y.outcome)
            && (y.outcome.Ok? ==> x.outcome == Ok(OrdersResult(y.outcome.value, params.limit)))
    ensures x.request.url == InvokePrefix(cfg, appId) + "api/orders/customer/" + params.userId
    ensures Thrown(env, env.transport(x.request)).Some? ==> x.outcome == Err(Thrown(env, env.transport(x.request)).value)
    ensures Thrown(env, env.transport(x.request)).None? ==>
              x.outcome == Ok(OrdersResult(env.parseJson(env.transport(x.request).text).value, params.limit))
  {
    assert !StartsWith(OrdersPath(params.userId), "/") by { assert OrdersPath(params.userId)[0] == 'a'; }
    var y := Invoke(env, cfg, appId, OrdersPath(params.userId), GetVerb, Undefined,
                    Some(OrderHeaders(traceId, None, authToken)));
    match y.outcome
    case Ok(v) => Exchange(y.request, Ok(OrdersResult(v, params.limit)))
    case Err(_) => y
  }

  /** Unlike the per-order calls, the order list does not treat 404 as "no
      orders": it fails. */
  lemma OrdersNotFoundFails(env: Env, cfg: DaprConfig, appId: string, params: OrdersParams,
                            authToken: Option<string>, traceId: Option<string>)
    requires env.transport(BuildRequest(cfg, appId, OrdersPath(params.userId), GetVerb, Undefined,
                                        Some(OrderHeaders(traceId, None, authToken)))).Response?
    requires env.transport(BuildRequest(cfg, appId, OrdersPath(params.userId), GetVerb, Undefined,
                                        Some(OrderHeaders(traceId, None, authToken)))).status == 404
    ensures GetOrders(env, cfg, appId, params, authToken, traceId).outcome.Err?
  {
    NotFoundMentions404(env, cfg, appId, OrdersPath(params.userId), GetVerb, Undefined,
                        Some(OrderHeaders(traceId, None, authToken)));
  }

  /** `getOrderById` */
  function GetOrderById(env: Env, cfg: DaprConfig, appId: string, orderId: Value, userId: string,
                        authToken: Option<string>, traceId: Option<string>): (x: Exchange)
    ensures x.request == BuildRequest(cfg, appId, OrderPath(orderId), GetVerb, Undefined,
                                      Some(OrderHeaders(traceId, Some(userId), authToken)))
    ensures x.outcome == NotFoundToNull(Invoke(env, cfg, appId, OrderPath(orderId), GetVerb, Undefined,
                                               Some(OrderHeaders(traceId, Some(userId), authToken))).outcome)
    ensures x.request.url == InvokePrefix(cfg, appId) + "api/orders/" + ToJsString(orderId)
    ensures x.request.verb == GetVerb && x.request.headers["x-user-id"] == userId
    ensures Thrown(env, env.transport(x.request)).Some? ==>
              x.outcome == NotFoundToNull(Err(Thrown(env, env.transport(x.request)).value))
    ensures Thrown(env, env.transport(x.request)).None? ==> x.outcome == Ok(env.parseJson(env.transport(x.request).text).value)
  {
    assert !StartsWith(OrderPath(orderId), "/") by { assert OrderPath(orderId)[0] == 'a'; }
    var y := Invoke(env, cfg, appId, OrderPath(orderId), GetVerb, Undefined,
                    Some(OrderHeaders(traceId, Some(userId), authToken)));
    Exchange(y.request, NotFoundToNull(y.outcome))
  }

  /** `trackOrder` */
  function TrackOrder(env: Env, cfg: DaprConfig, appId: string, orderId: Value, userId: string,
                      authToken: Option<string>, traceId: Option<string>): (x: Exchange)
    ensures x.request == BuildRequest(cfg, appId, TrackingPath(orderId), GetVerb, Undefined,
                                      Some(OrderHeaders(traceId, Some(userId), authToken)))
    ensures x.outcome == NotFoundToNull(Invoke(env, cfg, appId, TrackingPath(orderId), GetVerb, Undefined,
                                               Some(OrderHeaders(traceId, Some(userId), authToken))).outcome)
    ensures x.request.url == InvokePrefix(cfg, appId) + "api/orders/" + ToJsString(orderId) + "/tracking"
    ensures x.request.verb == GetVerb && x.request.headers["x-user-id"] == userId
    ensures Thrown(env, env.transport(x.request)).Some? ==>
              x.outcome == NotFoundToNull(Err(Thrown(env, env.transport(x.request)).value))
    ensures Thrown(env, env.transport(x.request)).None? ==> x.outcome == Ok(env.parseJson(env.transport(x.request).text).value)
  {
    assert !StartsWith(TrackingPath(orderId), "/") by { assert TrackingPath(orderId)[0] == 'a'; }
    var y := Invoke(env, cfg, appId, TrackingPath(orderId), GetVerb, Undefined,
                    Some(OrderHeaders(traceId, Some(userId), authToken)));
    Exchange(y.request, NotFoundToNull(y.outcome))
  }

  /** A 404 for one order, or for its tracking, is `null`, not an error. */
  lemma OrderNotFoundIsNull(env: Env, cfg: DaprConfig, appId: string, orderId: Value, userId: string,
                            authToken: Option<string>, traceId: Option<string>)
    requires env.transport(BuildRequest(cfg, appId, OrderPath(orderId), GetVerb, Undefined,
                                        Some(OrderHeaders(traceId, Some(userId), authToken)))).Response?
    requires env.transport(BuildRequest(cfg, appId, OrderPath(orderId), GetVerb, Undefined,
                                        Some(OrderHeaders(traceId, Some(userId), authToken)))).status == 404
    ensures GetOrderById(env, cfg, appId, orderId, userId, authToken, traceId).outcome == Ok(Null)
  {
    NotFoundMentions404(env, cfg, appId, OrderPath(orderId), GetVerb, Undefined,
                        Some(OrderHeaders(traceId, Some(userId), authToken)));
  }

  lemma TrackingNotFoundIsNull(env: Env, cfg: DaprConfig, appId: string, orderId: Value, userId: string,
                               authToken: Option<string>, traceId: Option<string>)
    requires env.transport(BuildRequest(cfg, appId, TrackingPath(orderId), GetVerb, Undefined,
                                        Some(OrderHeaders(traceId, Some(userId), authToken)))).Response?
    requires env.transport(BuildRequest(cfg, appId, TrackingPath(orderId), GetVerb, Undefined,
                                        Some(OrderHeaders(traceId, Some(userId), authToken)))).status == 404
    ensures TrackOrder(env, cfg, appId, orderId, userId, authToken, traceId).outcome == Ok(Null)
  {
    NotFoundMentions404(env, cfg, appId, TrackingPath(orderId), GetVerb, Undefined,
                        Some(OrderHeaders(traceId, Some(userId), authToken)));
  }
}

=== FILE: order_tools.dfy ===
/** The three order tools, in the order the model sees them. */
module OrderTools {
  import opened ToolSchema

  /** The order states a caller may filter by. */
  const OrderStatuses := ["pending", "processing", "shipped", "delivered", "cancelled"]

  const GetMyOrdersTool := ToolDef(
    "function",
    "getMyOrders",
    "Get the order history for the current user. Use this when the user asks about their orders, wants to check order status, or view past purchases.",
    [ ParamSpec("status", StringParam, "Filter orders by status", OrderStatuses),
      ParamSpec("limit", NumberParam, "Maximum number of orders to return (default: 10)", []),
      ParamSpec("offset", NumberParam, "Number of orders to skip for pagination", []) ],
    [])

  const GetOrderDetailsTool := ToolDef(
    "function",
    "getOrderDetails",
    "Get detailed information about a specific order. Use this when the user asks about a particular order, wants tracking information, or order specifics.",
    [ ParamSpec("orderId", StringParam, "The unique identifier of the order", []) ],
    ["orderId"])

  const TrackOrderTool := ToolDef(
    "function",
    "trackOrder",
    "Get tracking information for an order. Use this when the user wants to know where their order is or check delivery status.",
    [ ParamSpec("orderId", StringParam, "The unique identifier of the order to track", []) ],
    ["orderId"])

  /** `orderTools` */
  function OrderTools(): (ts: seq<ToolDef>)
    ensures Names(ts) == ["getMyOrders", "getOrderDetails", "trackOrder"]
    ensures forall i :: 0 <= i < |ts| ==> ts[i].kind == "function" && RequiredDeclared(ts[i])
    ensures ts[0].required == [] && PropertyNames(ts[0].properties) == ["status", "limit", "offset"]
    ensures ts[0].properties[0].enumValues == ["pending", "processing", "shipped", "delivered", "cancelled"]
    ensures ts[1].required == ["orderId"] && PropertyNames(ts[1].properties) == ["orderId"]
    ensures ts[2].required == ["orderId"] && PropertyNames(ts[2].properties) == ["orderId"]
  {
    [GetMyOrdersTool, GetOrderDetailsTool, TrackOrderTool]
  }
}

=== FILE: product_client.dfy ===
/** The catalog adapter: three GET calls on the product service through the
    sidecar, each carrying `x-trace-id`. */
module ProductClient {
  import opened Base
  import opened JsValue
  import opened Invocation
  import FormEncoding

  /** `ProductSearchParams`; every field may be `undefined` or any value the
      model put in its arguments. */
  datatype SearchParams = SearchParams(query: Value, category: Value, minPrice: Value, maxPrice: Value, limit: Value)

  const GetVerb := "GET"

  function TraceHeader(traceId: Option<string>): (h: Headers)
    ensures h.Keys == {"x-trace-id"} && h["x-trace-id"] == OrEmpty(traceId)
  {
    map["x-trace-id" := OrEmpty(traceId)]
  }

  /** The value searched for: the query, else the category, else `*`. */
  function SearchTerm(p: SearchParams): (t: Value)
    ensures Truthy(p.query) ==> t == p.query
    ensures !Truthy(p.query) && Truthy(p.category) ==> t == p.category
    ensures !Truthy(p.query) && !Truthy(p.category) ==> t == Str("*")
  {
    Or(Or(p.query, p.category), Str("*"))
  }

  predicate UsesCategoryFilter(p: SearchParams) {
    !Truthy(p.query) && Truthy(p.category)
  }

  function Names(ps: seq<FormEncoding.Pair>): (ns: seq<string>)
    ensures |ns| == |ps|
    ensures forall i :: 0 <= i < |ps| ==> ns[i] == ps[i].0
  {
    if |ps| == 0 then [] else [ps[0].0] + Names(ps[1..])
  }

  /** `[name]` when `cond` holds, else nothing. */
  function Opt(cond: bool, name: string): seq<string> {
    if cond then [name] else []
  }

  /** The names the search sends, in the order they are set. */
  function ExpectedNames(p: SearchParams): seq<string> {
    ["q"]
    + Opt(UsesCategoryFilter(p), "category")
    + Opt(p.minPrice != Undefined, "minPrice")
    + Opt(p.maxPrice != Undefined, "maxPrice")
    + Opt(Truthy(p.limit), "limit")
  }

  lemma OptFresh(name: string, prefix: seq<string>, cond: bool, other: string)
    requires name !in prefix && name != other
    ensures name !in prefix + Opt(cond, other)
  {
  }

  /** What `String()` makes of the value behind each parameter name. */
  function ExpectedValue(p: SearchParams, name: string): string {
    if name == "q" then ToJsString(SearchTerm(p))
    else if name == "category" then ToJsString(p.category)
    else if name == "minPrice" then ToJsString(p.minPrice)
    else if name == "maxPrice" then ToJsString(p.maxPrice)
    else ToJsString(p.limit)
  }

  /** Every parameter carries the value the search derives for its name. */
  predicate ValuesMatch(p: SearchParams, ps: seq<FormEncoding.Pair>) {
    forall i :: 0 <= i < |ps| ==> ps[i].1 == ExpectedValue(p, ps[i].0)
  }

  /** `if (cond) params.set(name, value)` on a name not yet set appends it. */
  function SetIf(ps: seq<FormEncoding.Pair>, cond: bool, name: string, value: string): (r: seq<FormEncoding.Pair>)
    requires name !in Names(ps)
    ensures r == ps + (if cond then [(name, value)] else [])
    ensures Names(r) == Names(ps) + Opt(cond, name)
  {
    var r := if cond then FormEncoding.SetParam(ps, name, value) else ps;
    NamesAppend(ps, if cond then [(name, value)] else []);
    r
  }

  lemma SetIfMatches(p: SearchParams, ps: seq<FormEncoding.Pair>, cond: bool, name: string)
    requires name !in Names(ps) && ValuesMatch(p, ps)
    ensures ValuesMatch(p, SetIf(ps, cond, name, ExpectedValue(p, name)))
  {
  }

  /** The `URLSearchParams` of a search: `q` always; `category` only for a
      category-only search; the prices whenever they are defined, zero
      included; `limit` when it is truthy. */
  function SearchQuery(p: SearchParams): (ps: seq<FormEncoding.Pair>)
    ensures Names(ps) == ExpectedNames(p)
    ensures ValuesMatch(p, ps)
  {
    var ps0 := [("q", ExpectedValue(p, "q"))];
    assert Names(ps0) == ["q"];
    var c1, c2, c3, c4 := UsesCategoryFilter(p), p.minPrice != Undefined, p.maxPrice != Undefined, Truthy(p.limit);
    var ps1 := SetIf(ps0, c1, "category", ExpectedValue(p, "category"));
    SetIfMatches(p, ps0, c1, "category");
    OptFresh("minPrice", ["q"], c1, "category");
    var ps2 := SetIf(ps1, c2, "minPrice", ExpectedValue(p, "minPrice"));
    SetIfMatches(p, ps1, c2, "minPrice");
    OptFresh("maxPrice", ["q"], c1, "category");
    OptFresh("maxPrice", ["q"] + Opt(c1, "category"), c2, "minPrice");
    var ps3 := SetIf(ps2, c3, "maxPrice", ExpectedValue(p, "maxPrice"));
    SetIfMatches(p, ps2, c3, "maxPrice");
    OptFresh("limit", ["q"], c1, "category");
    OptFresh("limit", ["q"] + Opt(c1, "category"), c2, "minPrice");
    OptFresh("limit", ["q"] + Opt(c1, "category") + Opt(c2, "minPrice"), c3, "maxPrice");
    var ps4 := SetIf(ps3, c4, "limit", ExpectedValue(p, "limit"));
    SetIfMatches(p, ps3, c4, "limit");
    ps4
  }

  lemma NamesAppend(a: seq<FormEncoding.Pair>, b: seq<FormEncoding.Pair>)
    ensures Names(a + b) == Names(a) + Names(b)
  {
    assert |Names(a + b)| == |Names(a) + Names(b)|;
  }

  const SearchPath := "api/products/search?"

  function SearchEndpoint(p: SearchParams): (e: string)
    ensures StartsWith(e, SearchPath) && !StartsWith(e, "/")
  {
    var qs := FormEncoding.Serialize(SearchQuery(p));
    assert (SearchPath + qs)[0] == 'a';
    SearchPath + qs
  }

  /** The service reads back exactly the parameters that were set. */
  lemma SearchEndpointParses(p: SearchParams)
    ensures StartsWith(SearchEndpoint(p), SearchPath)
    ensures FormEncoding.Parse(SearchEndpoint(p)[|SearchPath|..]) == Some(SearchQuery(p))
  {
    var e := SearchEndpoint(p);
    assert e[..|SearchPath|] == SearchPath;
    assert e[|SearchPath|..] == FormEncoding.Serialize(SearchQuery(p));
    FormEncoding.ParseSerialize(SearchQuery(p));
  }

  /** A body that is `null` makes the adapter's first property read on it
      (`result.<key>`) throw. */
  function RequireBody(r: Result<Value>, key: string): (n: Result<Value>)
    ensures r.Ok? && Nullish(r.value) ==> n.Err?
    ensures !(r.Ok? && Nullish(r.value)) ==> n == r
  {
    if r.Ok? && Nullish(r.value) then Err(ReadErrorMessage(r.value, key)) else r
  }

  lemma GetVerbIsUpper()
    ensures ToUpperAscii(GetVerb) == GetVerb
  {
  }

  /** `searchProducts`: the body is returned as is; a `null` body makes the
      result-count read (`result.products`) throw. */
  function SearchProducts(env: Env, cfg: DaprConfig, appId: string, p: SearchParams, traceId: Option<string>): (x: Exchange)
    ensures x.request == BuildRequest(cfg, appId, SearchEndpoint(p), GetVerb, Undefined, Some(TraceHeader(traceId)))
    ensures x.outcome == RequireBody(Invoke(env, cfg, appId, SearchEndpoint(p), GetVerb, Undefined, Some(TraceHeader(traceId))).outcome, "products")
    ensures x.outcome.Ok? ==> !Nullish(x.outcome.value)
    ensures x.request.url == InvokePrefix(cfg, appId) + SearchEndpoint(p)
    ensures Thrown(env, env.transport(x.request)).Some? ==> x.outcome == Err(Thrown(env, env.transport(x.request)).value)
    ensures Thrown(env, env.transport(x.request)).None? ==>
              x.outcome == RequireBody(Ok(env.parseJson(env.transport(x.request).text).value), "products")
  {
    var x := Invoke(env, cfg, appId, SearchEndpoint(p), GetVerb, Undefined, Some(TraceHeader(traceId)));
    Exchange(x.request, RequireBody(x.outcome, "products"))
  }

  function ProductPath(productId: Value): string {
    "api/products/" + ToJsString(productId)
  }

  /** `getProductById` */
  function GetProductById(env: Env, cfg: DaprConfig, appId: string, productId: Value, traceId: Option<string>): (x: Exchange)
    ensures x.request == BuildRequest(cfg, appId, ProductPath(productId), GetVerb, Undefined, Some(TraceHeader(traceId)))
    ensures x.outcome == NotFoundToNull(Invoke(env, cfg, appId, ProductPath(productId), GetVerb, Undefined, Some(TraceHeader(traceId))).outcome)
    ensures x.request.url == InvokePrefix(cfg, appId) + "api/products/" + ToJsString(productId)
    ensures Thrown(env, env.transport(x.request)).Some? ==>
              x.outcome == NotFoundToNull(Err(Thrown(env, env.transport(x.request)).value))
    ensures Thrown(env, env.transport(x.request)).None? ==> x.outcome == Ok(env.parseJson(env.transport(x.request).text).value)
  {
    assert !StartsWith(ProductPath(productId), "/") by { assert ProductPath(productId)[0] == 'a'; }
    var x := Invoke(env, cfg, appId, ProductPath(productId), GetVerb, Undefined, Some(TraceHeader(traceId)));
    Exchange(x.request, NotFoundToNull(x.outcome))
  }

  /** A 404 from the product service means "no such product": `null`. */
  lemma ProductNotFoundIsNull(env: Env, cfg: DaprConfig, appId: string, productId: Value, traceId: Option<string>)
    requires env.transport(BuildRequest(cfg, appId, ProductPath(productId), GetVerb, Undefined, Some(TraceHeader(traceId)))) .Response?
    requires env.transport(BuildRequest(cfg, appId, ProductPath(productId), GetVerb, Undefined, Some(TraceHeader(traceId)))).status == 404
    ensures GetProductById(env, cfg, appId, productId, traceId).outcome == Ok(Null)
  {
    NotFoundMentions404(env, cfg, appId, ProductPath(productId), GetVerb, Undefined, Some(TraceHeader(traceId)));
  }

  /** The not-found test looks at the whole message, so any failure whose
      body text mentions `404`, whatever its status, also reads as "no such
      product". */
  lemma AnyErrorMentioning404IsNull(env: Env, cfg: DaprConfig, appId: string, productId: Value, traceId: Option<string>)
    requires env.transport(BuildRequest(cfg, appId, ProductPath(productId), GetVerb, Undefined, Some(TraceHeader(traceId)))).Response?
    requires !IsOk(env.transport(BuildRequest(cfg, appId, ProductPath(productId), GetVerb, Undefined, Some(TraceHeader(traceId)))).status)
    requires Contains(env.transport(BuildRequest(cfg, appId, ProductPath(productId), GetVerb, Undefined, Some(TraceHeader(traceId)))).text, "404")
    ensures GetProductById(env, cfg, appId, productId, traceId).outcome == Ok(Null)
  {
    var reply := env.transport(BuildRequest(cfg, appId, ProductPath(productId), GetVerb, Undefined, Some(TraceHeader(traceId))));
    ContainsAfterPrefix("HTTP " + NatToString(reply.status) + ": ", reply.text, "404");
  }

  const CategoriesPath := "api/products/categories"

  /** `getCategories`: `result.categories`, or `[]` when that is falsy. */
  function GetCategories(env: Env, cfg: DaprConfig, appId: string, traceId: Option<string>): (x: Exchange)
    ensures x.request == BuildRequest(cfg, appId, CategoriesPath, GetVerb, Undefined, Some(TraceHeader(traceId)))
    ensures x.outcome.Ok? ==> var body := Invoke(env, cfg, appId, CategoriesPath, GetVerb, Undefined, Some(TraceHeader(traceId))).outcome;
      body.Ok? && !Nullish(body.value)
      && (Truthy(Prop(body.value, "categories")) ==> x.outcome.value == Prop(body.value, "categories"))
      && (!Truthy(Prop(body.value, "categories")) ==> x.outcome.value == Arr([]))
    ensures x.outcome.Err? ==> var body := Invoke(env, cfg, appId, CategoriesPath, GetVerb, Undefined, Some(TraceHeader(traceId))).outcome;
      body.Err? || Nullish(body.value)
    ensures var body := Invoke(env, cfg, appId, CategoriesPath, GetVerb, Undefined, Some(TraceHeader(traceId))).outcome;
      body.Err? ==> x.outcome == body
    ensures x.request.url == InvokePrefix(cfg, appId) + CategoriesPath
    ensures Thrown(env, env.transport(x.request)).Some? ==> x.outcome == Err(Thrown(env, env.transport(x.request)).value)
    ensures Thrown(env, env.transport(x.request)).None? ==>
              var v := env.parseJson(env.transport(x.request).text).value;
              x.outcome == (if Nullish(v) then Err(ReadErrorMessage(v, "categories")) else Ok(Or(Prop(v, "categories"), Arr([]))))
  {
    assert !StartsWith(CategoriesPath, "/") by { assert CategoriesPath[0] == 'a'; }
    var x := Invoke(env, cfg, appId, CategoriesPath, GetVerb, Undefined, Some(TraceHeader(traceId)));
    match x.outcome
    case Ok(v) =>
      if Nullish(v) then Exchange(x.request, Err(ReadErrorMessage(v, "categories")))
      else Exchange(x.request, Ok(Or(Prop(v, "categories"), Arr([]))))
    case Err(_) => x
  }
}

=== FILE: product_tools.dfy ===
/** The three catalog tools, in the order the model sees them. */
module ProductTools {
  import opened ToolSchema

  const SearchProductsTool := ToolDef(
    "function",
    "searchProducts",
    "Search for products in the catalog by keyword, category, or filters. Use this when the user asks about products, wants to find items, browse categories, or check product availability.",
    [ ParamSpec("query", StringParam, "Search query or keywords to find products (e.g., \"running shoes\", \"laptop\", \"red dress\")", []),
      ParamSpec("category", StringParam, "Filter by product category (e.g., \"Electronics\", \"Clothing\", \"Sports\")", []),
      ParamSpec("minPrice", NumberParam, "Minimum price filter", []),
      ParamSpec("maxPrice", NumberParam, "Maximum price filter", []),
      ParamSpec("limit", NumberParam, "Maximum number of results to return (default: 10)", []) ],
    [])

  const GetProductDetailsTool := ToolDef(
    "function",
    "getProductDetails",
    "Get detailed information about a specific product by its ID. Use this when the user asks for details about a particular product, wants to know specifications, availability, or pricing.",
    [ ParamSpec("productId", StringParam, "The unique identifier of the product", []) ],
    ["productId"])

  const GetCategoriesTool := ToolDef(
    "function",
    "getCategories",
    "Get a list of all available product categories. Use this when the user wants to browse categories or asks what types of products are available.",
    [],
    [])

  lemma SearchProductsSchema()
    ensures SearchProductsTool.kind == "function" && SearchProductsTool.name == "searchProducts"
    ensures SearchProductsTool.required == [] && RequiredDeclared(SearchProductsTool)
    ensures PropertyNames(SearchProductsTool.properties) == ["query", "category", "minPrice", "maxPrice", "limit"]
  {
  }

  lemma GetProductDetailsSchema()
    ensures GetProductDetailsTool.kind == "function" && GetProductDetailsTool.name == "getProductDetails"
    ensures GetProductDetailsTool.required == ["productId"] && PropertyNames(GetProductDetailsTool.properties) == ["productId"]
    ensures RequiredDeclared(GetProductDetailsTool)
  {
  }

  lemma GetCategoriesSchema()
    ensures GetCategoriesTool.kind == "function" && GetCategoriesTool.name == "getCategories"
    ensures GetCategoriesTool.properties == [] && GetCategoriesTool.required == []
  {
  }

  /** `productTools` */
  function ProductTools(): (ts: seq<ToolDef>)
    ensures Names(ts) == ["searchProducts", "getProductDetails", "getCategories"]
    ensures forall i :: 0 <= i < |ts| ==> ts[i].kind == "function" && RequiredDeclared(ts[i])
    ensures ts[0].required == [] && PropertyNames(ts[0].properties) == ["query", "category", "minPrice", "maxPrice", "limit"]
    ensures ts[1].required == ["productId"] && PropertyNames(ts[1].properties) == ["productId"]
    ensures ts[2].properties == [] && ts[2].required == []
  {
    SearchProductsSchema();
    GetProductDetailsSchema();
    GetCategoriesSchema();
    var ts := [SearchProductsTool, GetProductDetailsTool, GetCategoriesTool];
    assert Names(ts) == ["searchProducts", "getProductDetails", "getCategories"] by {
      assert Names(ts)[0] == ts[0].name;
    }
    ts
  }
}

=== FILE: tool_dispatch.dfy ===
/** The orchestrator's tool side: running one tool call the model asked for
    (`executeToolCall`) and gathering the records the UI renders
    (`collectToolData`).  A tool call never fails: every error becomes an
    `{ error }` payload for the model to read. */
module ToolDispatch {
  import opened Base
  import opened JsValue
  import opened Invocation
  import opened Tools
  import ProductClient
  import OrderClient
  import FormEncoding

  /** Where the downstream services are reached. */
  datatype Services = Services(env: Env, dapr: DaprConfig, productApp: string, orderApp: string)

  /** What one tool call did: the value handed back to the model and the
      downstream requests it made. */
  datatype ToolRun = ToolRun(result: Value, requests: seq<Request>)

  function FailureMessage(name: string, message: string): string {
    "Failed to execute " + name + ": " + message
  }

  function UnknownToolMessage(name: string): string {
    "Unknown tool: " + name
  }

  function NotLoggedInMessage(k: ToolKind): (m: string)
    requires IsOrderTool(k)
    ensures StartsWith(m, "User not logged in. Please log in to ")
  {
    match k
    case GetMyOrders => "User not logged in. Please log in to view your orders."
    case GetOrderDetails => "User not logged in. Please log in to view order details."
    case TrackOrder => "User not logged in. Please log in to track orders."
  }

  const ProductNotFound := "Product not found"
  const OrderNotFound := "Order not found"
  const TrackingUnavailable := "Tracking information not available for this order"

  /** The first property a tool reads from its arguments, which is where a
      `null` argument object throws. */
  function FirstArgument(k: ToolKind): string {
    match k
    case SearchProducts => "query"
    case GetProductDetails => "productId"
    case GetCategories => ""
    case GetMyOrders => "status"
    case GetOrderDetails => "orderId"
    case TrackOrder => "orderId"
  }

  /** An adapter's outcome as a tool result: a thrown error becomes the
      failure payload, and for the single-record tools a falsy record
      becomes the `notFound` payload. */
  function Settle(name: string, outcome: Result<Value>, notFound: Option<string>): (v: Value)
    requires outcome.Ok? && notFound.None? ==> !Nullish(outcome.value)
    ensures !Nullish(v)
    ensures outcome.Err? ==> v == ErrorPayload(FailureMessage(name, outcome.message))
    ensures outcome.Ok? && notFound.Some? && !Truthy(outcome.value) ==> v == ErrorPayload(notFound.value)
    ensures outcome.Ok? && (notFound.None? || Truthy(outcome.value)) ==> v == outcome.value
  {
    match outcome
    case Err(m) => ErrorPayload(FailureMessage(name, m))
    case Ok(x) => if notFound.Some? && !Truthy(x) then ErrorPayload(notFound.value) else x
  }

  /** The arguments of `searchProducts`, `limit` defaulting to 10. */
  function SearchArgs(args: Value): (p: ProductClient.SearchParams)
    requires !Nullish(args)
    ensures p.query == Prop(args, "query") && p.category == Prop(args, "category")
    ensures p.minPrice == Prop(args, "minPrice") && p.maxPrice == Prop(args, "maxPrice")
    ensures p.limit == Or(Prop(args, "limit"), Num(10))
  {
    ProductClient.SearchParams(Prop(args, "query"), Prop(args, "category"), Prop(args, "minPrice"),
                               Prop(args, "maxPrice"), Or(Prop(args, "limit"), Num(10)))
  }

  /** The arguments of `getMyOrders`.  `status` and `offset` are passed on
      and not used. */
  function OrdersArgs(args: Value, userId: string): (p: OrderClient.OrdersParams)
    requires !Nullish(args)
    ensures p.userId == userId && p.limit == Or(Prop(args, "limit"), Num(10))
  {
    OrderClient.OrdersParams(userId, Prop(args, "status"), Or(Prop(args, "limit"), Num(10)), Prop(args, "offset"))
  }

  /** The text a single-record tool answers with when its record is
      missing; the list tools have none. */
  function NotFoundReply(k: ToolKind): (t: Option<string>)
    ensures t.Some? <==> k.GetProductDetails? || k.GetOrderDetails? || k.TrackOrder?
  {
    match k
    case GetProductDetails => Some(ProductNotFound)
    case GetOrderDetails => Some(OrderNotFound)
    case TrackOrder => Some(TrackingUnavailable)
    case _ => None
  }

  /** A recognised tool gets past the login check and the argument read,
      and so calls its adapter. */
  predicate Reaches(k: ToolKind, args: Value, userId: Option<string>) {
    !(IsOrderTool(k) && !PresentText(userId)) && (k.GetCategories? || !Nullish(args))
  }

  /** The catalog tools' adapter calls; `getCategories` wraps the list as
      `{ categories }`. */
  function CatalogCall(svc: Services, k: ToolKind, args: Value, traceId: Option<string>): (x: Exchange)
    requires !IsOrderTool(k) && (k.GetCategories? || !Nullish(args))
    ensures x.outcome.Ok? && NotFoundReply(k).None? ==> !Nullish(x.outcome.value)
  {
    if k.GetCategories? then
      var c := ProductClient.GetCategories(svc.env, svc.dapr, svc.productApp, traceId);
      Exchange(c.request, if c.outcome.Ok? then Ok(Obj([Member("categories", c.outcome.value)])) else c.outcome)
    else if k.SearchProducts? then
      ProductClient.SearchProducts(svc.env, svc.dapr, svc.productApp, SearchArgs(args), traceId)
    else
      ProductClient.GetProductById(svc.env, svc.dapr, svc.productApp, Prop(args, "productId"), traceId)
  }

  /** The order tools' adapter calls, for a logged-in user: `traceId` goes
      to the adapter's `authToken` slot and its `traceId` is left unset. */
  function OrderCall(svc: Services, k: ToolKind, args: Value, userId: string, traceId: Option<string>): (x: Exchange)
    requires IsOrderTool(k) && !Nullish(args)
    ensures x.outcome.Ok? && NotFoundReply(k).None? ==> !Nullish(x.outcome.value)
  {
    if k.GetMyOrders? then
      OrderClient.GetOrders(svc.env, svc.dapr, svc.orderApp, OrdersArgs(args, userId), traceId, None)
    else if k.GetOrderDetails? then
      OrderClient.GetOrderById(svc.env, svc.dapr, svc.orderApp, Prop(args, "orderId"), userId, traceId, None)
    else
      OrderClient.TrackOrder(svc.env, svc.dapr, svc.orderApp, Prop(args, "orderId"), userId, traceId, None)
  }

  /** The adapter call of a tool that reaches one. */
  function AdapterCall(svc: Services, k: ToolKind, args: Value, userId: Option<string>, traceId: Option<string>): (x: Exchange)
    requires Reaches(k, args, userId)
    ensures x.outcome.Ok? && NotFoundReply(k).None? ==> !Nullish(x.outcome.value)
  {
    if IsOrderTool(k) then OrderCall(svc, k, args, userId.value, traceId) else CatalogCall(svc, k, args, traceId)
  }

  /** The `switch` body for a recognised tool, once its arguments parsed:
      the login check first, then the argument read, then the adapter,
      whose outcome is settled with the tool's not-found text. */
  function Dispatch(svc: Services, k: ToolKind, args: Value, userId: Option<string>, traceId: Option<string>): (r: ToolRun)
    ensures !Nullish(r.result)
    ensures |r.requests| == (if Reaches(k, args, userId) then 1 else 0)
    ensures IsOrderTool(k) && !PresentText(userId) ==> r == ToolRun(ErrorPayload(NotLoggedInMessage(k)), [])
    ensures !k.GetCategories? && !(IsOrderTool(k) && !PresentText(userId)) && Nullish(args) ==>
      r == ToolRun(ErrorPayload(FailureMessage(ToolName(k), ReadErrorMessage(args, FirstArgument(k)))), [])
    ensures Reaches(k, args, userId) ==>
      var x := AdapterCall(svc, k, args, userId, traceId);
      r == ToolRun(Settle(ToolName(k), x.outcome, NotFoundReply(k)), [x.request])
  {
    if IsOrderTool(k) && !PresentText(userId) then ToolRun(ErrorPayload(NotLoggedInMessage(k)), [])
    else if !k.GetCategories? && Nullish(args) then
      ToolRun(ErrorPayload(FailureMessage(ToolName(k), ReadErrorMessage(args, FirstArgument(k)))), [])
    else
      var x := AdapterCall(svc, k, args, userId, traceId);
      ToolRun(Settle(ToolName(k), x.outcome, NotFoundReply(k)), [x.request])
  }

  /** `executeToolCall`: the argument text is parsed first; an unknown name,
      a missing user for the order tools and every thrown error come back
      as an `{ error }` payload, never as a failure of the call itself. */
  function ExecuteToolCall(svc: Services, name: string, argsJson: string, userId: Option<string>,
                           traceId: Option<string>): (r: ToolRun)
    ensures !Nullish(r.result) && Stringify(r.result).Some?
    ensures |r.requests| <= 1
    ensures svc.env.parseJson(argsJson).Err? ==>
      r == ToolRun(ErrorPayload(FailureMessage(name, svc.env.parseJson(argsJson).message)), [])
    ensures svc.env.parseJson(argsJson).Ok? && ToolKindOf(name).None? ==>
      r == ToolRun(ErrorPayload(UnknownToolMessage(name)), [])
    ensures svc.env.parseJson(argsJson).Ok? && ToolKindOf(name).Some? ==>
      r == Dispatch(svc, ToolKindOf(name).value, svc.env.parseJson(argsJson).value, userId, traceId)
  {
    match svc.env.parseJson(argsJson)
    case Err(m) => ToolRun(ErrorPayload(FailureMessage(name, m)), [])
    case Ok(args) =>
      match ToolKindOf(name)
      case None => ToolRun(ErrorPayload(UnknownToolMessage(name)), [])
      case Some(k) => Dispatch(svc, k, args, userId, traceId)
  }

  /** A call that reached no downstream service always answers with an
      `{ error }` payload; so does every call whose adapter threw. */
  lemma {:induction false} NoRequestMeansError(svc: Services, name: string, argsJson: string, userId: Option<string>,
                                               traceId: Option<string>)
    ensures var r := ExecuteToolCall(svc, name, argsJson, userId, traceId);
            r.requests == [] ==> HasKeys(r.result, ["error"]) && Truthy(Prop(r.result, "error"))
  {
    var r := ExecuteToolCall(svc, name, argsJson, userId, traceId);
    match svc.env.parseJson(argsJson)
    case Err(m) =>
      assert r.result == ErrorPayload(FailureMessage(name, m));
      assert FailureMessage(name, m) != "" by { assert |FailureMessage(name, m)| > 0; }
    case Ok(args) =>
      match ToolKindOf(name)
      case None =>
        assert |UnknownToolMessage(name)| > 0;
      case Some(k) =>
        if IsOrderTool(k) && !PresentText(userId) {
          assert |NotLoggedInMessage(k)| > 0;
        } else if !k.GetCategories? && Nullish(args) {
          assert |FailureMessage(ToolName(k), ReadErrorMessage(args, FirstArgument(k)))| > 0;
        }
  }

  /** The order tools, as called by the orchestrator, send the trace id as
      a bearer token and an empty `x-trace-id`. */
  lemma OrderToolsSendTraceAsToken(svc: Services, k: ToolKind, args: Value, userId: Option<string>, traceId: Option<string>)
    requires IsOrderTool(k) && PresentText(userId) && !Nullish(args)
    ensures var r := Dispatch(svc, k, args, userId, traceId);
            |r.requests| == 1
            && r.requests[0].headers["x-trace-id"] == ""
            && (("Authorization" in r.requests[0].headers) <==> PresentText(traceId))
            && (PresentText(traceId) ==> r.requests[0].headers["Authorization"] == OrderClient.AuthorizationValue(traceId.value))
  {
    var h := OrderClient.OrderHeaders(None, if k.GetMyOrders? then None else Some(userId.value), traceId);
    assert h["x-trace-id"] == "";
  }

  /** The catalog tools send the trace id as `x-trace-id`. */
  lemma ProductToolsSendTraceId(svc: Services, k: ToolKind, args: Value, userId: Option<string>, traceId: Option<string>)
    requires !IsOrderTool(k) && !Nullish(args)
    ensures var r := Dispatch(svc, k, args, userId, traceId);
            |r.requests| == 1 && r.requests[0].headers["x-trace-id"] == OrEmpty(traceId)
  {
  }

  /** What an adapter hands back, given what its request got: an error
      `invokeService` throws is rethrown, except that for the single-record
      tools one that mentions `404` reads as `null`. */
  lemma {:induction false} AdapterRethrows(svc: Services, k: ToolKind, args: Value, userId: Option<string>,
                                           traceId: Option<string>)
    requires Reaches(k, args, userId)
    ensures var x := AdapterCall(svc, k, args, userId, traceId);
            var e := Thrown(svc.env, svc.env.transport(x.request));
            (e.Some? && (NotFoundReply(k).None? || !Contains(e.value, "404")) ==> x.outcome == Err(e.value))
            && (e.Some? && NotFoundReply(k).Some? && Contains(e.value, "404") ==> x.outcome == Ok(Null))
  {
    var env := svc.env;
    var h := Some(ProductClient.TraceHeader(traceId));
    match k
    case SearchProducts =>
      var p := SearchArgs(args);
      var y := Invoke(env, svc.dapr, svc.productApp, ProductClient.SearchEndpoint(p), ProductClient.GetVerb, Undefined, h);
      assert AdapterCall(svc, k, args, userId, traceId) == ProductClient.SearchProducts(env, svc.dapr, svc.productApp, p, traceId);
    case GetProductDetails =>
      var y := Invoke(env, svc.dapr, svc.productApp, ProductClient.ProductPath(Prop(args, "productId")), ProductClient.GetVerb, Undefined, h);
    case GetCategories =>
      var y := Invoke(env, svc.dapr, svc.productApp, ProductClient.CategoriesPath, ProductClient.GetVerb, Undefined, h);
    case GetMyOrders =>
      var y := Invoke(env, svc.dapr, svc.orderApp, OrderClient.OrdersPath(userId.value), OrderClient.GetVerb, Undefined,
                      Some(OrderClient.OrderHeaders(None, None, traceId)));
    case GetOrderDetails =>
      var y := Invoke(env, svc.dapr, svc.orderApp, OrderClient.OrderPath(Prop(args, "orderId")), OrderClient.GetVerb, Undefined,
                      Some(OrderClient.OrderHeaders(None, Some(userId.value), traceId)));
    case TrackOrder =>
      var y := Invoke(env, svc.dapr, svc.orderApp, OrderClient.TrackingPath(Prop(args, "orderId")), OrderClient.GetVerb, Undefined,
                      Some(OrderClient.OrderHeaders(None, Some(userId.value), traceId)));
  }

  /** What a catalog adapter hands back when nothing was thrown: the
      search body (a `null` one throws on its `products` read), the single
      record, and the categories as `{ categories }`. */
  lemma CatalogDelivers(svc: Services, k: ToolKind, args: Value, traceId: Option<string>)
    requires !IsOrderTool(k) && (k.GetCategories? || !Nullish(args))
    ensures var x := CatalogCall(svc, k, args, traceId);
            var reply := svc.env.transport(x.request);
            Thrown(svc.env, reply).None? ==>
              var v := svc.env.parseJson(reply.text).value;
              (k.SearchProducts? ==> x.outcome == ProductClient.RequireBody(Ok(v), "products"))
              && (k.GetProductDetails? ==> x.outcome == Ok(v))
              && (k.GetCategories? && !Nullish(v) ==> x.outcome == Ok(Obj([Member("categories", Or(Prop(v, "categories"), Arr([])))])))
              && (k.GetCategories? && Nullish(v) ==> x.outcome == Err(ReadErrorMessage(v, "categories")))
  {
    if k.GetCategories? {
      var c := ProductClient.GetCategories(svc.env, svc.dapr, svc.productApp, traceId);
      assert CatalogCall(svc, k, args, traceId).request == c.request;
    }
  }

  /** What an order adapter hands back when nothing was thrown: the
      reshaped order page, or the single record. */
  lemma OrderDelivers(svc: Services, k: ToolKind, args: Value, userId: string, traceId: Option<string>)
    requires IsOrderTool(k) && !Nullish(args)
    ensures var x := OrderCall(svc, k, args, userId, traceId);
            var reply := svc.env.transport(x.request);
            Thrown(svc.env, reply).None? ==>
              var v := svc.env.parseJson(reply.text).value;
              (k.GetMyOrders? ==> x.outcome == Ok(OrderClient.OrdersResult(v, Or(Prop(args, "limit"), Num(10)))))
              && (!k.GetMyOrders? ==> x.outcome == Ok(v))
  {
  }

  /** A tool whose adapter threw answers "Failed to execute <name>: <message>"
      with the thrown message: a network rejection, an `HTTP <status>:
      <text>` error, or a decoding failure.  Only the single-record tools
      read an error mentioning `404` differently. */
  lemma AdapterErrorReported(svc: Services, k: ToolKind, args: Value, userId: Option<string>, traceId: Option<string>)
    requires Reaches(k, args, userId)
    ensures var r := Dispatch(svc, k, args, userId, traceId);
            var e := Thrown(svc.env, svc.env.transport(r.requests[0]));
            e.Some? && (NotFoundReply(k).None? || !Contains(e.value, "404")) ==>
              r.result == ErrorPayload(FailureMessage(ToolName(k), e.value))
  {
    AdapterRethrows(svc, k, args, userId, traceId);
  }

  /** A single-record tool whose record is missing answers its not-found
      text: on a 404, on any error mentioning `404`, and on a falsy record. */
  lemma MissingRecordReported(svc: Services, k: ToolKind, args: Value, userId: Option<string>, traceId: Option<string>)
    requires Reaches(k, args, userId) && NotFoundReply(k).Some?
    ensures var r := Dispatch(svc, k, args, userId, traceId);
            var reply := svc.env.transport(r.requests[0]);
            var e := Thrown(svc.env, reply);
            ((reply.Response? && reply.status == 404) || (e.Some? && Contains(e.value, "404"))
               || (e.None? && !Truthy(svc.env.parseJson(reply.text).value)))
              ==> r.result == ErrorPayload(NotFoundReply(k).value)
  {
    var r := Dispatch(svc, k, args, userId, traceId);
    var reply := svc.env.transport(r.requests[0]);
    AdapterRethrows(svc, k, args, userId, traceId);
    if reply.Response? && reply.status == 404 {
      NotFoundText();
      HttpErrorMessageMentionsStatus(404, reply.text);
    }
  }

  /** A single record or a search result that decoded to a truthy value is
      handed to the model as it is. */
  lemma RecordPassesThrough(svc: Services, k: ToolKind, args: Value, userId: Option<string>, traceId: Option<string>)
    requires Reaches(k, args, userId) && (k.SearchProducts? || NotFoundReply(k).Some?)
    ensures |Dispatch(svc, k, args, userId, traceId).requests| == 1
    ensures var r := Dispatch(svc, k, args, userId, traceId);
            var reply := svc.env.transport(r.requests[0]);
            Thrown(svc.env, reply).None? && Truthy(svc.env.parseJson(reply.text).value) ==>
              r.result == svc.env.parseJson(reply.text).value
  {
    if IsOrderTool(k) {
      OrderDelivers(svc, k, args, userId.value, traceId);
    } else {
      CatalogDelivers(svc, k, args, traceId);
    }
  }

  /** The list tools reshape what decoded: the categories as
      `{ categories }` (`[]` when the body has none), the orders as the
      `{ orders, total, page, pageSize }` page with `limit` defaulting to 10;
      a `null` categories body throws on its property read. */
  lemma ListsReshaped(svc: Services, k: ToolKind, args: Value, userId: Option<string>, traceId: Option<string>)
    requires Reaches(k, args, userId) && (k.GetCategories? || k.GetMyOrders?)
    ensures var r := Dispatch(svc, k, args, userId, traceId);
            var reply := svc.env.transport(r.requests[0]);
            Thrown(svc.env, reply).None? ==>
              var v := svc.env.parseJson(reply.text).value;
              (k.GetCategories? && !Nullish(v) ==>
                 r.result == Obj([Member("categories", Or(Prop(v, "categories"), Arr([])))]))
              && (k.GetCategories? && Nullish(v) ==>
                 r.result == ErrorPayload(FailureMessage(ToolName(k), ReadErrorMessage(v, "categories"))))
              && (k.GetMyOrders? ==> r.result == OrderClient.OrdersResult(v, Or(Prop(args, "limit"), Num(10))))
  {
    if IsOrderTool(k) {
      OrderDelivers(svc, k, args, userId.value, traceId);
    } else {
      CatalogDelivers(svc, k, args, traceId);
    }
  }

  /** The search the model asks for is the one sent: the query string of
      the request's URL reads back as `q` (the query, else the category,
      else `*`), then the optional filters, then `limit`, which is always
      sent because it defaults to 10; `category` is sent exactly when there
      is a category and no query. */
  lemma SearchToolQuery(svc: Services, args: Value, userId: Option<string>, traceId: Option<string>)
    requires !Nullish(args)
    ensures var r := Dispatch(svc, SearchProducts, args, userId, traceId);
            var ps := ProductClient.SearchQuery(SearchArgs(args));
            var qs := FormEncoding.Serialize(ps);
            |r.requests| == 1
            && r.requests[0].url == InvokePrefix(svc.dapr, svc.productApp) + (ProductClient.SearchPath + qs)
            && FormEncoding.Parse(qs) == Some(ps)
            && |ps| >= 2
            && ps[0] == ("q", ToJsString(Or(Or(Prop(args, "query"), Prop(args, "category")), Str("*"))))
            && ps[|ps| - 1] == ("limit", ToJsString(Or(Prop(args, "limit"), Num(10))))
            && (("category" in ProductClient.Names(ps)) <==> !Truthy(Prop(args, "query")) && Truthy(Prop(args, "category")))
  {
    var p := SearchArgs(args);
    var ps := ProductClient.SearchQuery(p);
    SearchToolUrl(svc, args, userId, traceId);
    assert ProductClient.SearchEndpoint(p) == ProductClient.SearchPath + FormEncoding.Serialize(ps);
    FormEncoding.ParseSerialize(ps);
    SearchArgsQuery(args);
  }

  /** The query built from a search call's arguments, in their terms. */
  lemma SearchArgsQuery(args: Value)
    requires !Nullish(args)
    ensures var ps := ProductClient.SearchQuery(SearchArgs(args));
            |ps| >= 2
            && ps[0] == ("q", ToJsString(Or(Or(Prop(args, "query"), Prop(args, "category")), Str("*"))))
            && ps[|ps| - 1] == ("limit", ToJsString(Or(Prop(args, "limit"), Num(10))))
            && (("category" in ProductClient.Names(ps)) <==> !Truthy(Prop(args, "query")) && Truthy(Prop(args, "category")))
  {
    SearchQueryEnds(SearchArgs(args));
  }

  lemma SearchToolUrl(svc: Services, args: Value, userId: Option<string>, traceId: Option<string>)
    requires !Nullish(args)
    ensures var r := Dispatch(svc, SearchProducts, args, userId, traceId);
            |r.requests| == 1
            && r.requests[0].url == InvokePrefix(svc.dapr, svc.productApp) + ProductClient.SearchEndpoint(SearchArgs(args))
  {
    SearchToolRequest(svc, args, userId, traceId);
  }

  lemma SearchToolRequest(svc: Services, args: Value, userId: Option<string>, traceId: Option<string>)
    requires !Nullish(args)
    ensures var r := Dispatch(svc, SearchProducts, args, userId, traceId);
            |r.requests| == 1
            && r.requests[0] == ProductClient.SearchProducts(svc.env, svc.dapr, svc.productApp, SearchArgs(args), traceId).request
  {
    var x := CatalogCall(svc, SearchProducts, args, traceId);
    assert x.request == ProductClient.SearchProducts(svc.env, svc.dapr, svc.productApp, SearchArgs(args), traceId).request;
    assert Dispatch(svc, SearchProducts, args, userId, traceId).requests == [x.request];
  }

  /** The search query starts with `q` and ends with `limit`. */
  lemma SearchQueryEnds(p: ProductClient.SearchParams)
    requires Truthy(p.limit)
    ensures var ps := ProductClient.SearchQuery(p);
            |ps| >= 2
            && ps[0] == ("q", ToJsString(ProductClient.SearchTerm(p)))
            && ps[|ps| - 1] == ("limit", ToJsString(p.limit))
            && (("category" in ProductClient.Names(ps)) <==> ProductClient.UsesCategoryFilter(p))
  {
    var ps := ProductClient.SearchQuery(p);
    SearchNamesEnd(p);
    assert ps[0].0 == "q" && ps[|ps| - 1].0 == "limit";
    assert ps[0].1 == ProductClient.ExpectedValue(p, "q");
    assert ps[|ps| - 1].1 == ProductClient.ExpectedValue(p, "limit");
  }

  lemma SearchNamesEnd(p: ProductClient.SearchParams)
    requires Truthy(p.limit)
    ensures var names := ProductClient.ExpectedNames(p);
            |names| >= 2 && names[0] == "q" && names[|names| - 1] == "limit"
            && (("category" in names) <==> ProductClient.UsesCategoryFilter(p))
  {
    var c := ProductClient.Opt(ProductClient.UsesCategoryFilter(p), "category");
    var rest := ProductClient.Opt(p.minPrice != Undefined, "minPrice") + ProductClient.Opt(p.maxPrice != Undefined, "maxPrice");
    assert "category" !in rest;
    assert ProductClient.ExpectedNames(p) == ["q"] + c + rest + ["limit"];
  }

  /** The single-record and order-list tools address the record the model
      named: the product or order id from the arguments, or the logged-in
      user's order list; the order calls carry the user as `x-user-id`. */
  lemma RecordToolPaths(svc: Services, k: ToolKind, args: Value, userId: Option<string>, traceId: Option<string>)
    requires Reaches(k, args, userId) && !k.SearchProducts? && !k.GetCategories?
    ensures var r := Dispatch(svc, k, args, userId, traceId);
            var req := r.requests[0];
            req.verb == "GET"
            && (k.GetProductDetails? ==>
                  req.url == InvokePrefix(svc.dapr, svc.productApp) + "api/products/" + ToJsString(Prop(args, "productId")))
            && (k.GetMyOrders? ==>
                  req.url == InvokePrefix(svc.dapr, svc.orderApp) + "api/orders/customer/" + userId.value)
            && (k.GetOrderDetails? ==>
                  req.url == InvokePrefix(svc.dapr, svc.orderApp) + "api/orders/" + ToJsString(Prop(args, "orderId")))
            && (k.TrackOrder? ==>
                  req.url == InvokePrefix(svc.dapr, svc.orderApp) + "api/orders/" + ToJsString(Prop(args, "orderId")) + "/tracking")
            && (k.GetOrderDetails? || k.TrackOrder? ==> req.headers["x-user-id"] == userId.value)
  {
    ProductClient.GetVerbIsUpper();
    var req := Dispatch(svc, k, args, userId, traceId).requests[0];
    assert req == AdapterCall(svc, k, args, userId, traceId).request;
  }

  // ---------------------------------------------------------------------
  // Collecting records for the UI

  /** `collectedData`: a list is `None` until its key is first assigned. */
  datatype CollectedData = CollectedData(products: Option<seq<Value>>, orders: Option<seq<Value>>)

  const NoData := CollectedData(None, None)

  function Extend(xs: Option<seq<Value>>, more: seq<Value>): (r: Option<seq<Value>>)
    ensures r.Some? && r.value == xs.GetOr([]) + more
    ensures |r.value| >= |xs.GetOr([])| && r.value[..|xs.GetOr([])|] == xs.GetOr([])
  {
    Some(xs.GetOr([]) + more)
  }

  /** `collectToolData`: nothing from a result with a truthy `error`; the
      search and order-list arrays are concatenated as they are, duplicates
      kept; a product record only with a truthy `_id`; an order record only
      with a truthy `orderId` or `id`. */
  function Collect(name: string, result: Value, data: CollectedData): (d: CollectedData)
    requires !Nullish(result)
    ensures Truthy(Prop(result, "error")) ==> d == data
    ensures ToolKindOf(name) !in {Some(SearchProducts), Some(GetProductDetails), Some(GetMyOrders), Some(GetOrderDetails)} ==> d == data
    ensures d.orders == data.orders || d.products == data.products
    ensures d.products != data.products ==>
      !Truthy(Prop(result, "error")) && d.products.Some? && |d.products.value| >= |data.products.GetOr([])|
      && d.products.value[..|data.products.GetOr([])|] == data.products.GetOr([])
    ensures d.orders != data.orders ==>
      !Truthy(Prop(result, "error")) && d.orders.Some? && |d.orders.value| >= |data.orders.GetOr([])|
      && d.orders.value[..|data.orders.GetOr([])|] == data.orders.GetOr([])
    ensures ToolKindOf(name) == Some(SearchProducts) && !Truthy(Prop(result, "error")) ==>
      d == (if Prop(result, "products").Arr? then data.(products := Extend(data.products, Prop(result, "products").items)) else data)
    ensures ToolKindOf(name) == Some(GetProductDetails) && !Truthy(Prop(result, "error")) ==>
      d == (if Truthy(Prop(result, "_id")) then data.(products := Extend(data.products, [result])) else data)
    ensures ToolKindOf(name) == Some(GetMyOrders) && !Truthy(Prop(result, "error")) ==>
      d == (if Prop(result, "orders").Arr? then data.(orders := Extend(data.orders, Prop(result, "orders").items)) else data)
    ensures ToolKindOf(name) == Some(GetOrderDetails) && !Truthy(Prop(result, "error")) ==>
      d == (if Truthy(Prop(result, "orderId")) || Truthy(Prop(result, "id")) then data.(orders := Extend(data.orders, [result])) else data)
  {
    if Truthy(Prop(result, "error")) then data
    else
      match ToolKindOf(name)
      case Some(SearchProducts) =>
        var ps := Prop(result, "products");
        if Truthy(ps) && ps.Arr? then data.(products := Extend(data.products, ps.items)) else data
      case Some(GetProductDetails) =>
        if Truthy(result) && Truthy(Prop(result, "_id")) then data.(products := Extend(data.products, [result])) else data
      case Some(GetMyOrders) =>
        var os := Prop(result, "orders");
        if Truthy(os) && os.Arr? then data.(orders := Extend(data.orders, os.items)) else data
      case Some(GetOrderDetails) =>
        if Truthy(result) && (Truthy(Prop(result, "orderId")) || Truthy(Prop(result, "id"))) then
          data.(orders := Extend(data.orders, [result]))
        else data
      case _ => data
  }

  /** What the orchestrator collects from a tool call that made no
      downstream request: nothing. */
  lemma ErrorRunsNotCollected(svc: Services, name: string, argsJson: string, userId: Option<string>,
                              traceId: Option<string>, data: CollectedData)
    requires ExecuteToolCall(svc, name, argsJson, userId, traceId).requests == []
    ensures Collect(name, ExecuteToolCall(svc, name, argsJson, userId, traceId).result, data) == data
  {
    NoRequestMeansError(svc, name, argsJson, userId, traceId);
  }
}

=== FILE: tool_schema.dfy ===
/** The function-tool descriptors handed to the model: a name, a
    description and an object-typed parameter schema (its properties in
    declaration order and the names it requires). */
module ToolSchema {

  datatype ParamType = StringParam | NumberParam

  /** One property of a tool's parameter object; `enumValues` is empty when
      the property has no `enum` constraint. */
  datatype ParamSpec = ParamSpec(name: string, paramType: ParamType, description: string, enumValues: seq<string>)

  /** `{ type: kind, function: { name, description, parameters: { type: 'object', properties, required } } }` */
  datatype ToolDef = ToolDef(kind: string, name: string, description: string, properties: seq<ParamSpec>, required: seq<string>)

  function Names(ts: seq<ToolDef>): (ns: seq<string>)
    ensures |ns| == |ts|
    ensures forall i :: 0 <= i < |ts| ==> ns[i] == ts[i].name
  {
    if |ts| == 0 then [] else [ts[0].name] + Names(ts[1..])
  }

  function PropertyNames(ps: seq<ParamSpec>): (ns: seq<string>)
    ensures |ns| == |ps|
    ensures forall i :: 0 <= i < |ps| ==> ns[i] == ps[i].name
  {
    if |ps| == 0 then [] else [ps[0].name] + PropertyNames(ps[1..])
  }

  /** Every name a schema requires is one of its properties. */
  predicate RequiredDeclared(t: ToolDef) {
    forall i :: 0 <= i < |t.required| ==> t.required[i] in PropertyNames(t.properties)
  }
}

=== FILE: tools.dfy ===
/** The tool catalogue the orchestrator offers the model, and the closed set
    of tool names its dispatcher recognises. */
module Tools {
  import opened Base
  import opened ToolSchema
  import ProductTools
  import OrderTools

  datatype ToolKind =
    | SearchProducts
    | GetProductDetails
    | GetCategories
    | GetMyOrders
    | GetOrderDetails
    | TrackOrder

  /** `ToolNames` */
  function ToolName(k: ToolKind): string {
    match k
    case SearchProducts => "searchProducts"
    case GetProductDetails => "getProductDetails"
    case GetCategories => "getCategories"
    case GetMyOrders => "getMyOrders"
    case GetOrderDetails => "getOrderDetails"
    case TrackOrder => "trackOrder"
  }

  predicate IsOrderTool(k: ToolKind) {
    k.GetMyOrders? || k.GetOrderDetails? || k.TrackOrder?
  }

  /** The dispatcher's `switch (toolName)`: the kind whose name is exactly
      `name`, if any. */
  function ToolKindOf(name: string): (r: Option<ToolKind>)
    ensures r.Some? ==> ToolName(r.value) == name
    ensures r.None? ==> forall k :: ToolName(k) != name
  {
    if name == "searchProducts" then Some(SearchProducts)
    else if name == "getProductDetails" then Some(GetProductDetails)
    else if name == "getCategories" then Some(GetCategories)
    else if name == "getMyOrders" then Some(GetMyOrders)
    else if name == "getOrderDetails" then Some(GetOrderDetails)
    else if name == "trackOrder" then Some(TrackOrder)
    else None
  }

  /** `ToolNames` holds six pairwise-distinct names, so dispatch by name is
      unambiguous. */
  lemma ToolNamesDistinct(j: ToolKind, k: ToolKind)
    ensures ToolName(j) == ToolName(k) ==> j == k
  {
  }

  /** `allTools`: the catalog tools, then the order tools. */
  function AllTools(): (ts: seq<ToolDef>)
    ensures ts == ProductTools.ProductTools() + OrderTools.OrderTools()
    ensures |ts| == 6
  {
    ProductTools.ProductTools() + OrderTools.OrderTools()
  }

  /** The dispatcher's kind for each catalogue entry, in catalogue order. */
  const CatalogueKinds: seq<ToolKind> :=
    [SearchProducts, GetProductDetails, GetCategories, GetMyOrders, GetOrderDetails, TrackOrder]

  /** Where each kind sits in the catalogue. */
  function CataloguePosition(k: ToolKind): (i: nat)
    ensures i < |CatalogueKinds| && CatalogueKinds[i] == k
  {
    match k
    case SearchProducts => 0
    case GetProductDetails => 1
    case GetCategories => 2
    case GetMyOrders => 3
    case GetOrderDetails => 4
    case TrackOrder => 5
  }

  lemma CatalogueNames()
    ensures forall i :: 0 <= i < |AllTools()| ==> AllTools()[i].name == ToolName(CatalogueKinds[i])
  {
    var ts := AllTools();
    var ps := ProductTools.ProductTools();
    var os := OrderTools.OrderTools();
    forall i | 0 <= i < |ts|
      ensures ts[i].name == ToolName(CatalogueKinds[i])
    {
      if i < |ps| {
        assert ts[i] == ps[i];
        assert Names(ps)[i] == ps[i].name;
      } else {
        assert ts[i] == os[i - |ps|];
        assert Names(os)[i - |ps|] == os[i - |ps|].name;
      }
    }
  }

  lemma CatalogueKindsDistinct(i: nat, j: nat)
    requires i < |CatalogueKinds| && j < |CatalogueKinds|
    ensures CatalogueKinds[i] == CatalogueKinds[j] ==> i == j
  {
  }

  lemma CatalogueKindsOrder(i: nat)
    requires i < |CatalogueKinds|
    ensures IsOrderTool(CatalogueKinds[i]) <==> i >= 3
  {
  }

  lemma EveryKindOffered(k: ToolKind)
    ensures CataloguePosition(k) < |AllTools()| && AllTools()[CataloguePosition(k)].name == ToolName(k)
  {
    CatalogueNames();
  }

  lemma CatalogueNamesDistinct(i: nat, j: nat)
    requires i < |AllTools()| && j < |AllTools()|
    requires AllTools()[i].name == AllTools()[j].name
    ensures i == j
  {
    CatalogueNames();
    ToolNamesDistinct(CatalogueKinds[i], CatalogueKinds[j]);
    CatalogueKindsDistinct(i, j);
  }

  lemma CatalogueDispatched(i: nat)
    requires i < |AllTools()|
    ensures ToolKindOf(AllTools()[i].name) == Some(CatalogueKinds[i])
  {
    CatalogueNames();
    ToolNamesDistinct(ToolKindOf(AllTools()[i].name).value, CatalogueKinds[i]);
  }

  lemma ProductToolsFirst(i: nat)
    requires i < |AllTools()|
    ensures IsOrderTool(CatalogueKinds[i]) <==> i >= |ProductTools.ProductTools()|
  {
    assert |Names(ProductTools.ProductTools())| == 3;
    CatalogueKindsOrder(i);
  }

  /** The catalogue and the dispatcher agree: every kind is offered under
      exactly one catalogue entry, each entry is dispatched to its kind, and
      the catalog tools come before the order tools. */
  lemma CatalogueMatchesDispatch()
    ensures forall k :: CataloguePosition(k) < |AllTools()| && AllTools()[CataloguePosition(k)].name == ToolName(k)
    ensures forall i, j :: 0 <= i < |AllTools()| && 0 <= j < |AllTools()| && AllTools()[i].name == AllTools()[j].name ==> i == j
    ensures forall i :: 0 <= i < |AllTools()| ==> ToolKindOf(AllTools()[i].name) == Some(CatalogueKinds[i])
    ensures forall i :: 0 <= i < |AllTools()| ==> (IsOrderTool(CatalogueKinds[i]) <==> i >= |ProductTools.ProductTools()|)
  {
    forall k
      ensures CataloguePosition(k) < |AllTools()| && AllTools()[CataloguePosition(k)].name == ToolName(k)
    {
      EveryKindOffered(k);
    }
    forall i, j | 0 <= i < |AllTools()| && 0 <= j < |AllTools()| && AllTools()[i].name == AllTools()[j].name
      ensures i == j
    {
      CatalogueNamesDistinct(i, j);
    }
    forall i | 0 <= i < |AllTools()|
      ensures ToolKindOf(AllTools()[i].name) == Some(CatalogueKinds[i])
    {
      CatalogueDispatched(i);
    }
    forall i | 0 <= i < |AllTools()|
      ensures IsOrderTool(CatalogueKinds[i]) <==> i >= |ProductTools.ProductTools()|
    {
      ProductToolsFirst(i);
    }
  }
}

=== FILE: trace_context.dfy ===
/** Trace-context resolution for every incoming request: the trace id comes
    from `x-trace-id`, else `x-correlation-id`, else the trace-id field of a
    W3C `traceparent` header, else a fresh UUID; the span id from
    `x-span-id`, else the first 16 characters of a fresh UUID.  Both ids are
    echoed in the response headers.  The two UUIDs are parameters. */
module TraceContext {
  import opened Base

  /** A request header as the declared header type allows it: absent, one
      string, or an array of strings. */
  datatype HeaderValue = Missing | One(s: string) | Many(values: seq<string>)

  /** The request headers the middleware reads. */
  datatype TraceHeaders = TraceHeaders(traceId: HeaderValue, correlationId: HeaderValue,
                                       traceparent: HeaderValue, spanId: HeaderValue)

  /** The value an `||` chain settles on: a string or a header array. */
  datatype Picked = Text(s: string) | List(values: seq<string>)

  /** The resolved ids and the response headers that carry them. */
  datatype Resolved = Resolved(traceId: string, spanId: string, responseHeaders: map<string, string>)

  /** JavaScript truthiness of a header: a non-empty string, or any array,
      the empty one included. */
  predicate HeaderTruthy(h: HeaderValue) {
    (h.One? && h.s != "") || h.Many?
  }

  function AsPicked(h: HeaderValue): (p: Picked)
    requires HeaderTruthy(h)
  {
    if h.One? then Text(h.s) else List(h.values)
  }

  /** The second `-`-separated field of a text, when there is one. */
  function SecondField(s: string): (f: Option<string>)
    ensures f.Some? <==> |Split(s, '-')| > 1
    ensures f.Some? ==> f.value == Split(s, '-')[1]
  {
    var parts := Split(s, '-');
    if |parts| > 1 then Some(parts[1]) else None
  }

  /** `traceparent?.toString().split('-')[1]`; `None` stands for
      `undefined`.  An array header is first joined with commas. */
  function TraceparentField(h: HeaderValue): (f: Option<string>)
    ensures h.Missing? ==> f.None?
    ensures h.One? ==> f == SecondField(h.s)
    ensures h.Many? ==> f == SecondField(Join(h.values, ','))
  {
    match h
    case Missing => None
    case One(s) => SecondField(s)
    case Many(xs) => SecondField(Join(xs, ','))
  }

  /** The trace-id `||` chain. */
  function PickTraceId(h: TraceHeaders, freshTrace: string): (p: Picked)
    ensures HeaderTruthy(h.traceId) ==> p == AsPicked(h.traceId)
    ensures !HeaderTruthy(h.traceId) && HeaderTruthy(h.correlationId) ==> p == AsPicked(h.correlationId)
    ensures !HeaderTruthy(h.traceId) && !HeaderTruthy(h.correlationId) ==>
      p == Text(if PresentText(TraceparentField(h.traceparent)) then TraceparentField(h.traceparent).value
                else freshTrace)
  {
    if HeaderTruthy(h.traceId) then AsPicked(h.traceId)
    else if HeaderTruthy(h.correlationId) then AsPicked(h.correlationId)
    else
      var f := TraceparentField(h.traceparent);
      if PresentText(f) then Text(f.value) else Text(freshTrace)
  }

  const SpanIdLength := 16

  /** The span-id `||` chain. */
  function PickSpanId(h: TraceHeaders, freshSpan: string): (p: Picked)
    ensures HeaderTruthy(h.spanId) ==> p == AsPicked(h.spanId)
    ensures !HeaderTruthy(h.spanId) ==> p == Text(Substring(freshSpan, 0, SpanIdLength))
  {
    if HeaderTruthy(h.spanId) then AsPicked(h.spanId) else Text(Substring(freshSpan, 0, SpanIdLength))
  }

  /** `typeof v === 'string' ? v : v[0]`; `None` is the `undefined` the
      first element of an empty array gives. */
  function FirstValue(p: Picked): (v: Option<string>)
    ensures p.Text? ==> v == Some(p.s)
    ensures p.List? ==> (v.Some? <==> |p.values| > 0)
    ensures p.List? && |p.values| > 0 ==> v == Some(p.values[0])
  {
    match p
    case Text(s) => Some(s)
    case List(xs) => if |xs| > 0 then Some(xs[0]) else None
  }

  /** The error `setHeader` raises for an `undefined` value. */
  function InvalidHeaderMessage(name: string): string {
    "Invalid value \"undefined\" for header \"" + name + "\""
  }

  /** The middleware: both ids resolved and echoed, or the `setHeader` error
      for the first one that came out `undefined`. */
  function ResolveTraceContext(h: TraceHeaders, freshTrace: string, freshSpan: string): (r: Result<Resolved>)
    ensures var t := FirstValue(PickTraceId(h, freshTrace));
            var s := FirstValue(PickSpanId(h, freshSpan));
            (r.Ok? <==> t.Some? && s.Some?)
            && (t.None? ==> r == Err(InvalidHeaderMessage("x-trace-id")))
            && (t.Some? && s.None? ==> r == Err(InvalidHeaderMessage("x-span-id")))
            && (r.Ok? ==> r.value.traceId == t.value && r.value.spanId == s.value)
    ensures r.Ok? ==> r.value.responseHeaders == map["x-trace-id" := r.value.traceId, "x-span-id" := r.value.spanId]
  {
    var t := FirstValue(PickTraceId(h, freshTrace));
    var s := FirstValue(PickSpanId(h, freshSpan));
    if t.None? then Err(InvalidHeaderMessage("x-trace-id"))
    else if s.None? then Err(InvalidHeaderMessage("x-span-id"))
    else Ok(Resolved(t.value, s.value, map["x-trace-id" := t.value, "x-span-id" := s.value]))
  }

  // ---------------------------------------------------------------------
  // Properties of the resolution

  /** An explicit `x-trace-id` wins over every other source. */
  lemma ExplicitTraceIdWins(h: TraceHeaders, freshTrace: string, freshSpan: string)
    requires h.traceId.One? && h.traceId.s != ""
    requires !h.spanId.Many?
    ensures ResolveTraceContext(h, freshTrace, freshSpan).Ok?
    ensures ResolveTraceContext(h, freshTrace, freshSpan).value.traceId == h.traceId.s
  {
  }

  /** An empty header is as good as none: resolution falls through to the
      next source. */
  lemma EmptyHeaderFallsThrough(h: TraceHeaders, freshTrace: string, freshSpan: string)
    ensures ResolveTraceContext(h.(traceId := One("")), freshTrace, freshSpan)
         == ResolveTraceContext(h.(traceId := Missing), freshTrace, freshSpan)
    ensures ResolveTraceContext(h.(correlationId := One("")), freshTrace, freshSpan)
         == ResolveTraceContext(h.(correlationId := Missing), freshTrace, freshSpan)
    ensures ResolveTraceContext(h.(spanId := One("")), freshTrace, freshSpan)
         == ResolveTraceContext(h.(spanId := Missing), freshTrace, freshSpan)
  {
  }

  /** A `traceparent` written as `version-traceid-parentid-flags` (section
      3.2 of W3C Trace Context Level 1) yields its trace-id field when
      neither id header is present. */
  lemma {:induction false} TraceparentGivesTraceId(version: string, traceId: string, parentId: string, flags: string,
                                                   freshTrace: string, freshSpan: string, spanId: HeaderValue)
    requires Free(version, '-') && Free(traceId, '-') && Free(parentId, '-') && Free(flags, '-')
    requires traceId != ""
    requires !spanId.Many?
    ensures var tp := version + "-" + traceId + "-" + parentId + "-" + flags;
            var r := ResolveTraceContext(TraceHeaders(Missing, Missing, One(tp), spanId), freshTrace, freshSpan);
            r.Ok? && r.value.traceId == traceId
  {
    var parts := [version, traceId, parentId, flags];
    var tp := version + "-" + traceId + "-" + parentId + "-" + flags;
    assert Join(parts[3..], '-') == flags;
    assert Join(parts[2..], '-') == parentId + "-" + flags by {
      assert parts[2..][1..] == parts[3..];
    }
    assert Join(parts[1..], '-') == traceId + "-" + parentId + "-" + flags by {
      assert parts[1..][1..] == parts[2..];
    }
    assert Join(parts, '-') == tp by {
      assert parts[1..] == [traceId, parentId, flags];
    }
    SplitJoin(parts, '-');
    assert Split(tp, '-')[1] == traceId;
  }

  /** A `traceparent` without any `-` has no second field, so the fresh UUID
      is used. */
  lemma NoDashFallsBack(tp: string, freshTrace: string, freshSpan: string, spanId: HeaderValue)
    requires Free(tp, '-')
    requires !spanId.Many?
    ensures var r := ResolveTraceContext(TraceHeaders(Missing, Missing, One(tp), spanId), freshTrace, freshSpan);
            r.Ok? && r.value.traceId == freshTrace
  {
    SplitFree(tp, '-');
  }

  /** With no span header the span id is the first 16 characters of the
      fresh UUID. */
  lemma FreshSpanIdPrefix(h: TraceHeaders, freshTrace: string, freshSpan: string)
    requires !HeaderTruthy(h.spanId)
    requires |freshSpan| >= SpanIdLength
    requires ResolveTraceContext(h, freshTrace, freshSpan).Ok?
    ensures ResolveTraceContext(h, freshTrace, freshSpan).value.spanId == freshSpan[..SpanIdLength]
  {
  }

  /** An array-valued header resolves to its first element; an empty array
      makes the response header write fail. */
  lemma ArrayHeaderFirstValue(xs: seq<string>, h: TraceHeaders, freshTrace: string, freshSpan: string)
    requires h.traceId == Many(xs)
    ensures |xs| == 0 ==> ResolveTraceContext(h, freshTrace, freshSpan) == Err(InvalidHeaderMessage("x-trace-id"))
    ensures |xs| > 0 && ResolveTraceContext(h, freshTrace, freshSpan).Ok? ==>
      ResolveTraceContext(h, freshTrace, freshSpan).value.traceId == xs[0]
  {
  }
}
